=== FILE: README.md ===
# Artifact detection on EEG recordings — a Dafny model

This project models the artifact-flagging core of a small EEG toolkit. The
toolkit reads an examination exported by a GALNT amplifier (an ASC file) or
by a newer device (a UTF-16 TXT file). It cuts every channel into 4-second
blocks and flags the blocks that carry one of three artifacts:

- **EEP** (external electrostatic potential): a block's minimum or maximum is
  above a per-channel threshold. The threshold is the median plus six
  standard deviations of the log-normalised extrema.
- **ECG**: the EEG channels correlate with the ECG channel above 0.9.
- **LFP** (low-frequency potential): a Fourier power ratio is above
  0.75 + 0.25 × its median.

Per-channel flags are OR-ed into one flag per block. The flagged blocks
become `Start`/`End` sample intervals in a tab-separated result file.

Around this pipeline the model also covers:

- the tag reader that collects event times from a description file;
- the code that turns those times into overlapping epochs of the signal.

Floating-point numerics are parameters of the model rather than
definitions: the base-10 logarithm, the square root, the FFT, Pearson's
correlation and numpy's conversion of a token to a float, which may fail.
The square root comes with the ghost predicate `Auxiliary.IsSqrt`, which
constrains it. Python exceptions become `Err` values of `Outcome.Result`,
one `Error` constructor per way the modelled code can raise, down to the
64-bit integer array that cannot hold a position of 2^63; the few
exceptions the model rules out by a precondition instead are listed under
"Left out".

Modules, in dependency order:

| module | file | models |
|---|---|---|
| `Outcome` | outcome.dfy | `Result`, `Option` and the error kinds |
| `Text` | text.dfy | `in`, `lower()`, `split()`, `split(sep)` on strings |
| `Arithmetic` | arithmetic.dfy | order facts about multiplying by a nonnegative factor |
| `Decimal` | decimal.dfy | `str()` and `int()` of naturals; digit harvesting |
| `Sorting` | sorting.dfy | the sorting inside `statistics.median` |
| `Auxiliary` | auxiliary.dfy | auxiliaryFunctions.py |
| `Thresholds` | thresholds.dfy | thresholdCalculation.py |
| `Blocks` | blocks.dfy | the 4-second block grid shared by all detectors |
| `Detection` | detection.dfy | artifactDetection.py |
| `FileCreating` | intervals.dfy | fileCreating.py |
| `DataExtraction` | extraction.dfy | dataExtraction.py |
| `Tags` | tags.dfy | `get_time_tags` in processing_func.py |
| `Frames` | frames.dfy | `get_tag_frames` in processing_func.py |

The LFP threshold needs one value, not two: `calculateThresholdLFP` only
takes a median, which is defined for a single value. The model follows the
code, so `Thresholds.ThresholdLfp` fails only on an empty list.

## Model

| member | source | states |
|---|---|---|
| Text.IndexOf | dataExtraction.py:98 | `p in s`: the result is the first position where `p` occurs, and None means it occurs nowhere |
| Text.ContainsIff | dataExtraction.py:98 | substring membership holds exactly when the pattern occurs at some position |
| Text.ToLower | dataExtraction.py:98 | `lower()` keeps the length and lowers each character independently |
| Text.SplitOn | dataExtraction.py:109 | the channel line split on `", "` gives at least one piece; no piece contains the separator; joining the pieces with it gives back the line; there is one piece exactly when the separator is absent, the first cut is at its first occurrence (`IndexOf`), and every cut is leftmost: no piece followed by the separator's first characters holds the separator |
| Text.SplitOnce | processing_func.py:108 | the first split at a character: None exactly when the character is absent; otherwise the two parts rebuild the text and the first part has no such character |
| Text.SplitOnceOfJoined | processing_func.py:108 | splitting `a + [c] + b` at `c`, when `a` has no `c`, returns exactly `(a, b)` |
| Text.Words | dataExtraction.py:197 | `split()` yields only nonempty tokens that contain no white space |
| Text.WordsOfSpaces | dataExtraction.py:197 | text made only of white space has no token |
| Text.WordsOfWord | dataExtraction.py:197 | nonempty text without white space is one token |
| Text.WordsSplitAt | dataExtraction.py:197 | a white-space character splits the tokens into those before it and those after it; with the two rows above this fixes `split()` on every text |
| Text.WordsOfSpaced | dataExtraction.py:197 | a leading word followed by white space is the first token, and tokenising continues after it |
| Decimal.Show | fileCreating.py:23-24 | `str(n)` is a nonempty digit string with no leading zero unless n is 0 |
| Decimal.ValueOfShow | fileCreating.py:23-24 | reading back `str(n)` gives n |
| Decimal.ParseNat | dataExtraction.py:123 | `int()` of a digit string fails exactly on the empty string, otherwise gives its value |
| Decimal.DigitsOf | dataExtraction.py:99-101 | the harvested characters are digits and never more than the line, and a line without digits yields none |
| Decimal.DigitsOfAppend | dataExtraction.py:99-101 | harvesting digits distributes over concatenation, so the digits come out in line order |
| Decimal.DigitsBeforeDotIsPrefixDigits | dataExtraction.py:103-107 | the sampling-rate harvest equals the digits of the line up to its first '.', or of the whole line when there is none |
| Sorting.Sort | auxiliaryFunctions.py:18-20 | the median's sort yields an ordered permutation of its input |
| Sorting.SortOfSorted | auxiliaryFunctions.py:18-20 | sorting an already ordered list returns it unchanged |
| Sorting.SortBounded | auxiliaryFunctions.py:18-20 | sorting keeps the length and any common bounds of the values |
| Auxiliary.MedianOfSorted | auxiliaryFunctions.py:18-20 | `Median` (the sorted list's middle value): for an ordered list it is the middle element (odd length) or the mean of the two middle ones (even length) |
| Auxiliary.MedianBounded | auxiliaryFunctions.py:18-20 | the median lies within any bounds of the values, so a constant list's median is that constant |
| Auxiliary.SquaredDeviationsZero | auxiliaryFunctions.py:35-37 | the sum of squared deviations is nonnegative, and zero exactly when every value equals the centre |
| Auxiliary.VarianceZeroIffConstant | auxiliaryFunctions.py:35-37 | `Variance` (squared deviations from `Mean` over n − 1): the sample variance is nonnegative, and zero exactly for a constant list |
| Auxiliary.StandardDeviation | auxiliaryFunctions.py:35-37 | with a square root, the sample deviation needs two values, is nonnegative, and is zero exactly for a constant list |
| Auxiliary.SquaredNorm | auxiliaryFunctions.py:52-56 | a bin's squared modulus is nonnegative, and zero only for a zero coefficient |
| Auxiliary.SquareModulus | auxiliaryFunctions.py:52-56 | the power spectrum has one nonnegative entry per coefficient, zero exactly where the coefficient is zero |
| Auxiliary.Linspace | auxiliaryFunctions.py:85 | the frequency axis has one point per bin, runs from 0 to half the sampling rate, and is nondecreasing |
| Auxiliary.LinspaceOrdered | auxiliaryFunctions.py:85 | the evenly spaced points start at 0, end at the stop value and stay ordered within it |
| Auxiliary.MaskedSumNested | auxiliaryFunctions.py:88-98 | `MaskedSum` (`sum(p[mask])`), from which `Numerator` (bins below lambda, lines 88-91) and `Denominator` (bins below Nyquist minus the mains notch, lines 94-98) are built: a band of bins inside an outer band and outside an inner one sums to at most the outer sum minus the inner sum |
| Auxiliary.FourierRatio | auxiliaryFunctions.py:101-104 | the quotient of `Numerator` by `Denominator`: a zero numerator gives 0 whatever the denominator; otherwise the result times the denominator is the numerator, and only a zero denominator fails |
| Auxiliary.RatioWithinUnit | auxiliaryFunctions.py:94-104 | with lambda below the notch and both below Nyquist, the ratio of a nonnegative spectrum exists and lies in [0, 1] |
| Auxiliary.DegenerateRatioExample | auxiliaryFunctions.py:101-104 | the denominator is not guarded: a notch covering the whole Nyquist band fails on a nonzero numerator |
| Auxiliary.FourierFunction | auxiliaryFunctions.py:79-107 | an empty block fails; otherwise the value is the ratio over the squared FFT and its frequency axis |
| Thresholds.NormalisedMins | thresholdCalculation.py:23-30 | one `Normalise`d minimum per block, `log10` of the absolute value or 0 for 0 |
| Thresholds.NormalisedMaxes | thresholdCalculation.py:31-35 | one normalised maximum per block, `log10` of the absolute value or 0 for 0 |
| Thresholds.MedianPlusSixSigma | thresholdCalculation.py:38-47 | the threshold of one list fails exactly when it has fewer than two values |
| Thresholds.SixSigmaAboveMedian | thresholdCalculation.py:42-47 | the threshold is never below the median, and equals it exactly for a constant list |
| Thresholds.ThresholdsEep | thresholdCalculation.py:17-53 | the EEP threshold pair needs at least two blocks |
| Thresholds.ThresholdsIndependent | thresholdCalculation.py:38-47 | the minimum threshold depends only on the normalised minima and the maximum threshold only on the normalised maxima |
| Thresholds.ThresholdsAboveMedians | thresholdCalculation.py:42-47 | each EEP threshold is at least the median of its normalised list |
| Thresholds.ThresholdsOfConstant | thresholdCalculation.py:23-47 | blocks whose normalised extrema are all `(a, b)` get thresholds exactly `(a, b)` |
| Thresholds.ThresholdsOfZeros | thresholdCalculation.py:23-47 | an all-zero extrema list of two or more blocks gives thresholds (0, 0) |
| Thresholds.ThresholdLfp | thresholdCalculation.py:84-92 | the LFP threshold needs one value and sits 0.75 above a quarter of the median |
| Thresholds.ThresholdLfpMonotone | thresholdCalculation.py:89 | a larger median never gives a smaller LFP threshold |
| Thresholds.ThresholdLfpOfFractions | thresholdCalculation.py:84-92 | for ratios in [0, 1] the threshold lies in [0.75, 1]; only ratios above 0.75 can exceed it; a constant list exceeds nothing |
| Blocks.BlockCount | artifactDetection.py:30-33 | the number of blocks is the number of whole 4-second periods in the examination |
| Blocks.Slice | artifactDetection.py:44-45 | a slice past the end is shortened or empty, and each element is the one at the offset position |
| Blocks.BlockEmpty | artifactDetection.py:43-45 | block k is empty exactly when the sampling rate is 0 or the channel ends at or before the block's start |
| Blocks.LaterBlockEmpty | artifactDetection.py:43-48 | once a block is empty every later block is empty too |
| Blocks.SomeBlockEmptyIff | artifactDetection.py:43-48 | `SomeBlockEmpty` (a zero rate, or a channel that ends by the start of the last block) is exactly "one of the first n blocks has no samples" |
| Blocks.BlocksStayInGrid | artifactDetection.py:36-48 | `Block` (the `Step`-long slice at offset i·step): each block holds at most one step of samples, all taken from the channel at the block's offset and before sample n·step |
| Blocks.TrailingSamplesIgnored | artifactDetection.py:43-48 | samples after the last whole block never change any block |
| Blocks.Column | artifactDetection.py:105-107 | `inputData[:, c]` has one entry per row, the row's c-th value |
| Blocks.ColumnOfRowBlock | artifactDetection.py:148-152 | a column of a row block is the same block of the whole column |
| Detection.Min | artifactDetection.py:44 | `min` returns an element not above any other |
| Detection.Max | artifactDetection.py:45 | `max` returns an element not below any other |
| Detection.FlaggedNonzero | artifactDetection.py:60-64 | `Flagged` (the per-block test of lines 57-69): with both extrema nonzero a block is flagged exactly when a log-normalised extremum exceeds its threshold |
| Detection.FlaggedMixesScales | artifactDetection.py:65-69 | with a zero extremum the raw values are compared, so a raw maximum of 5 beats a log-scale threshold of 1 |
| Detection.ChannelExtrema | artifactDetection.py:43-48 | one (min, max) pair per block, each the block's own extremes |
| Detection.FlagBlocks | artifactDetection.py:56-69 | one decision per block, each the block's flag against the thresholds |
| Detection.DetectEep | artifactDetection.py:25-72 | EEP fails on an empty block or fewer than two blocks; otherwise it gives one flag per block, set exactly when the block's extrema beat the channel thresholds |
| Detection.DetectEepErrorByLength | artifactDetection.py:43-53 | whether and how EEP fails depends only on the channel's length |
| Detection.FlaggedAboveMedian | artifactDetection.py:57-64 | a flagged block with nonzero extrema has a normalised extremum above the median of its list |
| Detection.ConstantChannelExtrema | artifactDetection.py:43-48 | every block of a constant channel has that constant as min and max |
| Detection.ConstantNotFlagged | artifactDetection.py:57-69 | a block whose min and max are both v is not flagged against thresholds equal to v's normalised value |
| Detection.ConstantChannelFlagsNothing | artifactDetection.py:25-72 | a constant channel with whole blocks flags no block |
| Detection.ChannelColumn | artifactDetection.py:104-107 | 19 channels read columns 1..19 and 20 channels read columns 0..19 |
| Detection.ChannelColumnsDistinct | artifactDetection.py:104-107 | distinct channels read distinct columns |
| Detection.MergeFlags | artifactDetection.py:117-121 | merging flips a flag from false to true when the channel flags it, and never back |
| Detection.CombineChannels | artifactDetection.py:111-121 | the first failing channel's error is returned; otherwise, seeded by channel 0, each block is flagged exactly when some channel flags it |
| Detection.EepChannels | artifactDetection.py:103-109 | one EEP result per channel, each one flag per block; the channels fail together |
| Detection.EepChannelsAreColumns | artifactDetection.py:103-108 | channel c's result is EEP on the column its layout picks |
| Detection.PerformEepDetection | artifactDetection.py:94-124 | no channels give no flags; a layout other than 19 or 20 fails; otherwise one flag per block, set when some channel flags it, with the EEP message |
| Detection.Coefficients | artifactDetection.py:148-155 | one coefficient per EEG channel, that channel's column correlated with column 0 |
| Detection.MaxCoefficient | artifactDetection.py:158-161 | the signed largest coefficient, or 0 when there are none |
| Detection.MaxCoefficientExceeds | artifactDetection.py:158-161 | against a nonnegative threshold the maximum exceeds it exactly when some coefficient does, so a −1 never triggers |
| Detection.DetectEcg | artifactDetection.py:143-164 | a block with fewer than two rows fails once a channel is correlated; otherwise the value is the largest coefficient |
| Detection.PerformEcgDetection | artifactDetection.py:186-222 | one flag per block, set exactly when the block's largest coefficient is strictly above 0.9; a short block fails |
| Detection.BlockRatios | artifactDetection.py:269-273 | one Fourier value per block, computed on that block |
| Detection.DetectLfp | artifactDetection.py:251-287 | the first failing block fails LFP, as does a recording without a block; otherwise one flag per block, set exactly when its ratio is strictly above 0.75 + 0.25 × median |
| Detection.LfpFlagsOnlyHighRatios | artifactDetection.py:276-284 | with a well-placed lambda and notch every ratio lies in [0, 1] and only ratios above 0.75 are flagged |
| Detection.LfpChannels | artifactDetection.py:323-329 | one LFP result per channel, on the column its layout picks |
| Detection.PerformLfpDetection | artifactDetection.py:315-344 | no channels give no flags; a layout other than 19 or 20 fails; otherwise the run fails exactly when some channel fails, with the first failing channel's error, and succeeds with one flag per block, set when some channel flags it |
| FileCreating.CountTrue | fileCreating.py:43 | the count is the multiplicity of `True` in the flags |
| FileCreating.TrueIndices | fileCreating.py:49 | one index per `True`, each naming a flagged block, strictly increasing |
| FileCreating.TrueIndexOf | fileCreating.py:49 | every flagged block appears among the indices |
| FileCreating.BlockInterval | fileCreating.py:57-59 | every interval is exactly one step wide |
| FileCreating.MarkArtifacts | fileCreating.py:41-65 | the intervals `markArtifacts` returns when every position fits the integer array (see FillArray): one row per flagged block, each one step wide |
| FileCreating.FillArray | fileCreating.py:57-63 | the loop filling the 64-bit integer array raises OverflowError (`IntegerOverflow`) exactly when some flagged block ends at 2^63 or later (`Overflows`); otherwise it produces exactly the intervals of the flagged blocks in order |
| FileCreating.RowsAreFlaggedBlocks | fileCreating.py:49-61 | every row is the interval of some flagged block |
| FileCreating.FlaggedBlocksHaveRows | fileCreating.py:49-61 | every flagged block has its interval among the rows |
| FileCreating.FlaggedIffHasRow | fileCreating.py:49-61 | with a positive sampling rate a block is flagged exactly when its interval is a row |
| FileCreating.RowStartNamesBlock | fileCreating.py:57-59 | a row starting at i·step is block i's interval, and block i is flagged |
| FileCreating.MarkedRowsOrdered | fileCreating.py:49-61 | rows come in strictly increasing start order and never overlap |
| FileCreating.ConsecutiveIndices | fileCreating.py:49 | two adjacent flagged blocks are adjacent among the indices |
| FileCreating.AdjacentRowsAbut | fileCreating.py:57-61 | adjacent flagged blocks give two consecutive rows that abut and are not merged |
| FileCreating.NextBlockStarts | fileCreating.py:58-59 | a block's end is the next block's start |
| FileCreating.NothingFlaggedNoRows | fileCreating.py:43-49 | no flagged block means no rows |
| FileCreating.MarkArtifactsExample | fileCreating.py:41-65 | flags T,T,F,T at 512 Hz give rows (0, 2048), (2048, 4096), (6144, 8192) |
| FileCreating.OverflowExample | fileCreating.py:46-61 | one flagged block at 2^61 Hz ends at 2^63 and cannot be stored; at 2^61 − 1 Hz it fits |
| FileCreating.NoSeparatorInNumber | fileCreating.py:23-24 | a written number never contains a tab or a newline |
| FileCreating.ParseRowsText | fileCreating.py:22-24 | `RowsText` (one `RowText` line per row): the row lines read back to exactly the rows written |
| FileCreating.ParseRender | fileCreating.py:20-24 | `Render` (the header line followed by `RowsText`): the whole file text reads back to exactly the rows written |
| FileCreating.CreateFile | fileCreating.py:14-25 | nothing is written when the file exists; otherwise the text starts with the header and reads back to the rows |
| DataExtraction.SuffixesExclusive | dataExtraction.py:56-59 | no path ends in both "asc" and "txt" |
| DataExtraction.FormatOf | dataExtraction.py:55-60 | the reader is ASC exactly for an "asc" suffix, TXT exactly for "txt", none otherwise |
| DataExtraction.CheckFile | dataExtraction.py:14-38 | a file is valid exactly when it is "asc" with the GALNT first line, or a decodable "txt" whose first line starts with `%%%%%` |
| DataExtraction.ValidFileHasReader | dataExtraction.py:55-60 | every file judged valid has a reader, and a valid TXT file is decodable |
| DataExtraction.Remove | dataExtraction.py:115 | `list.remove` takes out exactly one occurrence of the item: the result is one shorter and has the item's multiplicity lowered by one |
| DataExtraction.RemoveAtFirst | dataExtraction.py:115 | `FirstPosition` is the first index holding the item; `list.remove` drops exactly that element and keeps the others in order |
| DataExtraction.RemoveFirst | dataExtraction.py:115 | some position holds the item, no earlier one does, and the result is the list without that position |
| DataExtraction.RemoveAppended | dataExtraction.py:112-120 | appending a field and removing it again restores the list when the field was not already there |
| DataExtraction.Kept | dataExtraction.py:108-121 | the kept fields are none of the `EKG-RF`/`MK-RF` fields |
| DataExtraction.CountDropped | dataExtraction.py:113-121 | the dropped count is the number of fields minus the kept ones |
| DataExtraction.CountEcg | dataExtraction.py:113-116 | ECG fields are among the dropped ones |
| DataExtraction.FieldStepClean | dataExtraction.py:111-121 | one field is either appended to the names or dropped; it lowers the EEG count when dropped and raises the ECG count when it names `EKG-RF` |
| DataExtraction.FieldsFoldFilters | dataExtraction.py:111-121 | processing the fields appends exactly the kept fields in order, lowers the EEG count by the dropped ones and adds the ECG fields |
| DataExtraction.ChannelLineCounts | dataExtraction.py:108-121 | a channel line resets the EEG count to its kept fields, appends them to the names and adds its ECG fields; the other header values are untouched |
| DataExtraction.SingleChannelLine | dataExtraction.py:108-121 | with one channel line in the header the names are its kept fields in order, the EEG count their number and the ECG count its `EKG-RF` fields |
| DataExtraction.HeaderOf | dataExtraction.py:96-97 | the header is the first eleven lines, or all lines when there are fewer |
| DataExtraction.HeaderStepCollects | dataExtraction.py:98-108 | `HeaderStep` (one pass of the if/elif chain): a "seconds" line contributes all its digits to the duration and is never read as the rate line; a rate line contributes its digits before the first '.' |
| DataExtraction.HeaderFoldCollects | dataExtraction.py:96-107 | `HeaderFold` (the loop over the header lines): the duration digits are all digits of the "seconds" lines, the rate digits those of the rate lines, in line order |
| DataExtraction.NoChannelLines | dataExtraction.py:96-108 | header lines without "EKG" leave the channel list and counts unchanged |
| DataExtraction.HeaderChannels | dataExtraction.py:96-121 | reading header lines appends the kept fields of every channel line in order, adds up their `EKG-RF` fields and leaves the EEG count of the last channel line |
| DataExtraction.ChannelStepCounts | dataExtraction.py:97-121 | one header line changes the names and counts only when it is the channel line of the if/elif chain |
| DataExtraction.ExtractAsc | dataExtraction.py:87-123 | the ASC reader fails exactly when the duration or rate has no digits; otherwise it returns their values, the data, the kept fields of every channel line as names, their `EKG-RF` fields as the ECG count and the EEG count of the last channel line (0 names and counts without a channel line) |
| DataExtraction.TxtRateDigits | dataExtraction.py:176-183 | the TXT sampling rate is harvested from the fifteen information lines only |
| DataExtraction.WithoutShort | dataExtraction.py:205-207 | removing every "SHORT" leaves no "SHORT" token |
| DataExtraction.CleanRowCells | dataExtraction.py:197-212 | `CleanRow`: a row cleans to 20 cells exactly when it has 46 tokens and 20 remain after dropping 4 + 42 and every "SHORT"; the cells are the first 20 of those, with no "SHORT" and no "AMPSAT" reading left |
| DataExtraction.RowValues | dataExtraction.py:217-220 | converting a row fails with NotANumber exactly when some reading does not convert; otherwise one value per cell, a saturated cell reading 0 |
| DataExtraction.RowError | dataExtraction.py:197-220 | a data row stops the reading exactly when it does not clean, lands past the array or does not convert, checked in that order |
| DataExtraction.WriteRow | dataExtraction.py:197-220 | one data row is written exactly when it cleans, has a free row and converts; otherwise its error is the first one the data rows raise |
| DataExtraction.RowsFitIff | dataExtraction.py:186-220 | the rows fit exactly when no data row stops the reading |
| DataExtraction.NonBreak | dataExtraction.py:193-195 | the data rows are the lines without a break marker |
| DataExtraction.WrittenRows | dataExtraction.py:174 | `Written` (the reference array): it has `dataLines` rows of 20; the first hold the cleaned data rows in order, the rest stay zero |
| DataExtraction.WrittenStep | dataExtraction.py:217-220 | writing the next cleaned row at the kept-row index extends the array by exactly that row |
| DataExtraction.ReadRows | dataExtraction.py:186-220 | reading succeeds exactly when every data row cleans, converts and fits the array, which then holds them; otherwise it fails with the error of the first data row that stops the reading |
| DataExtraction.NonBreakStep | dataExtraction.py:193-196 | each scanned line adds itself to the data rows unless it is a break line |
| DataExtraction.RetainedHolds | dataExtraction.py:189-191 | a line that is not a truncated last line belongs to the retained rows |
| DataExtraction.ScanComplete | dataExtraction.py:187-191 | stopping at a truncated last line, or at the end, has read exactly the retained data rows (`Retained`: the scanned lines without a last line that starts like a cut-off "SHORT") |
| DataExtraction.RowStopsReading | dataExtraction.py:197-220 | a row that stops the reading after rows that did not means the rows do not fit, and it is the first failing data row |
| DataExtraction.FloorDivision | dataExtraction.py:223 | `int(rows / rate)` is the largest whole number of seconds the rows cover |
| DataExtraction.ExtractTxt | dataExtraction.py:150-224 | the TXT reader succeeds exactly when the line count (`DataLineCount`: lines after the fifteen information lines, less the break lines) is nonnegative, the rows convert and fit and the rate is a positive number; it then returns (`TxtExtracted`) the fixed 20 channel names, an array whose rows are the cleaned, converted data rows in order followed by zero rows (`Written`), the harvested rate, and the row count divided by the rate, rounded down, as the duration; a failure names its cause in Python's order (`TxtFailed`): `NegativeLength`, then the first data row's error, then `NotANumber` for a rate without digits, then `ZeroSamplingRate` |
| DataExtraction.ExtractData | dataExtraction.py:55-60 | unknown suffixes fail; "asc" gives the ASC reader's result; "txt" succeeds exactly as the TXT reader does and then holds what it holds (`TxtExtracted`): the fixed channel list, the cleaned, converted rows, the rate and the duration; it fails with the same error (`TxtFailed`) |
| Tags.ScanLines | processing_func.py:50-75 | the only way scanning fails is a needed line without a second token |
| Tags.GetTimeTags | processing_func.py:41-78 | reading tags fails only on a missing second token |
| Tags.FirstMarked | processing_func.py:55-61 | the first line containing "d1", or None when no line does |
| Tags.UnmarkedLinesSkipped | processing_func.py:55-61 | lines before the recording line change nothing |
| Tags.FirstLineStep | processing_func.py:55-61 | the recording line yields its second token as the only begin entry, failing without one |
| Tags.ExpectedStep | processing_func.py:63-75 | `TagStep` (one line of the loop after the recording line): a further line closes an open event with its second token, and opens one when it names the tag |
| Tags.ReadableStep | processing_func.py:63-75 | a prefix reads without error, and its next line has a second token when it closes or opens an event |
| Tags.ScanAppend | processing_func.py:50-75 | scanning two blocks of lines is scanning the first, then the second from where it stopped |
| Tags.RecordingScan | processing_func.py:50-75 | from the recording line on, scanning succeeds exactly when every needed line has a second token (`Needed`, `Readable`), and yields the reference lists `Expected` builds from `TagStep` |
| Tags.TimeTagsOfFile | processing_func.py:41-78 | no "d1" line gives empty lists; otherwise the tags are the recording line's time, the times of the tag lines and the times of the lines after them |
| Tags.StartsMatchStops | processing_func.py:63-75 | every start has a stop except one left open by a last line naming the tag |
| Tags.TagCountsBalanced | processing_func.py:63-75 | at most one begin time, and the start count is the stop count or one more |
| Frames.ParseTime | processing_func.py:108 | `strptime` with `%H:%M:%S` yields a valid clock time or fails with a bad time |
| Frames.ParseShowTime | processing_func.py:108 | `ShowTime` (HH:MM:SS with two-digit fields): every valid clock time written that way parses back to itself |
| Frames.SampleIndexIsElapsed | processing_func.py:116-122 | `SampleIndex` (lines 117-122, field by field): the sample index is the elapsed seconds since begin times the rate: 0 at begin, monotone in time, negative before begin |
| Frames.PySliceBounds | processing_func.py:124 | `PySlice` (bounds resolved by `Clamp`): inside the signal a slice is the plain subsequence; a negative bound counts from the end; crossed bounds give nothing |
| Frames.FrameIsTagWindow | processing_func.py:116-141 | inside the recording a frame is exactly the samples between its two indices, and a long frame is cut into the epochs of that window |
| Frames.StampsAreMultiples | processing_func.py:133 | `Stamps` (`np.arange(0, n+1, step)`): the time stamps are the multiples of the step up to the frame length |
| Frames.StampGaps | processing_func.py:133-135 | each epoch stop is two steps after its start and within the frame |
| Frames.Epochs | processing_func.py:133-143 | every epoch keeps all channels and is two steps long |
| Frames.EpochAt | processing_func.py:138-143 | epoch j is samples j·step to j·step + 2·step of every channel |
| Frames.EpochCount | processing_func.py:133-138 | a negative step gives no epochs; a positive one gives (length div step) − 1, or none |
| Frames.EpochsUniform | processing_func.py:141-143 | every epoch has the frame's channels and twice the step as length |
| Frames.EpochsOverlap | processing_func.py:133-143 | consecutive epochs overlap by one step: the second half of one is the first half of the next |
| Frames.FrameEpochs | processing_func.py:114-148 | one pair fails only on a bad time or a zero step; all its epochs are two steps long on every channel |
| Frames.ShortFramesSkipped | processing_func.py:127-148 | a frame no longer than one epoch gives nothing; a longer one fails exactly when the step is 0 |
| Frames.CollectFrames | processing_func.py:110-148 | the pairs' epochs in order, failing only on a bad time or a zero step |
| Frames.CollectPrefix | processing_func.py:110 | collecting k pairs reads nothing beyond them |
| Frames.TagFrames | processing_func.py:99-153 | a missing begin time fails exactly as such; other failures are a bad time or a zero step; every epoch has all channels and is two steps long |
| Frames.OpenStartIgnored | processing_func.py:110 | a start left open at the end of the event list changes nothing |

## Left out

- FileCreating.FillArray: numpy's `dtype=int` is taken as 64 bits. Where numpy's default integer is 32 bits (on Windows before numpy 2), positions of 2^31 or more already raise; the model does not follow that platform.
- File I/O is not modelled: `open`, UTF-16 decoding, `np.loadtxt`, `os.path.exists` and writing `result.txt`. The readers take the file's lines (and, for ASC, the numeric table) as inputs. `CheckFile` takes the first line and whether it decodes. `CreateFile` takes whether the target exists and returns the text it would write.
- Floating-point numerics are parameters, not definitions: `math.log`, `statistics.stdev`'s square root, `scipy.fft`, `stats.pearsonr` and numpy's conversion of a TXT token to a float. Only the facts the model needs about them are stated: the square root's, and for the conversion only whether it succeeds.
- Auxiliary.FourierRatio: a zero denominator under a nonzero numerator fails with `DegenerateRatio`. numpy instead returns an infinity with a warning, and real arithmetic has no infinity.
- Detection.DetectEcg: the `is not np.NaN` test is an identity check, so NaN coefficients are not filtered reliably. The model takes every coefficient as an ordinary real and does not model NaN ordering.
- Detection.PerformEepDetection, Detection.PerformLfpDetection and Detection.PerformEcgDetection: a precondition requires the table to have the columns the layout reads. Python would raise an IndexError instead. In particular, ECG detection on a 20-channel TXT table reads a column that does not exist.
- The repeated `detectEEP`/`detectLFP` call per channel is modelled once: the two calls give the same result.
- Decimal.DigitsOf, Decimal.DigitsBeforeDot: `isdigit()` is modelled on the ASCII digits. Python also accepts other Unicode digits, such as '²' or the Arabic-Indic digits. `int()` then converts the decimal ones and raises `ValueError` on the others, such as '²'. The model skips every non-ASCII character instead, so it does not have that error.
- Text.ToLower: only ASCII letters are lowered. Both keys searched for, "seconds" and "sampling rate", are ASCII, and no other letter lowers to text that contains them.
- `int(a / b)` is computed in floating point in the source; the model divides integers exactly.
- The `print` calls (including "Length varies!" and the frame counts) have no effect on the results and are left out.
- Frames.FrameEpochs: `round(overlap)` is taken as an already rounded integer, and `epoch_size` as a natural number of seconds.
- Frames.ParseTime: `strptime` is modelled with ASCII digits, one or two per field, and seconds up to 59; `datetime` rejects a leap second.
- Frames.TagFrames: `np.array(epochs).tolist()` is modelled as the sequence of epochs itself. Nested lists of equal shape are what it produces.
- `sortList` (a `len` wrapper used only by a plotting script) is not part of this model.
- `abnormality_pred`, `butter_filter`, `get_peak_results` and `signaltonoise` (TensorFlow, scipy filters, pandas) are not part of this model.
- `main.py` and `testing.py` are scripts with hard-coded paths, JSON output and plots, and are not part of this model.
- A tag time before the begin time (a recording that crosses midnight) gives a negative sample index. numpy then reads the slice from the end of the signal. The model keeps that behaviour (`Frames.PySliceBounds`) rather than correcting it.

=== FILE: arithmetic.dfy ===
/** Order facts about multiplication by a nonnegative factor, shared by the
    block grid, the interval writer, the frame cutter and the spectral
    helpers. The solver does not find these nonlinear steps by itself.
 */
module Arithmetic {

  /** Multiplying by a nonnegative factor keeps order. */
  lemma MulMonotone(a: int, b: int, c: nat)
    requires a <= b
    ensures a * c <= b * c
  {
    assert b * c - a * c == (b - a) * c;
  }

  /** Multiplying by a positive factor keeps strict order. */
  lemma MulStrict(a: int, b: int, c: nat)
    requires a < b && c > 0
    ensures a * c < b * c
  {
    assert b * c - a * c == (b - a) * c;
  }

  /** Multiples of a step are at least one step apart. */
  lemma MulGap(a: int, b: int, c: nat)
    requires a < b
    ensures a * c + c <= b * c
  {
    MulMonotone(a + 1, b, c);
    assert (a + 1) * c == a * c + c;
  }

  /** The real-valued form: a nonnegative factor on the left keeps order. */
  lemma MulMonotoneReal(x: real, a: real, b: real)
    requires 0.0 <= x && a <= b
    ensures x * a <= x * b
  {
    assert x * b - x * a == x * (b - a);
  }
}

=== FILE: auxiliary.dfy ===
/** The numeric helpers of auxiliaryFunctions.py: median, sample standard
    deviation, the power spectrum and the band-ratio statistic of the LFP
    detector.

    The square root, the discrete Fourier transform and floating point are
    not computed: `sqrt` and `fft` are parameters, and arithmetic is exact on
    `real`.
 */
module Auxiliary {
  import opened Outcome
  import opened Sorting
  import opened Arithmetic

  function Sum(s: seq<real>): real
    decreases |s|
  {
    if |s| == 0 then 0.0 else s[0] + Sum(s[1..])
  }

  lemma {:induction false} SumConstant(s: seq<real>, c: real)
    requires forall i :: 0 <= i < |s| ==> s[i] == c
    ensures Sum(s) == |s| as real * c
    decreases |s|
  {
    if |s| > 0 {
      SumConstant(s[1..], c);
    }
  }

  /** `statistics.median`: the middle element of the sorted data, or the mean
      of the two middle elements when the length is even. It raises on empty
      data, hence the precondition; callers turn that into `InsufficientData`. */
  function Median(s: seq<real>): real
    requires |s| > 0
  {
    var t := Sort(s);
    assert |t| == |multiset(t)| == |s|;
    var n := |t|;
    if n % 2 == 1 then t[n / 2] else (t[n / 2 - 1] + t[n / 2]) / 2.0
  }

  /** For data that is already sorted the median is read off the middle. */
  lemma MedianOfSorted(s: seq<real>)
    requires |s| > 0 && Sorted(s)
    ensures |s| % 2 == 1 ==> Median(s) == s[|s| / 2]
    ensures |s| % 2 == 0 ==> Median(s) == (s[|s| / 2 - 1] + s[|s| / 2]) / 2.0
  {
    SortOfSorted(s);
  }

  /** The median lies within any bounds that hold of every element; in
      particular the median of a constant list is that constant. */
  lemma MedianBounded(s: seq<real>, lo: real, hi: real)
    requires |s| > 0
    requires forall i :: 0 <= i < |s| ==> lo <= s[i] <= hi
    ensures lo <= Median(s) <= hi
  {
    SortBounded(s, lo, hi);
  }

  function Mean(s: seq<real>): real
    requires |s| > 0
  {
    Sum(s) / |s| as real
  }

  function Sq(x: real): real {
    x * x
  }

  /** A square is never negative and is zero only for zero. */
  lemma SquareFacts(x: real)
    ensures 0.0 <= Sq(x)
    ensures x != 0.0 ==> 0.0 < Sq(x)
    ensures x == 0.0 ==> Sq(x) == 0.0
  {
    if x > 0.0 {
      calc { Sq(x); == x * x; > 0.0 * x; == 0.0; }
    } else if x < 0.0 {
      calc { Sq(x); == (-x) * (-x); > 0.0 * (-x); == 0.0; }
    }
  }

  /** Sum of squared deviations of the data from `c`. */
  function SquaredDeviations(s: seq<real>, c: real): real
    decreases |s|
  {
    if |s| == 0 then 0.0 else Sq(s[0] - c) + SquaredDeviations(s[1..], c)
  }

  lemma {:induction false} SquaredDeviationsZero(s: seq<real>, c: real)
    ensures SquaredDeviations(s, c) >= 0.0
    ensures SquaredDeviations(s, c) == 0.0 <==> forall i :: 0 <= i < |s| ==> s[i] == c
    decreases |s|
  {
    if |s| > 0 {
      SquaredDeviationsZero(s[1..], c);
      SquareFacts(s[0] - c);
      if forall i :: 0 <= i < |s| ==> s[i] == c {
        assert forall i :: 0 <= i < |s[1..]| ==> s[1..][i] == c;
      }
      if forall i :: 0 <= i < |s[1..]| ==> s[1..][i] == c {
        if s[0] == c {
          forall i | 0 <= i < |s|
            ensures s[i] == c
          {
            if i > 0 { assert s[i] == s[1..][i - 1]; }
          }
        }
      }
    }
  }

  predicate Constant(s: seq<real>) {
    forall i :: 0 <= i < |s| ==> s[i] == s[0]
  }

  /** `statistics.variance`: squared deviations from the mean over n - 1. */
  function Variance(s: seq<real>): real
    requires |s| >= 2
  {
    SquaredDeviations(s, Mean(s)) / (|s| - 1) as real
  }

  /** The sample variance is never negative and is zero exactly for constant data. */
  lemma VarianceZeroIffConstant(s: seq<real>)
    requires |s| >= 2
    ensures 0.0 <= Variance(s)
    ensures Variance(s) == 0.0 <==> Constant(s)
  {
    var m := Mean(s);
    SquaredDeviationsZero(s, m);
    if Constant(s) {
      SumConstant(s, s[0]);
      assert m == s[0];
      assert forall i :: 0 <= i < |s| ==> s[i] == m;
    }
    if SquaredDeviations(s, m) == 0.0 {
      assert forall i :: 0 <= i < |s| ==> s[i] == m;
      assert Constant(s);
    }
  }

  /** What the model relies on of the square root it is given: it maps 0 to 0,
      and nonnegative (positive) arguments to nonnegative (positive) results. */
  ghost predicate IsSqrt(sqrt: real -> real) {
    && sqrt(0.0) == 0.0
    && (forall x :: 0.0 <= x ==> 0.0 <= sqrt(x))
    && (forall x :: 0.0 < x ==> 0.0 < sqrt(x))
  }

  /** `statistics.stdev`: the square root of the sample variance. It raises
      on fewer than two values, hence the precondition. It is never negative
      and it is zero exactly when all values are equal. */
  function StandardDeviation(s: seq<real>, sqrt: real -> real): (d: real)
    requires |s| >= 2
    ensures IsSqrt(sqrt) ==> 0.0 <= d
    ensures IsSqrt(sqrt) ==> (d == 0.0 <==> Constant(s))
  {
    VarianceZeroIffConstant(s);
    sqrt(Variance(s))
  }

  datatype Complex = Complex(re: real, im: real)

  /** `np.square(np.abs(z))`: the squared modulus of one Fourier coefficient.
      It is nonnegative and is zero exactly for a zero coefficient. */
  function SquaredNorm(z: Complex): (n: real)
    ensures 0.0 <= n
    ensures n == 0.0 <==> z == Complex(0.0, 0.0)
  {
    SquareFacts(z.re);
    SquareFacts(z.im);
    Sq(z.re) + Sq(z.im)
  }

  /** `np.square(np.abs(fft(data)))` given the coefficients `fft(data)`. */
  function SquareModulus(z: seq<Complex>): (p: seq<real>)
    ensures |p| == |z|
    ensures forall i :: 0 <= i < |p| ==> 0.0 <= p[i]
    ensures forall i :: 0 <= i < |p| ==> (p[i] == 0.0 <==> z[i] == Complex(0.0, 0.0))
  {
    seq(|z|, i requires 0 <= i < |z| => SquaredNorm(z[i]))
  }

  /** `np.linspace(0, stop, n)`: n evenly spaced values from 0 to `stop`, ends included. */
  function Linspace(stop: real, n: nat): (f: seq<real>)
    ensures |f| == n
    ensures n > 0 ==> f[0] == 0.0
    ensures n > 1 ==> f[n - 1] == stop
    ensures 0.0 <= stop ==> forall i, j :: 0 <= i <= j < n ==> 0.0 <= f[i] <= f[j] <= stop
  {
    if n == 0 then []
    else if n == 1 then [0.0]
    else
      LinspaceOrdered(stop, n - 1);
      seq(n, i requires 0 <= i < n => LinspacePoint(stop, i, n - 1))
  }

  function LinspacePoint(stop: real, i: nat, d: nat): real
    requires d > 0
  {
    stop * (i as real) / (d as real)
  }

  lemma LinspaceOrdered(stop: real, d: nat)
    requires d > 0
    ensures LinspacePoint(stop, 0, d) == 0.0 && LinspacePoint(stop, d, d) == stop
    ensures 0.0 <= stop ==> forall i: nat, j: nat :: i <= j <= d ==>
              0.0 <= LinspacePoint(stop, i, d) <= LinspacePoint(stop, j, d) <= stop
  {
    DivCancel(stop, d as real);
    forall i: nat, j: nat | i <= j <= d && 0.0 <= stop
      ensures 0.0 <= LinspacePoint(stop, i, d) <= LinspacePoint(stop, j, d) <= stop
    {
      LinspacePointBounded(stop, i, d);
      LinspacePointBounded(stop, j, d);
      LinspacePointMonotone(stop, i, j, d);
    }
  }

  lemma DivMonotone(a: real, b: real, d: real)
    requires a <= b && 0.0 < d
    ensures a / d <= b / d
  {
    assert b / d - a / d == (b - a) / d;
  }

  lemma DivCancel(a: real, d: real)
    requires 0.0 < d
    ensures a * d / d == a
  {
  }

  lemma LinspacePointBounded(stop: real, i: nat, d: nat)
    requires 0.0 <= stop && i <= d && d > 0
    ensures 0.0 <= LinspacePoint(stop, i, d) <= stop
  {
    var x := stop * (i as real);
    MulMonotoneReal(stop, 0.0, i as real);
    MulMonotoneReal(stop, i as real, d as real);
    DivMonotone(0.0, x, d as real);
    DivMonotone(x, stop * (d as real), d as real);
    DivCancel(stop, d as real);
  }

  lemma LinspacePointMonotone(stop: real, i: nat, j: nat, d: nat)
    requires 0.0 <= stop && i <= j && d > 0
    ensures LinspacePoint(stop, i, d) <= LinspacePoint(stop, j, d)
  {
    MulMonotoneReal(stop, i as real, j as real);
    DivMonotone(stop * (i as real), stop * (j as real), d as real);
  }

  /** A frequency band as selected by `np.where`: `f < bound` or `lo < f < hi`. */
  datatype Band = Below(bound: real) | Between(lo: real, hi: real) {
    predicate Has(f: real) {
      match this
      case Below(b) => f < b
      case Between(l, h) => l < f < h
    }
  }

  /** `sum(powerSpectrum[np.where(band)])`: the spectrum bins whose frequency is in the band. */
  function MaskedSum(p: seq<real>, f: seq<real>, band: Band): real
    requires |p| == |f|
    decreases |p|
  {
    if |p| == 0 then 0.0
    else (if band.Has(f[0]) then p[0] else 0.0) + MaskedSum(p[1..], f[1..], band)
  }

  /** Sums over a nonnegative spectrum are nonnegative, and removing the bins
      of `inner` from those of `outer` leaves at least the bins of `part`
      when `part` avoids `inner` and both lie inside `outer`. */
  lemma {:induction false} MaskedSumNested(p: seq<real>, f: seq<real>, outer: Band, inner: Band, part: Band)
    requires |p| == |f|
    requires forall i :: 0 <= i < |p| ==> 0.0 <= p[i]
    requires forall i :: 0 <= i < |f| && inner.Has(f[i]) ==> outer.Has(f[i])
    requires forall i :: 0 <= i < |f| && part.Has(f[i]) ==> outer.Has(f[i]) && !inner.Has(f[i])
    ensures 0.0 <= MaskedSum(p, f, part)
    ensures MaskedSum(p, f, part) <= MaskedSum(p, f, outer) - MaskedSum(p, f, inner)
    decreases |p|
  {
    if |p| > 0 {
      MaskedSumNested(p[1..], f[1..], outer, inner, part);
    }
  }

  function Numerator(p: seq<real>, f: seq<real>, lambdaFrequency: real): real
    requires |p| == |f|
  {
    MaskedSum(p, f, Below(lambdaFrequency))
  }

  /** In-band energy below the Nyquist frequency minus the mains notch
      `electric - 2 < f < electric + 2`; the notch is not restricted to the band. */
  function Denominator(p: seq<real>, f: seq<real>, nyquist: real, electric: real): real
    requires |p| == |f|
  {
    MaskedSum(p, f, Below(nyquist)) - MaskedSum(p, f, Between(electric - 2.0, electric + 2.0))
  }

  /** Lines 101-104: a zero numerator gives 0 whatever the denominator; otherwise
      the quotient, whose denominator is not checked. */
  function FourierRatio(p: seq<real>, f: seq<real>, lambdaFrequency: real, nyquist: real, electric: real): (r: Result<real>)
    requires |p| == |f|
    ensures r.Err? <==> Numerator(p, f, lambdaFrequency) != 0.0 && Denominator(p, f, nyquist, electric) == 0.0
    ensures r.Err? ==> r.error == DegenerateRatio
    ensures r.Ok? ==> r.value * Denominator(p, f, nyquist, electric) == Numerator(p, f, lambdaFrequency)
    ensures r.Ok? && Numerator(p, f, lambdaFrequency) == 0.0 ==> r.value == 0.0
  {
    var num := Numerator(p, f, lambdaFrequency);
    var den := Denominator(p, f, nyquist, electric);
    if num == 0.0 then Ok(num)
    else if den == 0.0 then Err(DegenerateRatio)
    else Ok(num / den)
  }

  /** When the low band lies below the notch and the notch lies inside the
      Nyquist band, the division is never degenerate and the ratio is a
      fraction between 0 and 1. */
  lemma RatioWithinUnit(p: seq<real>, f: seq<real>, lambdaFrequency: real, nyquist: real, electric: real)
    requires |p| == |f|
    requires forall i :: 0 <= i < |p| ==> 0.0 <= p[i]
    requires lambdaFrequency <= electric - 2.0 && lambdaFrequency <= nyquist && electric + 2.0 <= nyquist
    ensures FourierRatio(p, f, lambdaFrequency, nyquist, electric).Ok?
    ensures 0.0 <= FourierRatio(p, f, lambdaFrequency, nyquist, electric).value <= 1.0
  {
    MaskedSumNested(p, f, Below(nyquist), Between(electric - 2.0, electric + 2.0), Below(lambdaFrequency));
    var num := Numerator(p, f, lambdaFrequency);
    var den := Denominator(p, f, nyquist, electric);
    if num != 0.0 {
      assert 0.0 < num <= den;
      assert num / den <= 1.0;
    }
  }

  /** With a Nyquist frequency at the mains frequency, a signal with one bin at
      0 Hz and one at 50 Hz makes the notch cancel the whole band: the numerator
      is nonzero and the unguarded division is reached with a zero denominator. */
  lemma DegenerateRatioExample()
    ensures FourierRatio([1.0, 1.0], Linspace(50.0, 2), 0.625, 50.0, 50.0) == Err(DegenerateRatio)
  {
    var f := Linspace(50.0, 2);
    assert f == [0.0, 50.0];
    assert [1.0, 1.0][1..] == [1.0];
    assert f[1..] == [50.0];
    assert Numerator([1.0, 1.0], f, 0.625) == 1.0;
    assert MaskedSum([1.0, 1.0], f, Below(50.0)) == 1.0;
    assert MaskedSum([1.0, 1.0], f, Between(48.0, 52.0)) == 1.0;
  }

  /** `calculateFourierFunction` on one block: the power spectrum of `fft(data)`,
      a frequency axis from 0 to half the sampling rate with one value per bin,
      then the band ratio. The Fourier transform of an empty block raises. */
  function FourierFunction(data: seq<real>, samplingRate: nat, lambdaFrequency: real, nyquist: real,
                           electric: real, fft: seq<real> -> seq<Complex>): (r: Result<real>)
    ensures |data| == 0 ==> r == Err(EmptyBlock)
    ensures |data| > 0 ==> r == FourierRatio(SquareModulus(fft(data)),
                                            Linspace(samplingRate as real / 2.0, |fft(data)|),
                                            lambdaFrequency, nyquist, electric)
  {
    if |data| == 0 then Err(EmptyBlock)
    else
      var p := SquareModulus(fft(data));
      FourierRatio(p, Linspace(samplingRate as real / 2.0, |p|), lambdaFrequency, nyquist, electric)
  }
}

=== FILE: blocks.dfy ===
/** The block grid shared by the three detectors and by the interval writer:
    a recording is cut into blocks of four seconds, `int(examinationTime / 4)`
    of them, each `4 * samplingRate` samples long. Samples after the last
    whole block are never read.

    Python slices clamp: `channel[a:b]` past the end of the channel is shorter
    than `b - a`, or empty.
 */
module Blocks {
  import opened Arithmetic

  /** Block length in seconds. */
  const BlockDuration: nat := 4

  /** `int(examinationTime / blockDuration)` for a nonnegative duration. */
  function BlockCount(examinationTime: nat): (n: nat)
    ensures BlockDuration * n <= examinationTime < BlockDuration * (n + 1)
  {
    examinationTime / BlockDuration
  }

  /** Number of samples in one block. */
  function Step(samplingRate: nat): nat {
    BlockDuration * samplingRate
  }

  function MinNat(a: nat, b: nat): nat {
    if a <= b then a else b
  }

  /** Python's `s[lo:hi]` for nonnegative bounds: clamped to the sequence. */
  function Slice<T>(s: seq<T>, lo: nat, hi: nat): (r: seq<T>)
    ensures |r| == if lo < MinNat(hi, |s|) then MinNat(hi, |s|) - lo else 0
    ensures forall i :: 0 <= i < |r| ==> lo + i < |s| && r[i] == s[lo + i]
  {
    var end := MinNat(hi, |s|);
    if lo < end then s[lo..end] else []
  }

  /** Block `k` of a channel: samples `k * step` up to `(k + 1) * step`, clamped. */
  function Block<T>(s: seq<T>, k: nat, samplingRate: nat): seq<T> {
    Slice(s, k * Step(samplingRate), (k + 1) * Step(samplingRate))
  }

  /** A block is empty exactly when the step is 0 or the block starts at or past the end. */
  lemma BlockEmpty<T>(s: seq<T>, k: nat, samplingRate: nat)
    ensures |Block(s, k, samplingRate)| == 0 <==>
              samplingRate == 0 || |s| <= k * Step(samplingRate)
  {
  }

  /** Blocks further along start later, so once one block is empty every later one is. */
  lemma LaterBlockEmpty<T>(s: seq<T>, j: nat, k: nat, samplingRate: nat)
    requires j <= k && |Block(s, j, samplingRate)| == 0
    ensures |Block(s, k, samplingRate)| == 0
  {
    BlockEmpty(s, j, samplingRate);
    BlockEmpty(s, k, samplingRate);
    MulMonotone(j, k, Step(samplingRate));
  }

  /** Some block of the grid is empty exactly when the last one is. */
  predicate SomeBlockEmpty<T>(s: seq<T>, n: nat, samplingRate: nat) {
    n > 0 && (samplingRate == 0 || |s| <= (n - 1) * Step(samplingRate))
  }

  lemma SomeBlockEmptyIff<T>(s: seq<T>, n: nat, samplingRate: nat)
    ensures SomeBlockEmpty(s, n, samplingRate) <==>
              exists k :: 0 <= k < n && |Block(s, k, samplingRate)| == 0
  {
    if SomeBlockEmpty(s, n, samplingRate) {
      BlockEmpty(s, n - 1, samplingRate);
    }
    forall k | 0 <= k < n && |Block(s, k, samplingRate)| == 0
      ensures SomeBlockEmpty(s, n, samplingRate)
    {
      LaterBlockEmpty(s, k, n - 1, samplingRate);
      BlockEmpty(s, n - 1, samplingRate);
    }
  }

  /** Every sample a block reads lies before `n * step`: the samples after the
      last whole block are never read. */
  lemma {:induction false} BlocksStayInGrid<T>(s: seq<T>, n: nat, k: nat, samplingRate: nat)
    requires k < n
    ensures |Block(s, k, samplingRate)| <= Step(samplingRate)
    ensures forall i :: 0 <= i < |Block(s, k, samplingRate)| ==>
              k * Step(samplingRate) + i < n * Step(samplingRate) &&
              Block(s, k, samplingRate)[i] == s[k * Step(samplingRate) + i]
  {
    var step := Step(samplingRate);
    assert (k + 1) * step == k * step + step;
    assert (k + 1) * step <= n * step by {
      assert k + 1 <= n;
    }
  }

  /** Dropping the samples after the grid changes no block. */
  lemma TrailingSamplesIgnored<T>(s: seq<T>, extra: seq<T>, n: nat, samplingRate: nat)
    requires n * Step(samplingRate) <= |s|
    ensures forall k :: 0 <= k < n ==> Block(s + extra, k, samplingRate) == Block(s, k, samplingRate)
  {
    var step := Step(samplingRate);
    forall k | 0 <= k < n
      ensures Block(s + extra, k, samplingRate) == Block(s, k, samplingRate)
    {
      assert (k + 1) * step <= n * step by {
        assert k + 1 <= n;
      }
      assert (k + 1) * step == k * step + step;
    }
  }

  /** A numpy two-dimensional array: rows of equal width. */
  datatype Table = Table(rows: seq<seq<real>>, width: nat) {
    predicate WellFormed() {
      forall i :: 0 <= i < |rows| ==> |rows[i]| == width
    }
  }

  /** `inputData[:, c]`: column `c` of a well-formed table, one value per row. */
  function Column(t: Table, c: nat): (col: seq<real>)
    requires t.WellFormed() && c < t.width
    ensures |col| == |t.rows|
    ensures forall i :: 0 <= i < |col| ==> col[i] == t.rows[i][c]
  {
    seq(|t.rows|, i requires 0 <= i < |t.rows| => t.rows[i][c])
  }

  /** `inputData[start:end, :]`: the rows of one block, all columns. */
  function RowBlock(t: Table, k: nat, samplingRate: nat): (b: Table)
    requires t.WellFormed()
    ensures b.WellFormed() && b.width == t.width
  {
    Table(Block(t.rows, k, samplingRate), t.width)
  }

  /** Cutting the rows and then taking a column gives the same samples as
      cutting the column. */
  lemma ColumnOfRowBlock(t: Table, k: nat, samplingRate: nat, c: nat)
    requires t.WellFormed() && c < t.width
    ensures Column(RowBlock(t, k, samplingRate), c) == Block(Column(t, c), k, samplingRate)
  {
  }
}

=== FILE: decimal.dfy ===
/** Decimal text of natural numbers: Python's `str(n)` for a nonnegative
    integer, `int(s)` for a string of ASCII digits, and the digit-collecting
    loops of the header parsers.
 */
module Decimal {
  import opened Outcome

  predicate IsDigit(c: char) {
    '0' <= c <= '9'
  }

  predicate AllDigits(s: string) {
    forall i :: 0 <= i < |s| ==> IsDigit(s[i])
  }

  function DigitValue(c: char): nat
    requires IsDigit(c)
  {
    c as int - '0' as int
  }

  function DigitChar(d: nat): (c: char)
    requires d < 10
    ensures IsDigit(c) && DigitValue(c) == d
  {
    ('0' as int + d) as char
  }

  /** The number a string of decimal digits denotes (the empty string denotes 0). */
  function Value(ds: string): nat
    requires AllDigits(ds)
    decreases |ds|
  {
    if |ds| == 0 then 0 else 10 * Value(ds[..|ds| - 1]) + DigitValue(ds[|ds| - 1])
  }

  /** `str(n)` for a nonnegative integer: decimal digits without leading zeros. */
  function Show(n: nat): (r: string)
    ensures |r| > 0 && AllDigits(r)
    ensures r[0] == '0' ==> n == 0 && |r| == 1
    decreases n
  {
    if n < 10 then [DigitChar(n)] else Show(n / 10) + [DigitChar(n % 10)]
  }

  /** Reading back the text of `n` gives `n`. */
  lemma {:induction false} ValueOfShow(n: nat)
    ensures Value(Show(n)) == n
    decreases n
  {
    if n >= 10 {
      var s := Show(n);
      assert s[..|s| - 1] == Show(n / 10);
      ValueOfShow(n / 10);
    }
  }

  /** `int(s)` for a string made only of digits; `int("")` raises `ValueError`. */
  function ParseNat(ds: string): (r: Result<nat>)
    requires AllDigits(ds)
    ensures r.Err? <==> |ds| == 0
    ensures r.Err? ==> r.error == NotANumber
    ensures r.Ok? ==> r.value == Value(ds)
  {
    if |ds| == 0 then Err(NotANumber) else Ok(Value(ds))
  }

  /** The loop `for char in line: if char.isdigit(): value += char`: every digit
      of the line, in order. */
  function DigitsOf(s: string): (r: string)
    ensures AllDigits(r)
    ensures |r| <= |s|
    ensures (forall i :: 0 <= i < |s| ==> !IsDigit(s[i])) ==> r == ""
    decreases |s|
  {
    if |s| == 0 then ""
    else (if IsDigit(s[0]) then [s[0]] else "") + DigitsOf(s[1..])
  }

  /** Collecting digits distributes over concatenation. */
  lemma {:induction false} DigitsOfAppend(a: string, b: string)
    ensures DigitsOf(a + b) == DigitsOf(a) + DigitsOf(b)
    decreases |a|
  {
    if |a| > 0 {
      assert (a + b)[1..] == a[1..] + b;
      DigitsOfAppend(a[1..], b);
    } else {
      assert a + b == b;
    }
  }

  /** A string of digits is collected unchanged. */
  lemma {:induction false} DigitsOfDigits(s: string)
    requires AllDigits(s)
    ensures DigitsOf(s) == s
    decreases |s|
  {
    if |s| > 0 {
      DigitsOfDigits(s[1..]);
      assert [s[0]] + s[1..] == s;
    }
  }

  /** The loop that also stops at the first '.': `if char.isdigit(): value += char
      elif char == ".": break`. */
  function DigitsBeforeDot(s: string): (r: string)
    ensures AllDigits(r)
    decreases |s|
  {
    if |s| == 0 || s[0] == '.' then ""
    else (if IsDigit(s[0]) then [s[0]] else "") + DigitsBeforeDot(s[1..])
  }

  /** The digits collected are those of the text before the first '.', or of
      the whole line when it has no '.'. */
  lemma {:induction false} DigitsBeforeDotIsPrefixDigits(s: string)
    ensures '.' !in s ==> DigitsBeforeDot(s) == DigitsOf(s)
    ensures forall i :: 0 <= i < |s| && s[i] == '.' && '.' !in s[..i] ==>
              DigitsBeforeDot(s) == DigitsOf(s[..i])
    decreases |s|
  {
    if |s| > 0 {
      DigitsBeforeDotIsPrefixDigits(s[1..]);
      forall i | 0 <= i < |s| && s[i] == '.' && '.' !in s[..i]
        ensures DigitsBeforeDot(s) == DigitsOf(s[..i])
      {
        if i > 0 {
          assert s[1..][i - 1] == '.';
          assert s[1..][..i - 1] == s[..i][1..];
          assert s[0] == s[..i][0];
        }
      }
    }
  }
}

=== FILE: detection.dfy ===
/** The three artifact detectors of artifactDetection.py and the way their
    per-channel verdicts are combined.

    EEP (external electrostatic potentials) and LFP (low-frequency
    potentials) are decided channel by channel and block by block; a block of
    the recording is flagged when at least one EEG channel flags it. ECG
    (potentials derived from the electrocardiogram) is decided block by block
    from the correlations between the reference column 0 and every EEG
    column.
 */
module Detection {
  import opened Outcome
  import opened Auxiliary
  import opened Thresholds
  import opened Blocks

  const EepMessage: string :=
    "An artifact reflected by the external electrostatic potential occurrence has been detected in this block"
  const EcgMessage: string := "An artifact derived from ECG has been detected in this block"
  const LfpMessage: string :=
    "An artifact reflected by the low-frequency potential occurrence has been detected in this block"

  /** What each `perform...Detection` returns: one flag per block and a message. */
  datatype BlockFlags = BlockFlags(flags: seq<bool>, message: string)

  /** Python's `min` of a nonempty sequence. */
  function Min(s: seq<real>): (m: real)
    requires |s| > 0
    ensures exists i :: 0 <= i < |s| && s[i] == m
    ensures forall i :: 0 <= i < |s| ==> m <= s[i]
    decreases |s|
  {
    if |s| == 1 then s[0]
    else
      var rest := Min(s[1..]);
      assert forall i :: 1 <= i < |s| ==> s[i] == s[1..][i - 1];
      if s[0] <= rest then s[0] else rest
  }

  /** Python's `max` of a nonempty sequence. */
  function Max(s: seq<real>): (m: real)
    requires |s| > 0
    ensures exists i :: 0 <= i < |s| && s[i] == m
    ensures forall i :: 0 <= i < |s| ==> s[i] <= m
    decreases |s|
  {
    if |s| == 1 then s[0]
    else
      var rest := Max(s[1..]);
      assert forall i :: 1 <= i < |s| ==> s[i] == s[1..][i - 1];
      if s[0] >= rest then s[0] else rest
  }

  // ---------------------------------------------------------------------------
  // EEP

  /** Lines 60-69: with two nonzero extrema their logarithms are compared with
      the thresholds; as soon as one extremum is 0 both raw values are. */
  predicate Flagged(e: Extrema, thresholds: (real, real), log10: real -> real) {
    if e.min != 0.0 && e.max != 0.0 then
      log10(Abs(e.min)) > thresholds.0 || log10(Abs(e.max)) > thresholds.1
    else
      e.min > thresholds.0 || e.max > thresholds.1
  }

  /** With two nonzero extrema the decision is on the same scale as the
      thresholds: the normalised values are compared. */
  lemma FlaggedNonzero(e: Extrema, thresholds: (real, real), log10: real -> real)
    requires e.min != 0.0 && e.max != 0.0
    ensures Flagged(e, thresholds, log10) <==>
              Normalise(e.min, log10) > thresholds.0 || Normalise(e.max, log10) > thresholds.1
  {
  }

  /** With a zero minimum the maximum is compared raw, not on the log scale of
      the threshold: a block with extrema 0 and 5 is flagged against a
      threshold of 1 although the logarithm of 5 is below it. */
  lemma FlaggedMixesScales(log10: real -> real)
    requires log10(5.0) < 1.0
    ensures Normalise(0.0, log10) <= 0.0 && Normalise(5.0, log10) <= 1.0
    ensures Flagged(Extrema(0.0, 5.0), (0.0, 1.0), log10)
  {
  }

  /** The extrema of the nonempty blocks of a channel, in block order (lines 43-48). */
  function ChannelExtrema(channel: seq<real>, n: nat, samplingRate: nat): (e: seq<Extrema>)
    requires !SomeBlockEmpty(channel, n, samplingRate)
    ensures |e| == n
    ensures forall k :: 0 <= k < n ==>
              |Block(channel, k, samplingRate)| > 0 &&
              e[k] == Extrema(Min(Block(channel, k, samplingRate)), Max(Block(channel, k, samplingRate)))
  {
    SomeBlockEmptyIff(channel, n, samplingRate);
    seq(n, k requires 0 <= k < n =>
      Extrema(Min(Block(channel, k, samplingRate)), Max(Block(channel, k, samplingRate))))
  }

  /** `detectEEP`: the per-block flags of one channel. `min` of an empty slice
      raises before anything else; the thresholds then need two blocks. */
  function DetectEep(channel: seq<real>, examinationTime: nat, samplingRate: nat,
                     log10: real -> real, sqrt: real -> real): (r: Result<seq<bool>>)
    ensures r.Err? <==>
              SomeBlockEmpty(channel, BlockCount(examinationTime), samplingRate) || BlockCount(examinationTime) < 2
    ensures r.Err? ==>
              r.error == if SomeBlockEmpty(channel, BlockCount(examinationTime), samplingRate)
                         then EmptyBlock else InsufficientData
    ensures r.Ok? ==>
              |r.value| == BlockCount(examinationTime) &&
              forall k :: 0 <= k < |r.value| ==>
                (r.value[k] <==> Flagged(ChannelExtrema(channel, BlockCount(examinationTime), samplingRate)[k],
                                         EepThresholds(channel, BlockCount(examinationTime), samplingRate, log10, sqrt),
                                         log10))
  {
    var n := BlockCount(examinationTime);
    if SomeBlockEmpty(channel, n, samplingRate) then Err(EmptyBlock)
    else if n < 2 then Err(InsufficientData)
    else
      var e := ChannelExtrema(channel, n, samplingRate);
      var th := EepThresholds(channel, n, samplingRate, log10, sqrt);
      Ok(FlagBlocks(e, th, log10))
  }

  /** Lines 56-69: one decision per block, in block order. */
  function FlagBlocks(e: seq<Extrema>, thresholds: (real, real), log10: real -> real): (flags: seq<bool>)
    ensures |flags| == |e|
    ensures forall k :: 0 <= k < |e| ==> flags[k] == Flagged(e[k], thresholds, log10)
  {
    seq(|e|, k requires 0 <= k < |e| => Flagged(e[k], thresholds, log10))
  }

  /** Lines 51-53: the thresholds of a channel whose blocks are all nonempty. */
  function EepThresholds(channel: seq<real>, n: nat, samplingRate: nat,
                         log10: real -> real, sqrt: real -> real): (real, real)
    requires n >= 2 && !SomeBlockEmpty(channel, n, samplingRate)
  {
    ThresholdsEep(ChannelExtrema(channel, n, samplingRate), log10, sqrt).value
  }

  /** Whether and how detection fails depends only on the length of the channel. */
  lemma DetectEepErrorByLength(a: seq<real>, b: seq<real>, examinationTime: nat, samplingRate: nat,
                               log10: real -> real, sqrt: real -> real)
    requires |a| == |b|
    ensures DetectEep(a, examinationTime, samplingRate, log10, sqrt).Err? <==>
            DetectEep(b, examinationTime, samplingRate, log10, sqrt).Err?
    ensures DetectEep(a, examinationTime, samplingRate, log10, sqrt).Err? ==>
              DetectEep(a, examinationTime, samplingRate, log10, sqrt).error ==
              DetectEep(b, examinationTime, samplingRate, log10, sqrt).error
  {
  }

  /** A flagged block with two nonzero extrema has an extremum whose logarithm
      lies above the median of its list: the thresholds never fall below the
      medians. */
  lemma FlaggedAboveMedian(channel: seq<real>, examinationTime: nat, samplingRate: nat,
                           log10: real -> real, sqrt: real -> real, k: nat)
    requires IsSqrt(sqrt)
    requires DetectEep(channel, examinationTime, samplingRate, log10, sqrt).Ok?
    requires k < BlockCount(examinationTime)
    requires DetectEep(channel, examinationTime, samplingRate, log10, sqrt).value[k]
    ensures var e := ChannelExtrema(channel, BlockCount(examinationTime), samplingRate);
            e[k].min != 0.0 && e[k].max != 0.0 ==>
              Normalise(e[k].min, log10) > Median(NormalisedMins(e, log10)) ||
              Normalise(e[k].max, log10) > Median(NormalisedMaxes(e, log10))
  {
    var e := ChannelExtrema(channel, BlockCount(examinationTime), samplingRate);
    ThresholdsAboveMedians(e, log10, sqrt);
  }

  /** A channel holding one constant value, long enough for two blocks, has
      no block flagged. */
  lemma ConstantChannelFlagsNothing(channel: seq<real>, examinationTime: nat, samplingRate: nat,
                                    log10: real -> real, sqrt: real -> real, v: real)
    requires IsSqrt(sqrt)
    requires forall i :: 0 <= i < |channel| ==> channel[i] == v
    requires BlockCount(examinationTime) >= 2
    requires !SomeBlockEmpty(channel, BlockCount(examinationTime), samplingRate)
    ensures DetectEep(channel, examinationTime, samplingRate, log10, sqrt).Ok?
    ensures forall k :: 0 <= k < BlockCount(examinationTime) ==>
              !DetectEep(channel, examinationTime, samplingRate, log10, sqrt).value[k]
  {
    var n := BlockCount(examinationTime);
    var e := ChannelExtrema(channel, n, samplingRate);
    ConstantChannelExtrema(channel, n, samplingRate, v);
    var a := Normalise(v, log10);
    ThresholdsOfConstant(e, log10, sqrt, a, a);
    assert EepThresholds(channel, n, samplingRate, log10, sqrt) == (a, a);
    forall k | 0 <= k < n
      ensures !Flagged(e[k], (a, a), log10)
    {
      ConstantNotFlagged(v, log10);
    }
  }

  /** Every block of a constant channel has that value as minimum and maximum. */
  lemma ConstantChannelExtrema(channel: seq<real>, n: nat, samplingRate: nat, v: real)
    requires forall i :: 0 <= i < |channel| ==> channel[i] == v
    requires !SomeBlockEmpty(channel, n, samplingRate)
    ensures forall k :: 0 <= k < n ==> ChannelExtrema(channel, n, samplingRate)[k] == Extrema(v, v)
  {
    var e := ChannelExtrema(channel, n, samplingRate);
    forall k | 0 <= k < n
      ensures e[k] == Extrema(v, v)
    {
      var lo, hi := k * Step(samplingRate), (k + 1) * Step(samplingRate);
      var b := Slice(channel, lo, hi);
      assert b == Block(channel, k, samplingRate);
      ConstantExtrema(b, v);
    }
  }

  /** A nonempty list of equal values has that value as minimum and maximum. */
  lemma ConstantExtrema(b: seq<real>, v: real)
    requires |b| > 0
    requires forall i :: 0 <= i < |b| ==> b[i] == v
    ensures Min(b) == v && Max(b) == v
  {
  }

  /** A block whose extrema both equal the value the thresholds were taken
      from is not flagged, on either scale. */
  lemma ConstantNotFlagged(v: real, log10: real -> real)
    ensures !Flagged(Extrema(v, v), (Normalise(v, log10), Normalise(v, log10)), log10)
  {
  }

  // ---------------------------------------------------------------------------
  // Combining the channels

  /** Lines 104-107: the column holding EEG channel `c`. With 19 EEG channels
      column 0 holds another signal and channel `c` is column `c + 1`; with 20
      channel `c` is column `c`. */
  function ChannelColumn(eegCount: nat, c: nat): (col: nat)
    requires eegCount == 19 || eegCount == 20
    requires c < eegCount
    ensures col < 20
    ensures eegCount == 19 ==> 1 <= col
  {
    if eegCount == 19 then c + 1 else c
  }

  /** Different channels read different columns. */
  lemma ChannelColumnsDistinct(eegCount: nat, c: nat, d: nat)
    requires eegCount == 19 || eegCount == 20
    requires c < eegCount && d < eegCount && c != d
    ensures ChannelColumn(eegCount, c) != ChannelColumn(eegCount, d)
  {
  }

  /** The layouts the loop of lines 103-109 can run with: no channel at all,
      or 19 or 20 channels. Any other count leaves `channel` unassigned. */
  predicate SupportedLayout(eegCount: nat) {
    eegCount == 0 || eegCount == 19 || eegCount == 20
  }

  /** Block `k` is flagged by at least one channel that succeeded. */
  predicate FlaggedBySome(rs: seq<Result<seq<bool>>>, k: nat) {
    exists c :: 0 <= c < |rs| && rs[c].Ok? && k < |rs[c].value| && rs[c].value[k]
  }

  /** Lines 117-121 for one later channel: every block it flags becomes
      flagged, and no flag is ever cleared. */
  method MergeFlags(acc: seq<bool>, flags: seq<bool>) returns (merged: seq<bool>)
    requires |acc| == |flags|
    ensures |merged| == |acc|
    ensures forall k :: 0 <= k < |acc| ==> (merged[k] <==> acc[k] || flags[k])
  {
    merged := acc;
    var k := 0;
    while k < |flags|
      invariant 0 <= k <= |flags|
      invariant |merged| == |acc|
      invariant forall j :: 0 <= j < k ==> (merged[j] <==> acc[j] || flags[j])
      invariant forall j :: k <= j < |acc| ==> merged[j] == acc[j]
    {
      if flags[k] {
        if merged[k] != flags[k] {
          merged := merged[k := flags[k]];
        }
      }
      k := k + 1;
    }
  }

  /** Lines 103-121: the channels are processed in order, the first failure
      stops everything, channel 0 seeds the result and every later channel is
      merged into it. */
  method CombineChannels(perChannel: seq<Result<seq<bool>>>, n: nat) returns (r: Result<seq<bool>>)
    requires forall c :: 0 <= c < |perChannel| && perChannel[c].Ok? ==> |perChannel[c].value| == n
    ensures r.Err? <==> exists c :: 0 <= c < |perChannel| && perChannel[c].Err?
    ensures r.Err? ==> exists c :: 0 <= c < |perChannel| && perChannel[c] == Err(r.error) &&
                                   forall j :: 0 <= j < c ==> perChannel[j].Ok?
    ensures r.Ok? && |perChannel| == 0 ==> r.value == []
    ensures r.Ok? && |perChannel| > 0 ==>
              |r.value| == n &&
              forall k :: 0 <= k < n ==>
                (r.value[k] <==> FlaggedBySome(perChannel, k))
  {
    var acc: seq<bool> := [];
    var c := 0;
    while c < |perChannel|
      invariant 0 <= c <= |perChannel|
      invariant forall j :: 0 <= j < c ==> perChannel[j].Ok?
      invariant c == 0 ==> acc == []
      invariant c > 0 ==> |acc| == n
      invariant c > 0 ==> forall k :: 0 <= k < n ==>
                  (acc[k] <==> exists j :: 0 <= j < c && perChannel[j].value[k])
    {
      if perChannel[c].Err? {
        return Err(perChannel[c].error);
      }
      var flags := perChannel[c].value;
      if c == 0 {
        acc := flags;
      } else {
        acc := MergeFlags(acc, flags);
      }
      c := c + 1;
    }
    return Ok(acc);
  }

  /** Per-channel results that all fail, with the same error, or all succeed. */
  predicate FailTogether(rs: seq<Result<seq<bool>>>) {
    && (forall c :: 0 <= c < |rs| ==> (rs[c].Err? <==> rs[0].Err?))
    && (forall c :: 0 <= c < |rs| && rs[c].Err? ==> rs[c].error == rs[0].error)
  }

  /** `detectEEP` on every EEG channel, in channel order (lines 103-109). Every
      channel is as long as the table, so the channels have one flag per block
      and either all fail, with the same error, or none does. */
  function EepChannels(t: Table, eegCount: nat, examinationTime: nat, samplingRate: nat,
                       log10: real -> real, sqrt: real -> real): (rs: seq<Result<seq<bool>>>)
    requires t.WellFormed() && (eegCount == 19 || eegCount == 20) && t.width >= 20
    ensures |rs| == eegCount
    ensures forall c :: 0 <= c < eegCount && rs[c].Ok? ==> |rs[c].value| == BlockCount(examinationTime)
    ensures FailTogether(rs)
  {
    var rs := seq(eegCount, c requires 0 <= c < eegCount =>
      DetectEep(Column(t, ChannelColumn(eegCount, c)), examinationTime, samplingRate, log10, sqrt));
    forall c | 0 <= c < eegCount {
      DetectEepErrorByLength(Column(t, ChannelColumn(eegCount, c)), Column(t, ChannelColumn(eegCount, 0)),
                             examinationTime, samplingRate, log10, sqrt);
    }
    rs
  }

  /** Entry `c` is the detection on the column of EEG channel `c`. */
  lemma EepChannelsAreColumns(t: Table, eegCount: nat, examinationTime: nat, samplingRate: nat,
                              log10: real -> real, sqrt: real -> real, c: nat)
    requires t.WellFormed() && (eegCount == 19 || eegCount == 20) && t.width >= 20 && c < eegCount
    ensures EepChannels(t, eegCount, examinationTime, samplingRate, log10, sqrt)[c] ==
              DetectEep(Column(t, ChannelColumn(eegCount, c)), examinationTime, samplingRate, log10, sqrt)
  {
  }

  /** `performEEPDetection`: a block is flagged when some EEG channel flags it. */
  method PerformEepDetection(t: Table, eegCount: nat, examinationTime: nat, samplingRate: nat,
                             log10: real -> real, sqrt: real -> real) returns (r: Result<BlockFlags>)
    requires t.WellFormed()
    requires eegCount == 19 || eegCount == 20 ==> t.width >= 20
    ensures eegCount == 0 ==> r == Ok(BlockFlags([], EepMessage))
    ensures !SupportedLayout(eegCount) ==> r == Err(UnsupportedLayout)
    ensures r.Ok? ==> r.value.message == EepMessage
    ensures eegCount == 19 || eegCount == 20 ==>
              var channels := EepChannels(t, eegCount, examinationTime, samplingRate, log10, sqrt);
              && (r.Err? <==> channels[0].Err?)
              && (r.Err? ==> r.error == channels[0].error)
              && (r.Ok? ==>
                    && |r.value.flags| == BlockCount(examinationTime)
                    && forall k :: 0 <= k < BlockCount(examinationTime) ==>
                         (r.value.flags[k] <==>
                            FlaggedBySome(channels, k)))
  {
    if eegCount == 0 {
      return Ok(BlockFlags([], EepMessage));
    }
    if !SupportedLayout(eegCount) {
      return Err(UnsupportedLayout);
    }
    var perChannel := EepChannels(t, eegCount, examinationTime, samplingRate, log10, sqrt);
    var combined := CombineChannels(perChannel, BlockCount(examinationTime));
    if combined.Err? {
      return Err(combined.error);
    }
    assert perChannel[0].Ok?;
    return Ok(BlockFlags(combined.value, EepMessage));
  }

  // ---------------------------------------------------------------------------
  // ECG

  /** Lines 148-156: the correlation of every EEG column `c + 1` with the
      reference column 0 of one block. */
  function Coefficients(b: Table, eegCount: nat, pearson: (seq<real>, seq<real>) -> real): (cs: seq<real>)
    requires b.WellFormed() && eegCount < b.width
    ensures |cs| == eegCount
    ensures forall c :: 0 <= c < eegCount ==> cs[c] == pearson(Column(b, 0), Column(b, c + 1))
  {
    seq(eegCount, c requires 0 <= c < eegCount => pearson(Column(b, 0), Column(b, c + 1)))
  }

  /** Lines 158-161: the largest coefficient, or 0 when there is none. */
  function MaxCoefficient(cs: seq<real>): (m: real)
    ensures |cs| == 0 ==> m == 0.0
    ensures |cs| > 0 ==> (exists i :: 0 <= i < |cs| && cs[i] == m) && forall i :: 0 <= i < |cs| ==> cs[i] <= m
  {
    if |cs| > 0 then Max(cs) else 0.0
  }

  /** Against a nonnegative threshold the maximum exceeds it exactly when one
      coefficient does: no coefficient, or only negative ones such as -1,
      never triggers. */
  lemma MaxCoefficientExceeds(cs: seq<real>, threshold: real)
    requires 0.0 <= threshold
    ensures MaxCoefficient(cs) > threshold <==> exists i :: 0 <= i < |cs| && cs[i] > threshold
  {
  }

  /** `detectECG` on one block. `pearsonr` raises on fewer than two samples,
      which happens only when there is an EEG channel to correlate. */
  function DetectEcg(b: Table, eegCount: nat, pearson: (seq<real>, seq<real>) -> real): (r: Result<real>)
    requires b.WellFormed() && eegCount < b.width
    ensures r.Err? <==> eegCount > 0 && |b.rows| < 2
    ensures r.Err? ==> r.error == ShortBlock
    ensures r.Ok? ==> r.value == MaxCoefficient(Coefficients(b, eegCount, pearson))
  {
    if eegCount > 0 && |b.rows| < 2 then Err(ShortBlock)
    else Ok(MaxCoefficient(Coefficients(b, eegCount, pearson)))
  }

  /** Block `k` correlates with the reference: some EEG column of the block
      has a coefficient strictly above 0.9. */
  predicate EcgBlockFlagged(t: Table, eegCount: nat, k: nat, samplingRate: nat,
                            pearson: (seq<real>, seq<real>) -> real)
    requires t.WellFormed() && eegCount < t.width
  {
    exists c :: 0 <= c < eegCount &&
      Coefficients(RowBlock(t, k, samplingRate), eegCount, pearson)[c] > EcgThreshold
  }

  /** `performECGDetection`: one flag per block, raised when the largest
      coefficient of the block is strictly above the threshold 0.9. */
  method PerformEcgDetection(t: Table, eegCount: nat, examinationTime: nat, samplingRate: nat,
                             pearson: (seq<real>, seq<real>) -> real) returns (r: Result<BlockFlags>)
    requires t.WellFormed() && eegCount < t.width
    ensures r.Err? <==>
              eegCount > 0 &&
              exists k :: 0 <= k < BlockCount(examinationTime) && |Block(t.rows, k, samplingRate)| < 2
    ensures r.Err? ==> r.error == ShortBlock
    ensures r.Ok? ==> r.value.message == EcgMessage && |r.value.flags| == BlockCount(examinationTime)
    ensures r.Ok? ==> forall k :: 0 <= k < |r.value.flags| ==>
              (r.value.flags[k] <==> EcgBlockFlagged(t, eegCount, k, samplingRate, pearson))
  {
    var n := BlockCount(examinationTime);
    var flags: seq<bool> := [];
    var k := 0;
    while k < n
      invariant 0 <= k <= n
      invariant |flags| == k
      invariant forall j :: 0 <= j < k ==> !(eegCount > 0 && |Block(t.rows, j, samplingRate)| < 2)
      invariant forall j :: 0 <= j < k ==> (flags[j] <==> EcgBlockFlagged(t, eegCount, j, samplingRate, pearson))
    {
      var block := RowBlock(t, k, samplingRate);
      var maxCoefficient := DetectEcg(block, eegCount, pearson);
      if maxCoefficient.Err? {
        return Err(maxCoefficient.error);
      }
      MaxCoefficientExceeds(Coefficients(block, eegCount, pearson), EcgThreshold);
      flags := flags + [maxCoefficient.value > EcgThreshold];
      k := k + 1;
    }
    return Ok(BlockFlags(flags, EcgMessage));
  }

  // ---------------------------------------------------------------------------
  // LFP

  /** Lines 269-273: the Fourier ratio of every block, in block order. */
  function BlockRatios(channel: seq<real>, n: nat, samplingRate: nat, lambdaFrequency: real, nyquist: real,
                       electric: real, fft: seq<real> -> seq<Complex>): (rs: seq<Result<real>>)
    ensures |rs| == n
    ensures forall k :: 0 <= k < n ==>
              rs[k] == FourierFunction(Block(channel, k, samplingRate), samplingRate, lambdaFrequency, nyquist, electric, fft)
  {
    seq(n, k requires 0 <= k < n =>
      FourierFunction(Block(channel, k, samplingRate), samplingRate, lambdaFrequency, nyquist, electric, fft))
  }

  /** `detectLFP`: the first block whose ratio fails stops the channel; the
      median needs one block; a block is flagged when its ratio is strictly
      above `0.75 + 0.25 * median`. */
  function DetectLfp(channel: seq<real>, examinationTime: nat, samplingRate: nat, lambdaFrequency: real,
                     nyquist: real, electric: real, fft: seq<real> -> seq<Complex>): (r: Result<seq<bool>>)
    ensures var ratios := AllOk(BlockRatios(channel, BlockCount(examinationTime), samplingRate,
                                            lambdaFrequency, nyquist, electric, fft));
            && (ratios.Err? ==> r == Err(ratios.error))
            && (BlockCount(examinationTime) == 0 ==> r == Err(InsufficientData))
            && (r.Err? <==> ratios.Err? || BlockCount(examinationTime) == 0)
            && (r.Ok? ==>
                  && |r.value| == BlockCount(examinationTime)
                  && forall k :: 0 <= k < |r.value| ==>
                       (r.value[k] <==> ratios.value[k] > 0.75 + 0.25 * Median(ratios.value)))
  {
    var n := BlockCount(examinationTime);
    match AllOk(BlockRatios(channel, n, samplingRate, lambdaFrequency, nyquist, electric, fft))
    case Err(e) => Err(e)
    case Ok(ratios) =>
      match ThresholdLfp(ratios)
      case Err(e) => Err(e)
      case Ok(threshold) => Ok(FlagAbove(ratios, threshold))
  }

  /** One flag per value: set when the value is strictly above the threshold. */
  function FlagAbove(values: seq<real>, threshold: real): (f: seq<bool>)
    ensures |f| == |values|
    ensures forall k :: 0 <= k < |f| ==> (f[k] <==> values[k] > threshold)
  {
    seq(|values|, k requires 0 <= k < |values| => values[k] > threshold)
  }

  /** When the low band lies below the mains notch and the notch lies below
      the Nyquist frequency, every nonempty block has a ratio between 0 and 1;
      then detection succeeds and only blocks with a ratio above 0.75 are
      flagged. */
  lemma LfpFlagsOnlyHighRatios(channel: seq<real>, examinationTime: nat, samplingRate: nat, lambdaFrequency: real,
                               nyquist: real, electric: real, fft: seq<real> -> seq<Complex>)
    requires lambdaFrequency <= electric - 2.0 && lambdaFrequency <= nyquist && electric + 2.0 <= nyquist
    requires BlockCount(examinationTime) > 0
    requires !SomeBlockEmpty(channel, BlockCount(examinationTime), samplingRate)
    ensures var ratios := AllOk(BlockRatios(channel, BlockCount(examinationTime), samplingRate,
                                            lambdaFrequency, nyquist, electric, fft));
            && ratios.Ok?
            && (forall k :: 0 <= k < |ratios.value| ==> 0.0 <= ratios.value[k] <= 1.0)
            && DetectLfp(channel, examinationTime, samplingRate, lambdaFrequency, nyquist, electric, fft).Ok?
            && forall k ::
                 (0 <= k < BlockCount(examinationTime) &&
                  DetectLfp(channel, examinationTime, samplingRate, lambdaFrequency, nyquist, electric, fft).value[k])
                 ==> ratios.value[k] > 0.75
  {
    var n := BlockCount(examinationTime);
    var rs := BlockRatios(channel, n, samplingRate, lambdaFrequency, nyquist, electric, fft);
    SomeBlockEmptyIff(channel, n, samplingRate);
    forall k | 0 <= k < n
      ensures rs[k].Ok? && 0.0 <= rs[k].value <= 1.0
    {
      var data := Block(channel, k, samplingRate);
      var p := SquareModulus(fft(data));
      RatioWithinUnit(p, Linspace(samplingRate as real / 2.0, |p|), lambdaFrequency, nyquist, electric);
    }
    var ratios := AllOk(rs);
    ThresholdLfpOfFractions(ratios.value);
  }

  /** `detectLFP` on every EEG channel, in channel order (lines 323-329). */
  function LfpChannels(t: Table, eegCount: nat, examinationTime: nat, samplingRate: nat, lambdaFrequency: real,
                       nyquist: real, electric: real, fft: seq<real> -> seq<Complex>): (rs: seq<Result<seq<bool>>>)
    requires t.WellFormed() && (eegCount == 19 || eegCount == 20) && t.width >= 20
    ensures |rs| == eegCount
    ensures forall c :: 0 <= c < eegCount ==>
              rs[c] == DetectLfp(Column(t, ChannelColumn(eegCount, c)), examinationTime, samplingRate,
                                 lambdaFrequency, nyquist, electric, fft)
    ensures forall c :: 0 <= c < eegCount && rs[c].Ok? ==> |rs[c].value| == BlockCount(examinationTime)
  {
    seq(eegCount, c requires 0 <= c < eegCount =>
      DetectLfp(Column(t, ChannelColumn(eegCount, c)), examinationTime, samplingRate, lambdaFrequency, nyquist, electric, fft))
  }

  /** `performLFPDetection`: a block is flagged when some EEG channel flags
      it; the first channel whose detection fails stops the whole run. */
  method PerformLfpDetection(t: Table, eegCount: nat, examinationTime: nat, samplingRate: nat, lambdaFrequency: real,
                             nyquist: real, electric: real, fft: seq<real> -> seq<Complex>)
    returns (r: Result<BlockFlags>)
    requires t.WellFormed()
    requires eegCount == 19 || eegCount == 20 ==> t.width >= 20
    ensures eegCount == 0 ==> r == Ok(BlockFlags([], LfpMessage))
    ensures !SupportedLayout(eegCount) ==> r == Err(UnsupportedLayout)
    ensures r.Ok? ==> r.value.message == LfpMessage
    ensures eegCount == 19 || eegCount == 20 ==>
              var channels := LfpChannels(t, eegCount, examinationTime, samplingRate, lambdaFrequency, nyquist, electric, fft);
              && (r.Err? <==> exists c :: 0 <= c < eegCount && channels[c].Err?)
              && (r.Err? ==>
                    exists c :: 0 <= c < eegCount && channels[c] == Err(r.error) &&
                      forall j :: 0 <= j < c ==> channels[j].Ok?)
              && (r.Ok? ==>
                    && |r.value.flags| == BlockCount(examinationTime)
                    && forall k :: 0 <= k < BlockCount(examinationTime) ==>
                         (r.value.flags[k] <==>
                            FlaggedBySome(channels, k)))
  {
    if eegCount == 0 {
      return Ok(BlockFlags([], LfpMessage));
    }
    if !SupportedLayout(eegCount) {
      return Err(UnsupportedLayout);
    }
    var perChannel := LfpChannels(t, eegCount, examinationTime, samplingRate, lambdaFrequency, nyquist, electric, fft);
    var combined := CombineChannels(perChannel, BlockCount(examinationTime));
    if combined.Err? {
      return Err(combined.error);
    }
    return Ok(BlockFlags(combined.value, LfpMessage));
  }
}

=== FILE: extraction.dfy ===
/** dataExtraction.py: recognising an EEG export, choosing its reader, and
    reading the examination time, the sampling rate and the channel list
    from the header of an ASC file or the fixed layout of a TXT file.

    Opening, decoding and reading files are not modelled: the readers
    receive the file's lines (and, for ASC, the numeric table that
    `np.loadtxt` reads after the header) as arguments.
 */
module DataExtraction {
  import opened Outcome
  import opened Text
  import opened Decimal
  import opened Blocks

  const AscSuffix: string := "asc"
  const TxtSuffix: string := "txt"
  /** What the first line of a GALNT ASCII export starts with, quotes included. */
  const AscMarker: string := "\"GALNT ASCII CONVERTED FILE\""
  const TxtMarker: string := "%%%%%"

  datatype Format = Asc | Txt

  /** A path cannot end in both suffixes. */
  lemma SuffixesExclusive(path: string)
    ensures !(EndsWith(path, AscSuffix) && EndsWith(path, TxtSuffix))
  {
  }

  /** `extractData` (lines 55-60): the reader is chosen by the suffix, "asc"
      tested first; for any other suffix no reader runs. */
  function FormatOf(path: string): (f: Option<Format>)
    ensures f == Some(Asc) <==> EndsWith(path, AscSuffix)
    ensures f == Some(Txt) <==> EndsWith(path, TxtSuffix)
    ensures f == None <==> !EndsWith(path, AscSuffix) && !EndsWith(path, TxtSuffix)
  {
    SuffixesExclusive(path);
    if EndsWith(path, AscSuffix) then Some(Asc)
    else if EndsWith(path, TxtSuffix) then Some(Txt)
    else None
  }

  /** `checkFile` (lines 14-38), given the first line of the file and whether
      a TXT file decodes as UTF-16 (a decoding failure makes it invalid). */
  function CheckFile(path: string, firstLine: string, decodable: bool): (valid: bool)
    ensures valid <==>
              || (EndsWith(path, AscSuffix) && StartsWith(firstLine, AscMarker))
              || (EndsWith(path, TxtSuffix) && decodable && StartsWith(firstLine, TxtMarker))
  {
    match FormatOf(path)
    case Some(Asc) => StartsWith(firstLine, AscMarker)
    case Some(Txt) => decodable && StartsWith(firstLine, TxtMarker)
    case None => false
  }

  /** A file `checkFile` accepts always has a reader. */
  lemma ValidFileHasReader(path: string, firstLine: string, decodable: bool)
    requires CheckFile(path, firstLine, decodable)
    ensures FormatOf(path).Some?
    ensures FormatOf(path) == Some(Txt) ==> decodable
  {
    SuffixesExclusive(path);
  }

  /** What a reader returns: the samples, the duration in seconds, the
      sampling rate, the EEG channel names and the channel counts. */
  datatype Extracted = Extracted(data: Table, examinationTime: nat, samplingRate: nat,
                                 names: seq<string>, eegCount: nat, ecgCount: nat)

  // ---------------------------------------------------------------------------
  // ASC header

  /** Number of header lines read (line 96). */
  const AscHeaderLines: nat := 11
  const SecondsKey: string := "seconds"
  const RateKey: string := "sampling rate"
  const ChannelKey: string := "EKG"
  /** Channel names are quoted and separated by quote, comma, space, quote. */
  const FieldSeparator: string := "\", \""
  const EcgTag: string := "EKG-RF"
  const MarkerTag: string := "MK-RF"

  predicate IsSecondsLine(line: string) {
    Contains(ToLower(line), SecondsKey)
  }

  predicate IsRateLine(line: string) {
    Contains(ToLower(line), RateKey)
  }

  /** A field that is not an EEG channel: an ECG lead or a marker. */
  predicate Dropped(f: string) {
    Contains(f, EcgTag) || Contains(f, MarkerTag)
  }

  /** The state of the header loop: the digit strings collected so far, the
      channel names and the two channel counts. */
  datatype AscHeader = AscHeader(timeDigits: string, rateDigits: string,
                                 names: seq<string>, eegCount: int, ecgCount: nat)

  const EmptyHeader := AscHeader("", "", [], 0, 0)

  /** Index of the first occurrence of `item` in `xs`. */
  function FirstPosition(xs: seq<string>, item: string): (i: nat)
    requires item in xs
    ensures i < |xs| && xs[i] == item
    ensures forall j :: 0 <= j < i ==> xs[j] != item
    decreases |xs|
  {
    if xs[0] == item then 0
    else FirstPosition(xs[1..], item) + 1
  }

  /** Python's `list.remove(item)`: drops the first occurrence and keeps the
      order of the rest. */
  function Remove(xs: seq<string>, item: string): (r: seq<string>)
    requires item in xs
    ensures |r| == |xs| - 1
    ensures multiset(r) == multiset(xs) - multiset{item}
    decreases |xs|
  {
    assert xs == [xs[0]] + xs[1..];
    if xs[0] == item then xs[1..] else [xs[0]] + Remove(xs[1..], item)
  }

  /** `list.remove` takes out the element at the first occurrence of the
      item and keeps the others in their order. */
  lemma {:induction false} RemoveAtFirst(xs: seq<string>, item: string)
    requires item in xs
    ensures var i := FirstPosition(xs, item);
            Remove(xs, item) == xs[..i] + xs[i + 1..]
    decreases |xs|
  {
    if xs[0] != item {
      var tail := xs[1..];
      RemoveStep(xs, item);
      RemoveAtFirst(tail, item);
      ConsSlices(xs, FirstPosition(tail, item), Remove(xs, item), Remove(tail, item));
    }
  }

  /** Past a head that is not the item, removing and locating both move to the tail. */
  lemma RemoveStep(xs: seq<string>, item: string)
    requires item in xs && xs[0] != item
    ensures item in xs[1..]
    ensures Remove(xs, item) == [xs[0]] + Remove(xs[1..], item)
    ensures FirstPosition(xs, item) == FirstPosition(xs[1..], item) + 1
  {
    assert xs == [xs[0]] + xs[1..];
  }

  /** Cutting a list after its head and then at `k` is cutting it at `k + 1`. */
  lemma ConsSlices<T>(xs: seq<T>, k: nat, r: seq<T>, rest: seq<T>)
    requires k + 1 < |xs|
    requires rest == xs[1..][..k] + xs[1..][k + 1..] && r == [xs[0]] + rest
    ensures r == xs[..k + 1] + xs[k + 2..]
  {
    assert xs[..k + 1] == [xs[0]] + xs[1..][..k];
    assert xs[k + 2..] == xs[1..][k + 1..];
  }

  /** `list.remove` takes out exactly the first occurrence: some position
      holds the item, no earlier one does, and the result is the list
      without that position. */
  lemma RemoveFirst(xs: seq<string>, item: string)
    requires item in xs
    ensures exists i :: 0 <= i < |xs| && xs[i] == item && item !in xs[..i] && Remove(xs, item) == xs[..i] + xs[i + 1..]
  {
    var i := FirstPosition(xs, item);
    RemoveAtFirst(xs, item);
    AbsentFromPrefix(xs, item, i);
    assert 0 <= i < |xs| && xs[i] == item && item !in xs[..i] && Remove(xs, item) == xs[..i] + xs[i + 1..];
  }

  lemma AbsentFromPrefix<T>(xs: seq<T>, item: T, i: nat)
    requires i <= |xs|
    requires forall j :: 0 <= j < i ==> xs[j] != item
    ensures item !in xs[..i]
  {
    forall j | 0 <= j < i
      ensures xs[..i][j] != item
    {
      assert xs[..i][j] == xs[j];
    }
  }

  /** Removing an item just appended to a list that did not hold it restores the list. */
  lemma {:induction false} RemoveAppended(xs: seq<string>, item: string)
    requires item !in xs
    ensures Remove(xs + [item], item) == xs
    decreases |xs|
  {
    if |xs| > 0 {
      assert (xs + [item])[1..] == xs[1..] + [item];
      RemoveAppended(xs[1..], item);
      assert [xs[0]] + xs[1..] == xs;
    }
  }

  /** The loop state of lines 111-121. */
  datatype Channels = Channels(names: seq<string>, eeg: int, ecg: nat)

  /** Lines 112-121 for one field: it is appended to the names and, when it
      names an ECG lead or a marker, removed again and not counted as EEG. */
  function FieldStep(st: Channels, f: string): Channels {
    var names := st.names + [f];
    if Contains(f, EcgTag) then Channels(Remove(names, f), st.eeg - 1, st.ecg + 1)
    else if Contains(f, MarkerTag) then Channels(Remove(names, f), st.eeg - 1, st.ecg)
    else Channels(names, st.eeg, st.ecg)
  }

  function FieldsFold(st: Channels, fields: seq<string>): Channels
    decreases |fields|
  {
    if |fields| == 0 then st else FieldsFold(FieldStep(st, fields[0]), fields[1..])
  }

  /** The fields that are EEG channels, in order. */
  function Kept(fields: seq<string>): (r: seq<string>)
    ensures |r| <= |fields|
    ensures forall k :: 0 <= k < |r| ==> !Dropped(r[k])
    decreases |fields|
  {
    if |fields| == 0 then []
    else (if Dropped(fields[0]) then [] else [fields[0]]) + Kept(fields[1..])
  }

  function CountDropped(fields: seq<string>): (n: nat)
    ensures n == |fields| - |Kept(fields)|
    decreases |fields|
  {
    if |fields| == 0 then 0 else (if Dropped(fields[0]) then 1 else 0) + CountDropped(fields[1..])
  }

  function CountEcg(fields: seq<string>): (n: nat)
    ensures n <= CountDropped(fields)
    decreases |fields|
  {
    if |fields| == 0 then 0 else (if Contains(fields[0], EcgTag) then 1 else 0) + CountEcg(fields[1..])
  }

  predicate Clean(names: seq<string>) {
    forall k :: 0 <= k < |names| ==> !Dropped(names[k])
  }

  /** When no name collected so far is an ECG lead or a marker, `remove`
      always drops the field just appended, so the loop keeps exactly the
      EEG fields, in order, and counts the others. */
  lemma {:induction false} FieldsFoldFilters(st: Channels, fields: seq<string>)
    requires Clean(st.names)
    ensures FieldsFold(st, fields) ==
              Channels(st.names + Kept(fields), st.eeg - CountDropped(fields), st.ecg + CountEcg(fields))
    decreases |fields|
  {
    if |fields| > 0 {
      var f := fields[0];
      var next := FieldStep(st, f);
      FieldStepClean(st, f);
      FieldsFoldFilters(next, fields[1..]);
      var rest := Kept(fields[1..]);
      if Dropped(f) {
        assert Kept(fields) == rest;
      } else {
        assert Kept(fields) == [f] + rest;
        assert next.names + rest == st.names + ([f] + rest);
      }
    }
  }

  /** One field: an EEG field is kept, any other is appended and removed again. */
  lemma FieldStepClean(st: Channels, f: string)
    requires Clean(st.names)
    ensures Dropped(f) ==> FieldStep(st, f).names == st.names
    ensures !Dropped(f) ==> FieldStep(st, f).names == st.names + [f]
    ensures FieldStep(st, f).eeg == st.eeg - (if Dropped(f) then 1 else 0)
    ensures FieldStep(st, f).ecg == st.ecg + (if Contains(f, EcgTag) then 1 else 0)
    ensures Clean(FieldStep(st, f).names)
  {
    if Dropped(f) {
      assert f !in st.names;
      RemoveAppended(st.names, f);
    }
  }

  /** Lines 108-121: a line naming the channels. The EEG count restarts from
      the number of fields; names and the ECG count carry over. */
  function ChannelLine(h: AscHeader, line: string): AscHeader {
    var fields := SplitOn(line, FieldSeparator);
    var c := FieldsFold(Channels(h.names, |fields|, h.ecgCount), fields);
    h.(names := c.names, eegCount := c.eeg, ecgCount := c.ecg)
  }

  /** The channel line of a header with clean names: the EEG names of its
      fields are appended in order, the EEG count is the number of EEG
      fields, and every field naming an ECG lead adds one to the ECG count. */
  lemma ChannelLineCounts(h: AscHeader, line: string)
    requires Clean(h.names)
    ensures var fields := SplitOn(line, FieldSeparator);
            && ChannelLine(h, line).names == h.names + Kept(fields)
            && ChannelLine(h, line).eegCount == |Kept(fields)|
            && ChannelLine(h, line).ecgCount == h.ecgCount + CountEcg(fields)
            && Clean(ChannelLine(h, line).names)
            && ChannelLine(h, line).timeDigits == h.timeDigits
            && ChannelLine(h, line).rateDigits == h.rateDigits
  {
    var fields := SplitOn(line, FieldSeparator);
    FieldsFoldFilters(Channels(h.names, |fields|, h.ecgCount), fields);
  }

  /** Lines 97-121 for one header line; the tests are an if/elif chain, so a
      line mentioning seconds is never read as the sampling rate. */
  function HeaderStep(h: AscHeader, line: string): AscHeader {
    if IsSecondsLine(line) then h.(timeDigits := h.timeDigits + DigitsOf(line))
    else if IsRateLine(line) then h.(rateDigits := h.rateDigits + DigitsBeforeDot(line))
    else if Contains(line, ChannelKey) then ChannelLine(h, line)
    else h
  }

  function HeaderFold(h: AscHeader, lines: seq<string>): AscHeader
    decreases |lines|
  {
    if |lines| == 0 then h else HeaderFold(HeaderStep(h, lines[0]), lines[1..])
  }

  /** The first eleven lines; `readline` past the end returns an empty line,
      which matches none of the tests. */
  function HeaderOf(lines: seq<string>): (header: seq<string>)
    ensures |header| <= AscHeaderLines && |header| <= |lines|
    ensures header == lines[..|header|]
  {
    lines[..MinNat(AscHeaderLines, |lines|)]
  }

  /** Every line mentioning seconds, glued together in order. */
  function SecondsText(lines: seq<string>): string
    decreases |lines|
  {
    if |lines| == 0 then ""
    else (if IsSecondsLine(lines[0]) then lines[0] else "") + SecondsText(lines[1..])
  }

  /** The sampling-rate digits of every line that mentions the sampling rate
      but not seconds, glued together in order. */
  function RateDigitsOf(lines: seq<string>): (r: string)
    ensures AllDigits(r)
    decreases |lines|
  {
    if |lines| == 0 then ""
    else
      (if !IsSecondsLine(lines[0]) && IsRateLine(lines[0]) then DigitsBeforeDot(lines[0]) else "")
      + RateDigitsOf(lines[1..])
  }

  /** The duration digits are every digit of the lines mentioning seconds, and
      the rate digits are those before the first '.' of each line mentioning
      the sampling rate (and not seconds); the names stay free of ECG leads
      and markers and the EEG count stays nonnegative. */
  lemma {:induction false} HeaderFoldCollects(h: AscHeader, lines: seq<string>)
    requires Clean(h.names) && h.eegCount >= 0
    ensures HeaderFold(h, lines).timeDigits == h.timeDigits + DigitsOf(SecondsText(lines))
    ensures HeaderFold(h, lines).rateDigits == h.rateDigits + RateDigitsOf(lines)
    ensures Clean(HeaderFold(h, lines).names)
    ensures HeaderFold(h, lines).eegCount >= 0
    decreases |lines|
  {
    if |lines| == 0 {
      assert h.timeDigits + DigitsOf(SecondsText(lines)) == h.timeDigits;
      assert h.rateDigits + RateDigitsOf(lines) == h.rateDigits;
    } else {
      var line := lines[0];
      var next := HeaderStep(h, line);
      HeaderStepCollects(h, line);
      HeaderFoldCollects(next, lines[1..]);
      var secs := if IsSecondsLine(line) then line else "";
      var rate := if !IsSecondsLine(line) && IsRateLine(line) then DigitsBeforeDot(line) else "";
      DigitsOfAppend(secs, SecondsText(lines[1..]));
      assert SecondsText(lines) == secs + SecondsText(lines[1..]);
      assert RateDigitsOf(lines) == rate + RateDigitsOf(lines[1..]);
      Associative(h.timeDigits, DigitsOf(secs), DigitsOf(SecondsText(lines[1..])));
      Associative(h.rateDigits, rate, RateDigitsOf(lines[1..]));
    }
  }

  lemma Associative(a: string, b: string, c: string)
    ensures (a + b) + c == a + (b + c)
  {
  }

  /** One header line adds its digits to at most one of the two digit strings. */
  lemma HeaderStepCollects(h: AscHeader, line: string)
    requires Clean(h.names) && h.eegCount >= 0
    ensures HeaderStep(h, line).timeDigits ==
              h.timeDigits + DigitsOf(if IsSecondsLine(line) then line else "")
    ensures HeaderStep(h, line).rateDigits ==
              h.rateDigits + (if !IsSecondsLine(line) && IsRateLine(line) then DigitsBeforeDot(line) else "")
    ensures Clean(HeaderStep(h, line).names)
    ensures HeaderStep(h, line).eegCount >= 0
  {
    if IsSecondsLine(line) {
    } else if IsRateLine(line) {
      assert DigitsOf("") == "";
    } else {
      assert DigitsOf("") == "";
      assert h.timeDigits + "" == h.timeDigits && h.rateDigits + "" == h.rateDigits;
      if Contains(line, ChannelKey) {
        ChannelLineCounts(h, line);
      }
    }
  }

  /** `extractDataAsc` (lines 87-123) on the file's lines and the table read
      after the header: `int("")` fails when the header gives no digit for
      the duration or for the sampling rate, the duration being converted
      first. */
  function ExtractAsc(lines: seq<string>, data: Table): (r: Result<Extracted>)
    ensures var header := HeaderOf(lines);
            && (r.Err? <==> |DigitsOf(SecondsText(header))| == 0 || |RateDigitsOf(header)| == 0)
            && (r.Err? ==> r.error == NotANumber)
            && (r.Ok? ==>
                  && r.value.examinationTime == Value(DigitsOf(SecondsText(header)))
                  && r.value.samplingRate == Value(RateDigitsOf(header))
                  && Clean(r.value.names)
                  && r.value.names == KeptNames(ChannelLinesOf(header))
                  && r.value.eegCount == LastEegCount(ChannelLinesOf(header))
                  && r.value.ecgCount == EcgTotal(ChannelLinesOf(header))
                  && r.value.data == data)
  {
    var h := HeaderFold(EmptyHeader, HeaderOf(lines));
    HeaderRead(HeaderOf(lines));
    var time :- ParseNat(h.timeDigits);
    var rate :- ParseNat(h.rateDigits);
    Ok(Extracted(data, time, rate, h.names, h.eegCount, h.ecgCount))
  }

  /** Everything the eleven header lines yield, read from a fresh header. */
  lemma HeaderRead(header: seq<string>)
    ensures var h := HeaderFold(EmptyHeader, header);
            var cl := ChannelLinesOf(header);
            && h.timeDigits == DigitsOf(SecondsText(header))
            && h.rateDigits == RateDigitsOf(header)
            && Clean(h.names)
            && h.names == KeptNames(cl)
            && h.eegCount == LastEegCount(cl)
            && h.ecgCount == EcgTotal(cl)
  {
    HeaderFoldCollects(EmptyHeader, header);
    HeaderChannels(EmptyHeader, header);
    assert [] + KeptNames(ChannelLinesOf(header)) == KeptNames(ChannelLinesOf(header));
  }

  /** A header whose channel line is the only one naming channels: the
      names are its EEG fields and the counts are those of its fields. */
  lemma SingleChannelLine(before: seq<string>, line: string, after: seq<string>)
    requires forall k :: 0 <= k < |before| ==> !Contains(before[k], ChannelKey)
    requires forall k :: 0 <= k < |after| ==> !Contains(after[k], ChannelKey)
    requires !IsSecondsLine(line) && !IsRateLine(line) && Contains(line, ChannelKey)
    ensures var h := HeaderFold(EmptyHeader, before + [line] + after);
            var fields := SplitOn(line, FieldSeparator);
            && h.names == Kept(fields)
            && h.eegCount == |Kept(fields)|
            && h.ecgCount == CountEcg(fields)
  {
    var h0 := HeaderFold(EmptyHeader, before);
    NoChannelLines(EmptyHeader, before);
    FoldAround(EmptyHeader, before, line, after);
    ChannelStep(h0, line);
    ChannelLineCounts(h0, line);
    NoChannelLines(ChannelLine(h0, line), after);
  }

  /** A line naming the channels, and neither the duration nor the rate, is
      read as the channel line wherever it stands. */
  lemma FoldAround(h: AscHeader, before: seq<string>, line: string, after: seq<string>)
    ensures HeaderFold(h, before + [line] + after) == HeaderFold(HeaderStep(HeaderFold(h, before), line), after)
  {
    var rest := [line] + after;
    HeaderFoldAppend(h, before, rest);
    assert before + [line] + after == before + rest;
    HeaderFoldCons(HeaderFold(h, before), line, after);
  }

  lemma HeaderFoldCons(h: AscHeader, line: string, rest: seq<string>)
    ensures HeaderFold(h, [line] + rest) == HeaderFold(HeaderStep(h, line), rest)
  {
    assert ([line] + rest)[0] == line && ([line] + rest)[1..] == rest;
  }

  lemma ChannelStep(h: AscHeader, line: string)
    requires !IsSecondsLine(line) && !IsRateLine(line) && Contains(line, ChannelKey)
    ensures HeaderStep(h, line) == ChannelLine(h, line)
  {
  }

  /** Folding over two pieces is folding over the first, then the second. */
  lemma {:induction false} HeaderFoldAppend(h: AscHeader, a: seq<string>, b: seq<string>)
    ensures HeaderFold(h, a + b) == HeaderFold(HeaderFold(h, a), b)
    decreases |a|
  {
    if |a| > 0 {
      assert (a + b)[1..] == a[1..] + b;
      HeaderFoldAppend(HeaderStep(h, a[0]), a[1..], b);
    } else {
      assert a + b == b;
    }
  }

  /** Lines without channel names leave the names and counts alone. */
  lemma {:induction false} NoChannelLines(h: AscHeader, lines: seq<string>)
    requires forall k :: 0 <= k < |lines| ==> !Contains(lines[k], ChannelKey)
    ensures HeaderFold(h, lines).names == h.names
    ensures HeaderFold(h, lines).eegCount == h.eegCount
    ensures HeaderFold(h, lines).ecgCount == h.ecgCount
    decreases |lines|
  {
    if |lines| > 0 {
      NoChannelLines(HeaderStep(h, lines[0]), lines[1..]);
    }
  }

  /** A header line read as the channel line: it names the channels and is
      neither the duration line nor the rate line, which take priority. */
  predicate IsChannelLine(line: string) {
    !IsSecondsLine(line) && !IsRateLine(line) && Contains(line, ChannelKey)
  }

  /** The channel lines of a header, in order. */
  function ChannelLinesOf(lines: seq<string>): (r: seq<string>)
    ensures forall k :: 0 <= k < |r| ==> IsChannelLine(r[k])
    decreases |lines|
  {
    if |lines| == 0 then []
    else (if IsChannelLine(lines[0]) then [lines[0]] else []) + ChannelLinesOf(lines[1..])
  }

  /** The EEG names of every channel line, in order. */
  function KeptNames(channelLines: seq<string>): seq<string>
    decreases |channelLines|
  {
    if |channelLines| == 0 then []
    else Kept(SplitOn(channelLines[0], FieldSeparator)) + KeptNames(channelLines[1..])
  }

  /** The ECG fields of every channel line. */
  function EcgTotal(channelLines: seq<string>): nat
    decreases |channelLines|
  {
    if |channelLines| == 0 then 0
    else CountEcg(SplitOn(channelLines[0], FieldSeparator)) + EcgTotal(channelLines[1..])
  }

  /** The EEG count restarts at every channel line, so the last one decides. */
  function LastEegCount(channelLines: seq<string>): nat {
    if |channelLines| == 0 then 0
    else |Kept(SplitOn(channelLines[|channelLines| - 1], FieldSeparator))|
  }

  /** Reading the header collects the names of every channel line, adds up
      their ECG fields and keeps the EEG count of the last one. */
  lemma {:induction false} HeaderChannels(h: AscHeader, lines: seq<string>)
    requires Clean(h.names) && h.eegCount >= 0
    ensures var cl := ChannelLinesOf(lines);
            && HeaderFold(h, lines).names == h.names + KeptNames(cl)
            && HeaderFold(h, lines).ecgCount == h.ecgCount + EcgTotal(cl)
            && HeaderFold(h, lines).eegCount == if |cl| == 0 then h.eegCount else LastEegCount(cl)
    decreases |lines|
  {
    if |lines| == 0 {
      assert h.names + [] == h.names;
    } else {
      var line := lines[0];
      var next := HeaderStep(h, line);
      var rest := ChannelLinesOf(lines[1..]);
      ChannelStepCounts(h, line);
      HeaderChannels(next, lines[1..]);
      if IsChannelLine(line) {
        var kept := Kept(SplitOn(line, FieldSeparator));
        ChannelLinesCons(line, rest);
        assert ChannelLinesOf(lines) == [line] + rest;
        ConcatAssociative(h.names, kept, KeptNames(rest));
      } else {
        assert ChannelLinesOf(lines) == rest;
      }
    }
  }

  /** One header line: a channel line appends its EEG names, adds its ECG
      fields and sets the EEG count; any other line leaves all three alone. */
  lemma ChannelStepCounts(h: AscHeader, line: string)
    requires Clean(h.names) && h.eegCount >= 0
    ensures var next := HeaderStep(h, line);
            var fields := SplitOn(line, FieldSeparator);
            && Clean(next.names) && next.eegCount >= 0
            && (IsChannelLine(line) ==>
                  && next.names == h.names + Kept(fields)
                  && next.eegCount == |Kept(fields)|
                  && next.ecgCount == h.ecgCount + CountEcg(fields))
            && (!IsChannelLine(line) ==>
                  next.names == h.names && next.eegCount == h.eegCount && next.ecgCount == h.ecgCount)
  {
    if IsChannelLine(line) {
      ChannelStep(h, line);
      ChannelLineCounts(h, line);
    }
  }

  lemma ConcatAssociative<T>(a: seq<T>, b: seq<T>, c: seq<T>)
    ensures (a + b) + c == a + (b + c)
  {
  }

  /** The totals of a channel line followed by more channel lines. */
  lemma ChannelLinesCons(line: string, rest: seq<string>)
    ensures var cl := [line] + rest;
            && KeptNames(cl) == Kept(SplitOn(line, FieldSeparator)) + KeptNames(rest)
            && EcgTotal(cl) == CountEcg(SplitOn(line, FieldSeparator)) + EcgTotal(rest)
            && LastEegCount(cl) == if |rest| == 0 then |Kept(SplitOn(line, FieldSeparator))| else LastEegCount(rest)
  {
    var cl := [line] + rest;
    assert cl[0] == line && cl[1..] == rest;
    assert |rest| > 0 ==> cl[|cl| - 1] == rest[|rest| - 1];
  }

  // ---------------------------------------------------------------------------
  // TXT

  /** Lines of file information before the samples (line 163). */
  const InformLines: nat := 15
  const BreakMarker: string := "--- BREAK IN DATA ---"
  /** Lines 156-158: the fixed channel list of a TXT export. */
  const TxtChannelNames: seq<string> :=
    ["C3", "C4", "Cz", "F3", "F4", "F7", "F8", "Fz", "Fp1", "Fp2", "O1",
     "O2", "Oz", "P3", "P4", "T5", "T6", "Pz", "T3", "T4"]
  const TxtChannels: nat := 20
  /** Tokens dropped from the front and from the back of a data row (lines 199-203). */
  const LeadingTokens: nat := 4
  const TrailingTokens: nat := 42
  const ShortToken: string := "SHORT"
  const SaturatedToken: string := "AMPSAT"
  /** A last row starting with one of these ends the data (line 190). */
  const TruncatedPrefixes: seq<string> := ["SHORT", "HORT", "ORT", "RT", "T"]

  predicate IsBreak(line: string) {
    Contains(line, BreakMarker)
  }

  predicate Truncated(content: string) {
    exists k :: 0 <= k < |TruncatedPrefixes| && StartsWith(content, TruncatedPrefixes[k])
  }

  /** Lines 166-169: the lines marking a break in the data. */
  function CountBreaks(lines: seq<string>): (n: nat)
    ensures n <= |lines|
    decreases |lines|
  {
    if |lines| == 0 then 0 else (if IsBreak(lines[0]) then 1 else 0) + CountBreaks(lines[1..])
  }

  /** Line 173: the rows of the sample array; negative when the file is too short. */
  function DataLineCount(lines: seq<string>): int {
    |lines| - InformLines - CountBreaks(lines)
  }

  /** The sampling-rate digits of the lines mentioning the sampling rate, in order. */
  function RateLinesDigits(lines: seq<string>): (r: string)
    ensures AllDigits(r)
    decreases |lines|
  {
    if |lines| == 0 then ""
    else (if IsRateLine(lines[0]) then DigitsBeforeDot(lines[0]) else "") + RateLinesDigits(lines[1..])
  }

  /** Lines 176-183: the sampling rate is read from the information lines only. */
  function TxtRateDigits(lines: seq<string>): (r: string)
    ensures AllDigits(r)
  {
    RateLinesDigits(lines[..MinNat(InformLines, |lines|)])
  }

  /** One sample of a cleaned row: a reading, or the saturation marker that
      is stored as 0. */
  datatype Cell = Reading(text: string) | Saturated

  /** The token a cell was read from. */
  function CellText(c: Cell): string {
    match c
    case Reading(t) => t
    case Saturated => SaturatedToken
  }

  function CellTexts(cells: seq<Cell>): (r: seq<string>)
    ensures |r| == |cells|
    ensures forall i :: 0 <= i < |cells| ==> r[i] == CellText(cells[i])
  {
    seq(|cells|, i requires 0 <= i < |cells| => CellText(cells[i]))
  }

  /** Lines 205-207: every "SHORT" token removed, the others kept in order. */
  function WithoutShort(tokens: seq<string>): (r: seq<string>)
    ensures |r| <= |tokens|
    ensures forall k :: 0 <= k < |r| ==> r[k] != ShortToken
    decreases |tokens|
  {
    if |tokens| == 0 then []
    else (if tokens[0] == ShortToken then [] else [tokens[0]]) + WithoutShort(tokens[1..])
  }

  /** The tokens left after the four leading and forty-two trailing ones are popped. */
  function Middle(tokens: seq<string>): seq<string>
    requires |tokens| >= LeadingTokens + TrailingTokens
  {
    tokens[LeadingTokens..|tokens| - TrailingTokens]
  }

  /** Lines 197-220 for one data row: split on whitespace, drop 4 tokens at
      the front and 42 at the back (popping an empty list raises), remove
      every "SHORT", read "AMPSAT" in the first 20 places as 0, and keep
      the first 20 tokens (indexing past the end raises). */
  function CleanRow(content: string): (r: Result<seq<Cell>>) {
    var tokens := Words(content);
    if |tokens| < LeadingTokens + TrailingTokens then Err(ShortRow)
    else
      var res := WithoutShort(Middle(tokens));
      if |res| < TxtChannels then Err(ShortRow)
      else Ok(seq(TxtChannels, i requires 0 <= i < TxtChannels =>
                if res[i] == SaturatedToken then Saturated else Reading(res[i])))
  }

  /** A row cleans exactly when it has the 46 tokens to pop and 20 tokens
      left once "SHORT" is removed; the cells are then those 20 tokens in
      order, none of them "SHORT" and none still reading "AMPSAT". */
  lemma CleanRowCells(content: string)
    ensures CleanRow(content).Err? ==> CleanRow(content).error == ShortRow
    ensures CleanRow(content).Ok? <==>
              var tokens := Words(content);
              |tokens| >= LeadingTokens + TrailingTokens && |WithoutShort(Middle(tokens))| >= TxtChannels
    ensures CleanRow(content).Ok? ==>
              var cells := CleanRow(content).value;
              && |cells| == TxtChannels
              && CellTexts(cells) == WithoutShort(Middle(Words(content)))[..TxtChannels]
              && forall i :: 0 <= i < |cells| ==>
                   cells[i] != Reading(ShortToken) && cells[i] != Reading(SaturatedToken)
  {
    if CleanRow(content).Ok? {
      var cells := CleanRow(content).value;
      var res := WithoutShort(Middle(Words(content)));
      assert CellTexts(cells) == res[..TxtChannels];
    }
  }

  /** The value stored for a cell: `toReal` stands for numpy's conversion of
      a token to a float, `None` where numpy raises `ValueError`; the
      saturation marker was replaced by the integer 0. */
  function CellValue(c: Cell, toReal: string -> Option<real>): Option<real> {
    match c
    case Reading(t) => toReal(t)
    case Saturated => Some(0.0)
  }

  /** Line 217: numpy converts the cells one by one and the first token it
      cannot read raises `ValueError`. */
  function RowValues(cells: seq<Cell>, toReal: string -> Option<real>): (r: Result<seq<real>>)
    ensures r.Ok? <==> forall i :: 0 <= i < |cells| ==> CellValue(cells[i], toReal).Some?
    ensures r.Err? ==> r.error == NotANumber
    ensures r.Ok? ==> |r.value| == |cells|
    ensures r.Ok? ==> forall i :: 0 <= i < |cells| ==> r.value[i] == CellValue(cells[i], toReal).value
    decreases |cells|
  {
    if |cells| == 0 then Ok([])
    else
      match CellValue(cells[0], toReal)
      case None => Err(NotANumber)
      case Some(v) =>
        match RowValues(cells[1..], toReal)
        case Err(e) =>
          assert forall i :: 1 <= i < |cells| ==> cells[i] == cells[1..][i - 1];
          Err(e)
        case Ok(vs) =>
          assert forall i :: 1 <= i < |cells| ==> cells[i] == cells[1..][i - 1];
          Ok([v] + vs)
  }

  /** A row of `np.zeros`, kept by rows that are never written. */
  const ZeroRow: seq<real> := seq(TxtChannels, _ => 0.0)

  /** The lines that are not break lines, in order. */
  function NonBreak(lines: seq<string>): (r: seq<string>)
    ensures |r| <= |lines|
    ensures forall k :: 0 <= k < |r| ==> !IsBreak(r[k])
    decreases |lines|
  {
    if |lines| == 0 then []
    else
      var last := lines[|lines| - 1];
      NonBreak(lines[..|lines| - 1]) + if IsBreak(last) then [] else [last]
  }

  /** Filtering a longer prefix extends the filtered shorter prefix. */
  lemma {:induction false} NonBreakPrefix(s: seq<string>, m: nat, n: nat)
    requires m <= n <= |s|
    ensures NonBreak(s[..m]) <= NonBreak(s[..n])
    decreases n - m
  {
    if m < n {
      NonBreakPrefix(s, m, n - 1);
      assert s[..n][..n - 1] == s[..n - 1];
    }
  }

  /** The lines after the information lines. */
  function Scanned(lines: seq<string>): seq<string> {
    if |lines| > InformLines then lines[InformLines..] else []
  }

  /** Lines 187-195: the last line is dropped when it starts like a
      truncated "SHORT". */
  function Retained(scanned: seq<string>): seq<string> {
    if |scanned| > 0 && Truncated(scanned[|scanned| - 1]) then scanned[..|scanned| - 1] else scanned
  }

  /** The rows after the information lines, without a truncated last line
      and without break lines. */
  function DataRows(lines: seq<string>): seq<string> {
    NonBreak(Retained(Scanned(lines)))
  }

  /** A data row that cleans and whose cells all convert. */
  predicate Readable(row: string, toReal: string -> Option<real>) {
    CleanRow(row).Ok? && RowValues(CleanRow(row).value, toReal).Ok?
  }

  /** Every data row is readable and there is room for all of them. */
  predicate RowsFit(rows: seq<string>, dataLines: nat, toReal: string -> Option<real>) {
    |rows| <= dataLines && forall j :: 0 <= j < |rows| ==> Readable(rows[j], toReal)
  }

  /** What stops the reading at data row `j` (lines 197-217), in the order
      Python meets it: the list of 20 tokens is built first (ShortRow), then
      numpy checks the row index (RowOutOfRange) before it converts the
      values (NotANumber). */
  function RowError(row: string, j: nat, dataLines: nat, toReal: string -> Option<real>): (e: Option<Error>)
    ensures e.None? <==> j < dataLines && Readable(row, toReal)
  {
    if CleanRow(row).Err? then Some(CleanRow(row).error)
    else if j >= dataLines then Some(RowOutOfRange)
    else if RowValues(CleanRow(row).value, toReal).Err? then Some(NotANumber)
    else None
  }

  /** Data row `j` is the first to stop the reading, and stops it with `e`. */
  predicate FailsFirstWith(rows: seq<string>, dataLines: nat, toReal: string -> Option<real>, e: Error) {
    exists j :: 0 <= j < |rows| && RowError(rows[j], j, dataLines, toReal) == Some(e) &&
      forall i :: 0 <= i < j ==> RowError(rows[i], i, dataLines, toReal).None?
  }

  /** The rows fit exactly when no data row stops the reading. */
  lemma RowsFitIff(rows: seq<string>, dataLines: nat, toReal: string -> Option<real>)
    ensures RowsFit(rows, dataLines, toReal) <==>
              forall j :: 0 <= j < |rows| ==> RowError(rows[j], j, dataLines, toReal).None?
  {
    if |rows| > dataLines {
      assert RowError(rows[dataLines], dataLines, dataLines, toReal).Some?;
    }
  }

  /** The array once the given rows are written to its first rows; it is
      only read when the rows fit, so a row that is not readable stays zero. */
  function Written(rows: seq<string>, dataLines: nat, toReal: string -> Option<real>): (r: seq<seq<real>>) {
    seq(dataLines, j requires 0 <= j < dataLines =>
      if j < |rows| && Readable(rows[j], toReal) then RowValues(CleanRow(rows[j]).value, toReal).value else ZeroRow)
  }

  /** The written array has a row of 20 values per line of the file; the
      first rows hold the cleaned data rows in order and the rest are zero. */
  lemma WrittenRows(rows: seq<string>, dataLines: nat, toReal: string -> Option<real>)
    requires RowsFit(rows, dataLines, toReal)
    ensures var t := Written(rows, dataLines, toReal);
            && |t| == dataLines
            && (forall j :: 0 <= j < dataLines ==> |t[j]| == TxtChannels)
            && (forall j :: 0 <= j < |rows| ==> t[j] == RowValues(CleanRow(rows[j]).value, toReal).value)
            && (forall j :: |rows| <= j < dataLines ==> t[j] == ZeroRow)
  {
    var t := Written(rows, dataLines, toReal);
    forall j | 0 <= j < dataLines
      ensures |t[j]| == TxtChannels
    {
      if j < |rows| {
        CleanRowCells(rows[j]);
      }
    }
  }

  /** Writing one more cleaned row to the next free row. */
  lemma WrittenStep(rows: seq<string>, content: string, dataLines: nat, toReal: string -> Option<real>)
    requires RowsFit(rows, dataLines, toReal) && |rows| < dataLines && Readable(content, toReal)
    ensures RowsFit(rows + [content], dataLines, toReal)
    ensures Written(rows, dataLines, toReal)[|rows| := RowValues(CleanRow(content).value, toReal).value]
            == Written(rows + [content], dataLines, toReal)
  {
    var rs := rows + [content];
    assert forall j :: 0 <= j < |rows| ==> rs[j] == rows[j];
    assert rs[|rows|] == content;
  }

  /** Lines 174 and 186-220: an array of `dataLines` zero rows, and every data
      row written, in order, to the next free row. The first data row that
      does not clean, finds no free row or does not convert stops the
      reading with its error. */
  method ReadRows(lines: seq<string>, dataLines: nat, toReal: string -> Option<real>)
    returns (r: Result<seq<seq<real>>>)
    requires |lines| >= InformLines + dataLines
    ensures r.Ok? <==> RowsFit(DataRows(lines), dataLines, toReal)
    ensures r.Err? ==> r.error == ShortRow || r.error == RowOutOfRange || r.error == NotANumber
    ensures r.Err? ==> FailsFirstWith(DataRows(lines), dataLines, toReal, r.error)
    ensures r.Ok? ==> r.value == Written(DataRows(lines), dataLines, toReal)
  {
    var scanned := lines[InformLines..];
    assert scanned == Scanned(lines);
    ghost var data := NonBreak(Retained(scanned));
    assert DataRows(lines) == data;
    var total := |scanned|;
    var table := seq(dataLines, _ => ZeroRow);
    var breakCounter := 0;
    var row := 0;
    ghost var kept: seq<string> := [];
    assert table == Written(kept, dataLines, toReal);
    while row < total
      invariant 0 <= row <= total
      invariant kept == NonBreak(scanned[..row])
      invariant breakCounter + |kept| == row
      invariant RowsFit(kept, dataLines, toReal)
      invariant table == Written(kept, dataLines, toReal)
      invariant row == total && total > 0 ==> !Truncated(scanned[total - 1])
    {
      var content := scanned[row];
      if row == total - 1 && Truncated(content) {
        break;
      }
      NonBreakStep(scanned, row);
      if IsBreak(content) {
        breakCounter := breakCounter + 1;
      } else {
        RetainedHolds(scanned, row);
        var written := WriteRow(table, content, row - breakCounter, dataLines, toReal, kept, data);
        if written.Err? {
          return Err(written.error);
        }
        table := written.value;
        kept := kept + [content];
      }
      row := row + 1;
    }
    ScanComplete(scanned, row);
    return Ok(table);
  }

  /** Lines 197-220 for one data row that is not a break line, written to row
      `index` after the rows `kept` of the data rows `rows`: clean it, check
      the row index, convert the cells and store them. */
  method WriteRow(table: seq<seq<real>>, content: string, index: nat, dataLines: nat,
                  toReal: string -> Option<real>, ghost kept: seq<string>, ghost rows: seq<string>)
    returns (r: Result<seq<seq<real>>>)
    requires kept + [content] <= rows && index == |kept|
    requires RowsFit(kept, dataLines, toReal) && table == Written(kept, dataLines, toReal)
    ensures r.Ok? <==> RowError(content, index, dataLines, toReal).None?
    ensures r.Ok? ==> RowsFit(kept + [content], dataLines, toReal)
    ensures r.Ok? ==> r.value == Written(kept + [content], dataLines, toReal)
    ensures r.Err? ==> r.error == ShortRow || r.error == RowOutOfRange || r.error == NotANumber
    ensures r.Err? ==> !RowsFit(rows, dataLines, toReal) && FailsFirstWith(rows, dataLines, toReal, r.error)
  {
    var cells := CleanRow(content);
    if cells.Err? {
      CleanRowCells(content);
      RowStopsReading(rows, kept, content, dataLines, toReal);
      return Err(cells.error);
    }
    if index >= dataLines {
      RowStopsReading(rows, kept, content, dataLines, toReal);
      return Err(RowOutOfRange);
    }
    var values := RowValues(cells.value, toReal);
    if values.Err? {
      RowStopsReading(rows, kept, content, dataLines, toReal);
      return Err(NotANumber);
    }
    WrittenStep(kept, content, dataLines, toReal);
    return Ok(table[index := values.value]);
  }

  /** The loop stops at the end of the data, or one line before it when the
      last line is truncated: either way it has filtered all the data rows. */
  lemma ScanComplete(scanned: seq<string>, row: nat)
    requires || (row == |scanned| - 1 && Truncated(scanned[row]))
             || (row == |scanned| && (row > 0 ==> !Truncated(scanned[row - 1])))
    ensures NonBreak(scanned[..row]) == NonBreak(Retained(scanned))
  {
    if row < |scanned| {
      assert scanned[..|scanned| - 1] == scanned[..row];
    } else {
      assert scanned[..row] == scanned;
    }
  }

  /** A data row that stops the reading after rows that did not: the rows
      do not fit, and it is the first data row whose error is raised. */
  lemma RowStopsReading(rows: seq<string>, kept: seq<string>, content: string, dataLines: nat,
                        toReal: string -> Option<real>)
    requires kept + [content] <= rows
    requires RowsFit(kept, dataLines, toReal)
    requires RowError(content, |kept|, dataLines, toReal).Some?
    ensures !RowsFit(rows, dataLines, toReal)
    ensures FailsFirstWith(rows, dataLines, toReal, RowError(content, |kept|, dataLines, toReal).value)
  {
    var j := |kept|;
    assert rows[j] == (kept + [content])[j];
    forall i | 0 <= i < j
      ensures RowError(rows[i], i, dataLines, toReal).None?
    {
      assert rows[i] == (kept + [content])[i] == kept[i];
    }
  }

  /** Reading one more line extends the filtered rows by that line unless it
      is a break line. */
  lemma NonBreakStep(s: seq<string>, i: nat)
    requires i < |s|
    ensures NonBreak(s[..i + 1]) == NonBreak(s[..i]) + if IsBreak(s[i]) then [] else [s[i]]
  {
    assert s[..i + 1][..i] == s[..i];
    assert s[..i + 1][i] == s[i];
  }

  /** A row read without stopping lies in the retained part of the data, so
      the rows filtered so far are a prefix of the data rows. */
  lemma RetainedHolds(scanned: seq<string>, row: nat)
    requires row < |scanned|
    requires row + 1 < |scanned| || !Truncated(scanned[row])
    ensures NonBreak(scanned[..row + 1]) <= NonBreak(Retained(scanned))
  {
    var total := |scanned|;
    if Truncated(scanned[total - 1]) {
      var retained := scanned[..total - 1];
      NonBreakPrefix(retained, row + 1, total - 1);
      assert retained[..row + 1] == scanned[..row + 1];
      assert retained[..total - 1] == retained;
    } else {
      NonBreakPrefix(scanned, row + 1, total);
      assert scanned[..total] == scanned;
    }
  }

  /** What a successful TXT extraction holds: the fixed 20-channel layout, an
      array whose rows are the cleaned and converted data rows followed by
      zero rows, the harvested sampling rate, and the duration as the row
      count divided by that rate, rounded down. */
  predicate TxtExtracted(lines: seq<string>, toReal: string -> Option<real>, e: Extracted) {
    && DataLineCount(lines) >= 0
    && e.names == TxtChannelNames
    && e.eegCount == TxtChannels
    && e.ecgCount == 0
    && e.data.width == TxtChannels
    && e.data.rows == Written(DataRows(lines), DataLineCount(lines) as nat, toReal)
    && e.samplingRate == Value(TxtRateDigits(lines))
    && e.examinationTime * e.samplingRate <= DataLineCount(lines)
    && DataLineCount(lines) < (e.examinationTime + 1) * e.samplingRate
  }

  /** Why a TXT extraction fails, in the order Python meets the causes: a
      negative row count for `np.zeros` (line 174), then the first data row
      that cannot be written (lines 197-220), then `int('')` on a rate
      without digits (line 222), then the division by a zero rate (line 223). */
  predicate TxtFailed(lines: seq<string>, toReal: string -> Option<real>, e: Error) {
    if DataLineCount(lines) < 0 then e == NegativeLength
    else if !RowsFit(DataRows(lines), DataLineCount(lines), toReal) then
      FailsFirstWith(DataRows(lines), DataLineCount(lines), toReal, e)
    else if |TxtRateDigits(lines)| == 0 then e == NotANumber
    else e == ZeroSamplingRate
  }

  /** `extractDataTxt` (lines 150-224) on the decoded lines of the file. The
      array gets one row per line after the information lines that is not a
      break line; the duration is that row count divided by the sampling
      rate, rounded down. */
  method ExtractTxt(lines: seq<string>, toReal: string -> Option<real>) returns (r: Result<Extracted>)
    ensures DataLineCount(lines) < 0 ==> r == Err(NegativeLength)
    ensures r.Ok? <==>
              && DataLineCount(lines) >= 0
              && RowsFit(DataRows(lines), DataLineCount(lines), toReal)
              && |TxtRateDigits(lines)| > 0
              && Value(TxtRateDigits(lines)) > 0
    ensures r.Ok? ==>
              && r.value.names == TxtChannelNames
              && r.value.eegCount == TxtChannels
              && r.value.ecgCount == 0
              && r.value.data.WellFormed()
              && |r.value.data.rows| == DataLineCount(lines)
              && TxtExtracted(lines, toReal, r.value)
    ensures r.Err? ==> TxtFailed(lines, toReal, r.error)
  {
    var dataLines := DataLineCount(lines);
    if dataLines < 0 {
      return Err(NegativeLength);
    }
    var digits := TxtRateDigits(lines);
    var rows := ReadRows(lines, dataLines, toReal);
    if rows.Err? {
      return Err(rows.error);
    }
    var rate := ParseNat(digits);
    if rate.Err? {
      return Err(rate.error);
    }
    if rate.value == 0 {
      return Err(ZeroSamplingRate);
    }
    WrittenRows(DataRows(lines), dataLines, toReal);
    FloorDivision(dataLines, rate.value);
    var time: nat := dataLines / rate.value;
    var data := Table(rows.value, TxtChannels);
    return Ok(Extracted(data, time, rate.value, TxtChannelNames, TxtChannels, 0));
  }

  /** `int(a / b)` for a nonnegative `a` and a positive `b`: the quotient rounded down. */
  lemma FloorDivision(a: nat, b: nat)
    requires b > 0
    ensures 0 <= a / b
    ensures (a / b) * b <= a < (a / b + 1) * b
  {
  }

  /** `extractData` (lines 55-60): the reader chosen by the suffix. The ASC
      reader receives the table read after the header; a path with neither
      suffix fails. */
  method ExtractData(path: string, lines: seq<string>, ascData: Table, toReal: string -> Option<real>)
    returns (r: Result<Extracted>)
    ensures FormatOf(path).None? ==> r == Err(UnknownFormat)
    ensures FormatOf(path) == Some(Asc) ==> r == ExtractAsc(lines, ascData)
    ensures FormatOf(path) == Some(Txt) ==>
              (r.Ok? <==>
                 && DataLineCount(lines) >= 0
                 && RowsFit(DataRows(lines), DataLineCount(lines), toReal)
                 && |TxtRateDigits(lines)| > 0
                 && Value(TxtRateDigits(lines)) > 0)
    ensures FormatOf(path) == Some(Txt) && r.Ok? ==>
              && r.value.data.WellFormed()
              && |r.value.data.rows| == DataLineCount(lines)
              && TxtExtracted(lines, toReal, r.value)
    ensures FormatOf(path) == Some(Txt) && r.Err? ==> TxtFailed(lines, toReal, r.error)
  {
    match FormatOf(path)
    case None =>
      return Err(UnknownFormat);
    case Some(Asc) =>
      return ExtractAsc(lines, ascData);
    case Some(Txt) =>
      r := ExtractTxt(lines, toReal);
  }
}

=== FILE: frames.dfy ===
/** The event frames of processing_func.py (`get_tag_frames`).

    Each (start, stop) pair of event times becomes a range of samples
    counted from the begin time of the recording. A frame longer than one
    epoch is cut into overlapping epochs: boundaries every `step` samples,
    each epoch two steps wide, so consecutive epochs share one step.
 */
module Frames {
  import opened Outcome
  import opened Text
  import opened Decimal
  import opened Tags
  import opened Arithmetic

  /** A clock time as `datetime.strptime(..., '%H:%M:%S')` reads it. */
  datatype Time = Time(hour: nat, minute: nat, second: nat)

  predicate ValidTime(t: Time) {
    t.hour < 24 && t.minute < 60 && t.second < 60
  }

  /** One field of the format: one or two digits, at most `max`. */
  function TimeField(f: string, max: nat): (r: Option<nat>)
    ensures r.Some? ==> r.value <= max
  {
    if 1 <= |f| <= 2 && AllDigits(f) && Value(f) <= max then Some(Value(f)) else None
  }

  /** `strptime` with the format '%H:%M:%S': three fields of one or two
      digits separated by colons, nothing before or after, hours up to 23
      and minutes and seconds up to 59. */
  function ParseTime(s: string): (r: Result<Time>)
    ensures r.Ok? ==> ValidTime(r.value)
    ensures r.Err? ==> r.error == BadTime
  {
    match SplitOnce(s, ':')
    case None => Err(BadTime)
    case Some((h, rest)) =>
      match SplitOnce(rest, ':')
      case None => Err(BadTime)
      case Some((m, sec)) =>
        var fh, fm, fs := TimeField(h, 23), TimeField(m, 59), TimeField(sec, 59);
        if fh.Some? && fm.Some? && fs.Some? then Ok(Time(fh.value, fm.value, fs.value)) else Err(BadTime)
  }

  /** A number below 100 written with two digits. */
  function TwoDigits(n: nat): (r: string)
    requires n < 100
    ensures |r| == 2 && AllDigits(r) && ':' !in r
  {
    [DigitChar(n / 10), DigitChar(n % 10)]
  }

  /** A valid time written "HH:MM:SS". */
  function ShowTime(t: Time): string
    requires ValidTime(t)
  {
    TwoDigits(t.hour) + ":" + TwoDigits(t.minute) + ":" + TwoDigits(t.second)
  }

  lemma ValueOfTwoDigits(n: nat)
    requires n < 100
    ensures Value(TwoDigits(n)) == n
  {
    var r := TwoDigits(n);
    assert r[..1][..0] == [];
    assert Value(r[..1]) == DigitValue(r[0]);
    assert Value(r) == 10 * (n / 10) + n % 10;
  }

  /** Every valid time written as "HH:MM:SS" reads back as itself. */
  lemma ParseShowTime(t: Time)
    requires ValidTime(t)
    ensures ParseTime(ShowTime(t)) == Ok(t)
  {
    var h, m, s := TwoDigits(t.hour), TwoDigits(t.minute), TwoDigits(t.second);
    assert ShowTime(t) == h + [':'] + (m + [':'] + s);
    SplitOnceOfJoined(h, ':', m + [':'] + s);
    SplitOnceOfJoined(m, ':', s);
    ValueOfTwoDigits(t.hour);
    ValueOfTwoDigits(t.minute);
    ValueOfTwoDigits(t.second);
  }

  /** Seconds since midnight. */
  function Seconds(t: Time): int {
    t.hour * 3600 + t.minute * 60 + t.second
  }

  /** Lines 116-122: the sample index of a time, counted from the begin time
      field by field. */
  function SampleIndex(begin: Time, t: Time, samplingRate: nat): int {
    ((t.hour - begin.hour) * 60 * 60 + (t.minute - begin.minute) * 60 + t.second - begin.second) * samplingRate
  }

  /** The sample index is the time elapsed since the begin time, in
      seconds, times the sampling rate: the begin time itself is sample 0,
      later times give larger indices, and a time earlier on the clock than
      the begin time (an event after midnight) gives a negative index. */
  lemma SampleIndexIsElapsed(begin: Time, t: Time, u: Time, samplingRate: nat)
    ensures SampleIndex(begin, t, samplingRate) == (Seconds(t) - Seconds(begin)) * samplingRate
    ensures SampleIndex(begin, begin, samplingRate) == 0
    ensures Seconds(t) <= Seconds(u) ==> SampleIndex(begin, t, samplingRate) <= SampleIndex(begin, u, samplingRate)
    ensures Seconds(t) < Seconds(begin) && samplingRate > 0 ==> SampleIndex(begin, t, samplingRate) < 0
  {
    assert (t.hour - begin.hour) * 60 * 60 + (t.minute - begin.minute) * 60 + t.second - begin.second
           == Seconds(t) - Seconds(begin);
    assert (u.hour - begin.hour) * 60 * 60 + (u.minute - begin.minute) * 60 + u.second - begin.second
           == Seconds(u) - Seconds(begin);
    if Seconds(t) <= Seconds(u) {
      MulMonotone(Seconds(t) - Seconds(begin), Seconds(u) - Seconds(begin), samplingRate);
    }
    if Seconds(t) < Seconds(begin) && samplingRate > 0 {
      MulStrict(Seconds(t) - Seconds(begin), 0, samplingRate);
    }
  }

  /** A Python slice bound: a negative bound counts from the end, and the
      result is clamped to the sequence. */
  function Clamp(i: int, n: nat): (r: nat)
    ensures r <= n
  {
    if i < 0 then (if i + n < 0 then 0 else i + n) else if i > n then n else i
  }

  /** Python's `s[lo:hi]` for any integer bounds. */
  function PySlice<T>(s: seq<T>, lo: int, hi: int): seq<T> {
    var a, b := Clamp(lo, |s|), Clamp(hi, |s|);
    if a < b then s[a..b] else []
  }

  /** Within the sequence a slice is the plain subsequence, and a negative
      lower bound reads from the end: `s[-k:hi]` is `s[len(s)-k:hi]`. */
  lemma PySliceBounds<T>(s: seq<T>, lo: int, hi: int)
    ensures 0 <= lo <= hi <= |s| ==> PySlice(s, lo, hi) == s[lo..hi]
    ensures -|s| <= lo < 0 ==> PySlice(s, lo, hi) == PySlice(s, |s| + lo, hi)
    ensures lo < -|s| ==> PySlice(s, lo, hi) == PySlice(s, 0, hi)
    ensures 0 <= hi <= lo || hi <= lo < 0 ==> PySlice(s, lo, hi) == []
  {
  }

  /** A channels-by-samples array, every channel `length` samples long. */
  datatype Signals = Signals(channels: seq<seq<real>>, length: nat) {
    predicate WellFormed() {
      forall c :: 0 <= c < |channels| ==> |channels[c]| == length
    }
  }

  /** The number of samples `signals[:, lo:hi]` keeps. */
  function SliceLength(n: nat, lo: int, hi: int): nat {
    if Clamp(lo, n) < Clamp(hi, n) then Clamp(hi, n) - Clamp(lo, n) else 0
  }

  /** `signals[:, lo:hi]`: the same slice of every channel. */
  function SliceSignals(x: Signals, lo: int, hi: int): (r: Signals)
    requires x.WellFormed()
    ensures r.WellFormed() && |r.channels| == |x.channels|
  {
    Signals(seq(|x.channels|, c requires 0 <= c < |x.channels| => PySlice(x.channels[c], lo, hi)),
            SliceLength(x.length, lo, hi))
  }

  /** Line 133: the epoch step `round(overlap) * sampling_rate`, for the
      already rounded overlap. */
  function EpochStep(overlap: int, samplingRate: nat): int {
    overlap * samplingRate
  }

  /** Line 133: `np.arange(0, n + 1, step)`, the multiples of a positive step
      up to `n`; a negative step gives no value. */
  function Stamps(n: nat, step: int): (t: seq<nat>)
    requires step != 0
  {
    if step < 0 then [] else seq(n / step + 1, j requires 0 <= j < n / step + 1 => j * step)
  }

  /** The stamps are exactly the multiples of the step that do not pass `n`:
      each is `j * step` and at most `n`, and the next one would pass it. */
  lemma StampsAreMultiples(n: nat, step: int)
    requires step > 0
    ensures var t := Stamps(n, step);
            && |t| > 0
            && (forall j :: 0 <= j < |t| ==> t[j] == j * step && t[j] <= n)
            && |t| * step > n
  {
    var t := Stamps(n, step);
    var q := n / step;
    QuotientBounds(n, step);
    assert |t| == q + 1;
    forall j | 0 <= j < |t|
      ensures t[j] <= n
    {
      MulMonotone(j, q, step);
    }
  }

  /** The quotient `n / step` is the largest multiplier whose multiple of the
      step does not pass `n`. */
  lemma QuotientBounds(n: nat, step: int)
    requires step > 0
    ensures (n / step) * step <= n < (n / step + 1) * step
  {
    var q, r := n / step, n % step;
    assert n == q * step + r && 0 <= r < step;
    assert (q + 1) * step == q * step + step;
  }

  /** Two stamps apart is two steps apart, still inside the frame. */
  lemma StampGaps(n: nat, step: int)
    requires step != 0
    ensures var t := Stamps(n, step);
            forall j :: 2 <= j < |t| ==> t[j] == t[j - 2] + 2 * step && t[j] <= n
  {
    if step > 0 {
      var t := Stamps(n, step);
      StampsAreMultiples(n, step);
      forall j | 2 <= j < |t|
        ensures t[j] == t[j - 2] + 2 * step
      {
        assert j * step == (j - 2) * step + 2 * step;
      }
    }
  }

  /** Lines 134-143: epoch `j` runs from stamp `j` to stamp `j + 2`; every
      epoch keeps all the channels, and with a positive step each is two
      steps long. */
  function Epochs(frame: Signals, step: int): (es: seq<Signals>)
    requires frame.WellFormed() && step != 0
    ensures forall j :: 0 <= j < |es| ==> es[j].WellFormed() && |es[j].channels| == |frame.channels|
    ensures step > 0 ==> forall j :: 0 <= j < |es| ==> es[j].length == 2 * step
  {
    var t := Stamps(frame.length, step);
    StampGaps(frame.length, step);
    if |t| < 2 then []
    else seq(|t| - 2, j requires 0 <= j < |t| - 2 => SliceSignals(frame, t[j], t[j + 2]))
  }

  /** Epoch `j` of a positive step spans samples `j * step` up to
      `j * step + 2 * step`, inside the frame. */
  lemma EpochAt(frame: Signals, step: int, j: nat)
    requires frame.WellFormed() && step > 0 && j < |Epochs(frame, step)|
    ensures var e := Epochs(frame, step)[j];
            && e.WellFormed()
            && |e.channels| == |frame.channels|
            && e.length == 2 * step
            && forall c :: 0 <= c < |frame.channels| ==>
                 e.channels[c] == frame.channels[c][j * step .. j * step + 2 * step]
  {
    var t := Stamps(frame.length, step);
    StampsAreMultiples(frame.length, step);
    var lo, hi := t[j], t[j + 2];
    assert hi == lo + 2 * step by {
      assert t[j + 2] == (j + 2) * step;
      assert (j + 2) * step == j * step + 2 * step;
    }
    var e := Epochs(frame, step)[j];
    assert e == SliceSignals(frame, lo, hi);
    forall c | 0 <= c < |frame.channels|
      ensures e.channels[c] == frame.channels[c][lo .. hi]
    {
      PySliceBounds(frame.channels[c], lo, hi);
    }
  }

  /** With a positive step there is one epoch per stamp but the last two, and
      a negative step gives none. */
  lemma EpochCount(frame: Signals, step: int)
    requires frame.WellFormed() && step != 0
    ensures step < 0 ==> Epochs(frame, step) == []
    ensures step > 0 ==>
              |Epochs(frame, step)| == (if frame.length / step >= 1 then frame.length / step - 1 else 0)
  {
  }

  /** Every epoch of a frame has the frame's channels, two steps long each. */
  lemma EpochsUniform(frame: Signals, step: int)
    requires frame.WellFormed() && step != 0
    ensures forall e :: e in Epochs(frame, step) ==>
              e.WellFormed() && |e.channels| == |frame.channels| && e.length == 2 * step
  {
    var es := Epochs(frame, step);
    forall e | e in es
      ensures e.WellFormed() && |e.channels| == |frame.channels| && e.length == 2 * step
    {
      var j :| 0 <= j < |es| && es[j] == e;
      EpochAt(frame, step, j);
    }
  }

  /** One channel of epoch `j`: samples `j * step` up to `j * step + 2 * step`. */
  lemma EpochChannel(frame: Signals, step: int, j: nat, c: nat)
    requires frame.WellFormed() && step > 0
    requires j < |Epochs(frame, step)| && c < |frame.channels|
    ensures j * step + 2 * step <= frame.length
    ensures Epochs(frame, step)[j].channels[c] == frame.channels[c][j * step .. j * step + 2 * step]
  {
    EpochAt(frame, step, j);
  }

  /** Two windows of width `2 * step` that start `step` apart share a half. */
  lemma SlidingHalves<T>(ch: seq<T>, a: nat, step: nat)
    requires a + 3 * step <= |ch|
    ensures ch[a .. a + 2 * step][step..] == ch[a + step .. a + 3 * step][..step]
  {
  }

  /** Consecutive epochs overlap by one step: the second half of an epoch is
      the first half of the next. */
  lemma EpochsOverlap(frame: Signals, step: int, j: nat, c: nat)
    requires frame.WellFormed() && step > 0
    requires j + 1 < |Epochs(frame, step)| && c < |frame.channels|
    ensures Epochs(frame, step)[j].channels[c][step..] == Epochs(frame, step)[j + 1].channels[c][..step]
  {
    var ch := frame.channels[c];
    var a, b := j * step, (j + 1) * step;
    assert b == a + step;
    EpochChannel(frame, step, j, c);
    EpochChannel(frame, step, j + 1, c);
    SlidingHalves(ch, a, step);
  }

  /** Lines 114-148 for one (start, stop) pair: the frame between the two
      sample indices, cut into epochs when it is longer than one epoch and
      skipped otherwise; `np.arange` raises on a step of 0. */
  function FrameEpochs(signals: Signals, samplingRate: nat, epochSize: nat, overlap: int,
                       begin: Time, startText: string, stopText: string): (r: Result<seq<Signals>>)
    requires signals.WellFormed()
    ensures r.Err? ==> r.error == BadTime || r.error == ZeroStep
    ensures r.Ok? ==> forall e :: e in r.value ==>
              e.WellFormed() && |e.channels| == |signals.channels| && e.length == 2 * EpochStep(overlap, samplingRate)
  {
    var ts :- ParseTime(startText);
    var te :- ParseTime(stopText);
    var frame := SliceSignals(signals, SampleIndex(begin, ts, samplingRate), SampleIndex(begin, te, samplingRate));
    if frame.length > epochSize * samplingRate then
      var step := EpochStep(overlap, samplingRate);
      if step == 0 then Err(ZeroStep)
      else
        EpochsUniform(frame, step);
        Ok(Epochs(frame, step))
    else Ok([])
  }

  /** A frame no longer than one epoch contributes nothing, whatever the
      step; a longer one raises exactly when the step is 0. */
  lemma ShortFramesSkipped(signals: Signals, samplingRate: nat, epochSize: nat, overlap: int,
                           begin: Time, startText: string, stopText: string)
    requires signals.WellFormed()
    requires ParseTime(startText).Ok? && ParseTime(stopText).Ok?
    ensures var lo := SampleIndex(begin, ParseTime(startText).value, samplingRate);
            var hi := SampleIndex(begin, ParseTime(stopText).value, samplingRate);
            var r := FrameEpochs(signals, samplingRate, epochSize, overlap, begin, startText, stopText);
            && (SliceLength(signals.length, lo, hi) <= epochSize * samplingRate ==> r == Ok([]))
            && (SliceLength(signals.length, lo, hi) > epochSize * samplingRate ==>
                  (r.Err? <==> EpochStep(overlap, samplingRate) == 0))
  {
  }

  /** Inside the recording, a pair's frame is exactly the samples between its
      two indices on every channel, and a frame longer than one epoch is cut
      into the epochs of that window. */
  lemma FrameIsTagWindow(signals: Signals, samplingRate: nat, epochSize: nat, overlap: int,
                         begin: Time, startText: string, stopText: string)
    requires signals.WellFormed()
    requires ParseTime(startText).Ok? && ParseTime(stopText).Ok?
    ensures var lo := SampleIndex(begin, ParseTime(startText).value, samplingRate);
            var hi := SampleIndex(begin, ParseTime(stopText).value, samplingRate);
            var frame := SliceSignals(signals, lo, hi);
            && (0 <= lo <= hi <= signals.length ==>
                  && frame.length == hi - lo
                  && forall c :: 0 <= c < |signals.channels| ==> frame.channels[c] == signals.channels[c][lo..hi])
            && (frame.length > epochSize * samplingRate && EpochStep(overlap, samplingRate) > 0 ==>
                  FrameEpochs(signals, samplingRate, epochSize, overlap, begin, startText, stopText)
                    == Ok(Epochs(frame, EpochStep(overlap, samplingRate))))
  {
    var lo := SampleIndex(begin, ParseTime(startText).value, samplingRate);
    var hi := SampleIndex(begin, ParseTime(stopText).value, samplingRate);
    forall c | 0 <= c < |signals.channels|
      ensures 0 <= lo <= hi <= signals.length ==>
                SliceSignals(signals, lo, hi).channels[c] == signals.channels[c][lo..hi]
    {
      PySliceBounds(signals.channels[c], lo, hi);
    }
  }

  /** The frames of the first `k` pairs, in order, stopping at the first error. */
  function CollectFrames(signals: Signals, samplingRate: nat, epochSize: nat, overlap: int,
                         begin: Time, starts: seq<string>, stops: seq<string>, k: nat): (r: Result<seq<Signals>>)
    requires signals.WellFormed() && k <= |starts| && k <= |stops|
    ensures r.Err? ==> r.error == BadTime || r.error == ZeroStep
    ensures r.Ok? ==> forall e :: e in r.value ==>
              e.WellFormed() && |e.channels| == |signals.channels| && e.length == 2 * EpochStep(overlap, samplingRate)
    decreases k
  {
    if k == 0 then Ok([])
    else
      var prev :- CollectFrames(signals, samplingRate, epochSize, overlap, begin, starts, stops, k - 1);
      var es :- FrameEpochs(signals, samplingRate, epochSize, overlap, begin, starts[k - 1], stops[k - 1]);
      Ok(prev + es)
  }

  /** `get_tag_frames` (lines 99-153): the begin time is read first (an
      empty begin list raises), then the (start, stop) pairs as `zip` forms
      them, so a start without a stop is never read. The result holds every
      epoch of every frame, in order. */
  function TagFrames(signals: Signals, samplingRate: nat, epochSize: nat, overlap: int,
                     tags: TagTimes): (r: Result<seq<Signals>>)
    requires signals.WellFormed()
    ensures r.Err? ==> r.error in {MissingBegin, BadTime, ZeroStep}
    ensures |tags.begin| == 0 <==> r == Err(MissingBegin)
    ensures r.Ok? ==> forall e :: e in r.value ==>
              e.WellFormed() && |e.channels| == |signals.channels| && e.length == 2 * EpochStep(overlap, samplingRate)
  {
    if |tags.begin| == 0 then Err(MissingBegin)
    else
      var begin :- ParseTime(tags.begin[0]);
      var pairs := if |tags.start| <= |tags.stop| then |tags.start| else |tags.stop|;
      CollectFrames(signals, samplingRate, epochSize, overlap, begin, tags.start, tags.stop, pairs)
  }

  /** Only the pairs matter: a start time left open at the end of the event
      list (the last line named the tag) changes nothing. */
  lemma OpenStartIgnored(signals: Signals, samplingRate: nat, epochSize: nat, overlap: int,
                         begin: seq<string>, starts: seq<string>, stops: seq<string>, open: string)
    requires signals.WellFormed() && |starts| == |stops|
    ensures TagFrames(signals, samplingRate, epochSize, overlap, TagTimes(begin, starts + [open], stops))
            == TagFrames(signals, samplingRate, epochSize, overlap, TagTimes(begin, starts, stops))
  {
    if |begin| > 0 && ParseTime(begin[0]).Ok? {
      var b := ParseTime(begin[0]).value;
      CollectPrefix(signals, samplingRate, epochSize, overlap, b, starts, stops, starts + [open], stops, |starts|);
    }
  }

  /** Collecting the first `k` pairs reads nothing past them. */
  lemma {:induction false} CollectPrefix(signals: Signals, samplingRate: nat, epochSize: nat, overlap: int,
                                         begin: Time, s1: seq<string>, p1: seq<string>,
                                         s2: seq<string>, p2: seq<string>, k: nat)
    requires signals.WellFormed()
    requires k <= |s1| && k <= |p1| && k <= |s2| && k <= |p2|
    requires s1[..k] == s2[..k] && p1[..k] == p2[..k]
    ensures CollectFrames(signals, samplingRate, epochSize, overlap, begin, s1, p1, k)
            == CollectFrames(signals, samplingRate, epochSize, overlap, begin, s2, p2, k)
    decreases k
  {
    if k > 0 {
      assert s1[..k - 1] == s1[..k][..k - 1] && s2[..k - 1] == s2[..k][..k - 1];
      assert p1[..k - 1] == p1[..k][..k - 1] && p2[..k - 1] == p2[..k][..k - 1];
      assert s1[k - 1] == s1[..k][k - 1] && s2[k - 1] == s2[..k][k - 1];
      assert p1[k - 1] == p1[..k][k - 1] && p2[k - 1] == p2[..k][k - 1];
      CollectPrefix(signals, samplingRate, epochSize, overlap, begin, s1, p1, s2, p2, k - 1);
    }
  }
}

=== FILE: intervals.dfy ===
/** fileCreating.py: the blocks flagged as artifacts become intervals of
    sample positions, `[i * step, i * step + step)` for every flagged block `i`
    with `step = 4 * samplingRate`, and the intervals are written as a
    tab-separated table with a `Start`/`End` header.

    Rows are never merged: two flagged neighbours give two rows that touch.
 */
module FileCreating {
  import opened Outcome
  import opened Text
  import opened Decimal
  import opened Blocks
  import opened Arithmetic

  /** One row of the result array: start and end position, in samples. */
  datatype Interval = Interval(start: nat, end: nat)

  /** `isArtifactList.count(True)`. */
  function CountTrue(flags: seq<bool>): (n: nat)
    ensures n == multiset(flags)[true]
    ensures n <= |flags|
    decreases |flags|
  {
    if |flags| == 0 then 0
    else
      var pre := flags[..|flags| - 1];
      assert flags == pre + [flags[|flags| - 1]];
      CountTrue(pre) + if flags[|flags| - 1] then 1 else 0
  }

  /** Line 49: the positions of the flagged blocks, in increasing order, each
      exactly once. */
  function TrueIndices(flags: seq<bool>): (r: seq<nat>)
    ensures |r| == CountTrue(flags)
    ensures forall k :: 0 <= k < |r| ==> r[k] < |flags| && flags[r[k]]
    ensures forall k, j :: 0 <= k < j < |r| ==> r[k] < r[j]
    decreases |flags|
  {
    if |flags| == 0 then []
    else
      var last := |flags| - 1;
      var pre := flags[..last];
      var r := TrueIndices(pre);
      assert CountTrue(flags) == |r| + if flags[last] then 1 else 0;
      assert forall k :: 0 <= k < |r| ==> r[k] < last && flags[r[k]];
      if flags[last] then r + [last] else r
  }

  /** Every flagged block is listed: its position in the index list. */
  lemma {:induction false} TrueIndexOf(flags: seq<bool>, i: nat) returns (k: nat)
    requires i < |flags| && flags[i]
    ensures k < |TrueIndices(flags)| && TrueIndices(flags)[k] == i
    decreases |flags|
  {
    var last := |flags| - 1;
    var pre := flags[..last];
    if i == last {
      k := |TrueIndices(pre)|;
    } else {
      k := TrueIndexOf(pre, i);
    }
  }

  /** Lines 57-61: the interval of block `i`. */
  function BlockInterval(i: nat, samplingRate: nat): (iv: Interval)
    ensures iv.end - iv.start == Step(samplingRate)
  {
    Interval(i * Step(samplingRate), i * Step(samplingRate) + Step(samplingRate))
  }

  /** `markArtifacts`: one interval per flagged block, in block order. These
      are the values the function returns whenever every one of them fits the
      integer array; `FillArray` models the stores that may not fit. */
  function MarkArtifacts(flags: seq<bool>, samplingRate: nat): (rows: seq<Interval>)
    ensures |rows| == CountTrue(flags)
    ensures forall k :: 0 <= k < |rows| ==> rows[k].end - rows[k].start == Step(samplingRate)
  {
    var idx := TrueIndices(flags);
    seq(|idx|, k requires 0 <= k < |idx| => BlockInterval(idx[k], samplingRate))
  }

  /** The array of line 46 holds 64-bit integers: storing 2^63 or more raises. */
  const Int64Limit: nat := 0x8000_0000_0000_0000

  /** Some flagged block ends at or past the 64-bit limit, so its end
      position cannot be stored. */
  predicate Overflows(flags: seq<bool>, samplingRate: nat) {
    exists i :: 0 <= i < |flags| && flags[i] && BlockInterval(i, samplingRate).end >= Int64Limit
  }

  /** The loop of lines 52-63 as written: an array of `count(True)` zero rows
      filled in order, the row index advancing after every write. The guard
      on line 62 always holds, so the loop computes the interval list, unless
      a position does not fit the integer array and the store raises. */
  method FillArray(flags: seq<bool>, samplingRate: nat) returns (r: Result<seq<Interval>>)
    ensures r.Err? <==> Overflows(flags, samplingRate)
    ensures r.Err? ==> r.error == IntegerOverflow
    ensures r.Ok? ==> r.value == MarkArtifacts(flags, samplingRate)
  {
    var arrayLength := CountTrue(flags);
    var filled := seq(arrayLength, _ => Interval(0, 0));
    var indexes := TrueIndices(flags);
    var arrayInd := 0;
    var step := Step(samplingRate);
    ghost var rows := MarkArtifacts(flags, samplingRate);
    for j := 0 to |indexes|
      invariant arrayInd == j
      invariant |filled| == arrayLength
      invariant forall k :: 0 <= k < j ==> filled[k] == rows[k] && rows[k].end < Int64Limit
    {
      var startPosition := indexes[j] * step;
      var endPosition := startPosition + step;
      if startPosition >= Int64Limit || endPosition >= Int64Limit {
        assert BlockInterval(indexes[j], samplingRate).end >= Int64Limit;
        return Err(IntegerOverflow);
      }
      filled := filled[arrayInd := Interval(startPosition, endPosition)];
      if arrayInd < arrayLength {
        arrayInd := arrayInd + 1;
      }
    }
    forall i | 0 <= i < |flags| && flags[i]
      ensures BlockInterval(i, samplingRate).end < Int64Limit
    {
      var k := TrueIndexOf(flags, i);
      assert rows[k] == BlockInterval(i, samplingRate);
    }
    return Ok(filled);
  }

  /** For a positive step, equal starts mean equal block indices. */
  lemma MulCancel(a: nat, b: nat, step: nat)
    requires step > 0 && a * step == b * step
    ensures a == b
  {
    if a < b {
      MulGap(a, b, step);
    } else if b < a {
      MulGap(b, a, step);
    }
  }

  /** Every row is the interval of a flagged block. */
  lemma RowsAreFlaggedBlocks(flags: seq<bool>, samplingRate: nat)
    ensures var rows := MarkArtifacts(flags, samplingRate);
            forall k :: 0 <= k < |rows| ==>
              exists i :: 0 <= i < |flags| && flags[i] && rows[k] == BlockInterval(i, samplingRate)
  {
    var rows := MarkArtifacts(flags, samplingRate);
    var idx := TrueIndices(flags);
    forall k | 0 <= k < |rows|
      ensures exists i :: 0 <= i < |flags| && flags[i] && rows[k] == BlockInterval(i, samplingRate)
    {
      assert rows[k] == BlockInterval(idx[k], samplingRate);
    }
  }

  /** Every flagged block has its interval among the rows. */
  lemma FlaggedBlocksHaveRows(flags: seq<bool>, samplingRate: nat)
    ensures var rows := MarkArtifacts(flags, samplingRate);
            forall i :: 0 <= i < |flags| && flags[i] ==>
              exists k :: 0 <= k < |rows| && rows[k] == BlockInterval(i, samplingRate)
  {
    var rows := MarkArtifacts(flags, samplingRate);
    forall i | 0 <= i < |flags| && flags[i]
      ensures exists k :: 0 <= k < |rows| && rows[k] == BlockInterval(i, samplingRate)
    {
      var k := TrueIndexOf(flags, i);
      assert rows[k] == BlockInterval(i, samplingRate);
    }
  }

  /** For a positive sampling rate a row starting at `i * step` is the
      interval of block `i`, and block `i` is flagged. With a sampling rate of
      0 every row is (0, 0) and says nothing about which block it came from. */
  lemma RowStartNamesBlock(flags: seq<bool>, samplingRate: nat)
    requires samplingRate > 0
    ensures var rows := MarkArtifacts(flags, samplingRate);
            forall i, k :: 0 <= i < |flags| && 0 <= k < |rows| && rows[k].start == i * Step(samplingRate) ==>
              flags[i] && rows[k] == BlockInterval(i, samplingRate)
  {
    var rows := MarkArtifacts(flags, samplingRate);
    var idx := TrueIndices(flags);
    forall i, k | 0 <= i < |flags| && 0 <= k < |rows| && rows[k].start == i * Step(samplingRate)
      ensures flags[i] && rows[k] == BlockInterval(i, samplingRate)
    {
      assert rows[k] == BlockInterval(idx[k], samplingRate);
      MulCancel(idx[k], i, Step(samplingRate));
    }
  }

  /** For a positive sampling rate, block `i` is flagged exactly when its
      interval is one of the rows. */
  lemma FlaggedIffHasRow(flags: seq<bool>, samplingRate: nat)
    requires samplingRate > 0
    ensures var rows := MarkArtifacts(flags, samplingRate);
            forall i :: 0 <= i < |flags| ==>
              (flags[i] <==> exists k :: 0 <= k < |rows| && rows[k] == BlockInterval(i, samplingRate))
  {
    var rows := MarkArtifacts(flags, samplingRate);
    FlaggedBlocksHaveRows(flags, samplingRate);
    forall i, k | 0 <= i < |flags| && 0 <= k < |rows| && rows[k] == BlockInterval(i, samplingRate)
      ensures flags[i]
    {
      RowStartNamesBlock(flags, samplingRate);
      assert rows[k].start == i * Step(samplingRate);
    }
  }

  /** For a positive sampling rate the rows are in increasing order and never
      overlap: each ends at or before the start of the next. */
  lemma MarkedRowsOrdered(flags: seq<bool>, samplingRate: nat)
    requires samplingRate > 0
    ensures var rows := MarkArtifacts(flags, samplingRate);
            forall k, j :: 0 <= k < j < |rows| ==> rows[k].start < rows[j].start && rows[k].end <= rows[j].start
  {
    var rows := MarkArtifacts(flags, samplingRate);
    var idx := TrueIndices(flags);
    var step := Step(samplingRate);
    forall k, j | 0 <= k < j < |rows|
      ensures rows[k].start < rows[j].start && rows[k].end <= rows[j].start
    {
      assert rows[k] == BlockInterval(idx[k], samplingRate);
      assert rows[j] == BlockInterval(idx[j], samplingRate);
      MulGap(idx[k], idx[j], step);
    }
  }

  /** Two neighbouring flagged blocks are consecutive in the index list. */
  lemma ConsecutiveIndices(flags: seq<bool>, i: nat) returns (k: nat)
    requires i + 1 < |flags| && flags[i] && flags[i + 1]
    ensures k + 1 < |TrueIndices(flags)|
    ensures TrueIndices(flags)[k] == i && TrueIndices(flags)[k + 1] == i + 1
  {
    var idx := TrueIndices(flags);
    k := TrueIndexOf(flags, i);
    var j := TrueIndexOf(flags, i + 1);
  }

  /** Two neighbouring flagged blocks give two consecutive rows that touch:
      the first ends where the second starts, and they are not merged. */
  lemma AdjacentRowsAbut(flags: seq<bool>, samplingRate: nat, i: nat)
    requires i + 1 < |flags| && flags[i] && flags[i + 1]
    ensures var rows := MarkArtifacts(flags, samplingRate);
            exists k :: 0 <= k && k + 1 < |rows| &&
              rows[k] == BlockInterval(i, samplingRate) &&
              rows[k + 1] == BlockInterval(i + 1, samplingRate) &&
              rows[k].end == rows[k + 1].start
  {
    var rows := MarkArtifacts(flags, samplingRate);
    var k := ConsecutiveIndices(flags, i);
    assert rows[k] == BlockInterval(i, samplingRate);
    assert rows[k + 1] == BlockInterval(i + 1, samplingRate);
    NextBlockStarts(i, samplingRate);
  }

  lemma NextBlockStarts(i: nat, samplingRate: nat)
    ensures BlockInterval(i, samplingRate).end == BlockInterval(i + 1, samplingRate).start
  {
    assert (i + 1) * Step(samplingRate) == i * Step(samplingRate) + Step(samplingRate);
  }

  /** With no flagged block there are no rows. */
  lemma NothingFlaggedNoRows(flags: seq<bool>, samplingRate: nat)
    requires forall i :: 0 <= i < |flags| ==> !flags[i]
    ensures MarkArtifacts(flags, samplingRate) == []
  {
    assert true !in multiset(flags);
  }

  /** Blocks 0, 1 and 3 flagged at 512 Hz: steps of 2048 samples, the first
      two rows touching and block 2 skipped. */
  lemma MarkArtifactsExample()
    ensures MarkArtifacts([true, true, false, true], 512) ==
              [Interval(0, 2048), Interval(2048, 4096), Interval(6144, 8192)]
  {
    var flags := [true, true, false, true];
    assert flags[..3] == [true, true, false];
    assert flags[..3][..2] == [true, true];
    assert flags[..3][..2][..1] == [true];
    assert [true][..0] == [];
    assert TrueIndices([true]) == [0];
    assert TrueIndices([true, true]) == [0, 1];
    assert TrueIndices([true, true, false]) == [0, 1];
    assert TrueIndices(flags) == [0, 1, 3];
  }

  /** A single flagged block at 2^61 Hz ends at sample 2^63, which the
      integer array cannot hold; at 2^61 - 1 Hz it still fits. */
  lemma OverflowExample()
    ensures Overflows([true], 0x2000_0000_0000_0000)
    ensures !Overflows([true], 0x1FFF_FFFF_FFFF_FFFF)
  {
    assert BlockInterval(0, 0x2000_0000_0000_0000).end == Int64Limit;
    forall i | 0 <= i < 1 && [true][i]
      ensures BlockInterval(i, 0x1FFF_FFFF_FFFF_FFFF).end < Int64Limit
    {
      assert i == 0;
    }
  }

  // ---------------------------------------------------------------------------
  // The text of result.txt

  const Header: string := "Start\tEnd\n"

  /** Lines 23-24: one row of the file. */
  function RowText(iv: Interval): string {
    Show(iv.start) + "\t" + Show(iv.end) + "\n"
  }

  function RowsText(rows: seq<Interval>): string
    decreases |rows|
  {
    if |rows| == 0 then "" else RowText(rows[0]) + RowsText(rows[1..])
  }

  /** Lines 20-24: the header, then the rows in order. */
  function Render(rows: seq<Interval>): (text: string)
    ensures StartsWith(text, Header)
  {
    Header + RowsText(rows)
  }

  /** Reads back a sequence of `start<TAB>end<NEWLINE>` rows of decimal digits. */
  function ParseRows(s: string): (r: Option<seq<Interval>>)
    decreases |s|
  {
    if |s| == 0 then Some([])
    else
      match SplitOnce(s, '\t')
      case None => None
      case Some((a, afterTab)) =>
        match SplitOnce(afterTab, '\n')
        case None => None
        case Some((b, rest)) =>
          if |a| == 0 || |b| == 0 || !AllDigits(a) || !AllDigits(b) then None
          else
            match ParseRows(rest)
            case None => None
            case Some(tail) => Some([Interval(Value(a), Value(b))] + tail)
  }

  /** Reads back a whole file: the header, then the rows. */
  function ParseTable(text: string): Option<seq<Interval>> {
    if StartsWith(text, Header) then ParseRows(text[|Header|..]) else None
  }

  lemma NoSeparatorInNumber(n: nat)
    ensures '\t' !in Show(n) && '\n' !in Show(n)
  {
    var s := Show(n);
    assert forall i :: 0 <= i < |s| ==> s[i] != '\t' && s[i] != '\n';
  }

  lemma {:induction false} ParseRowsText(rows: seq<Interval>)
    ensures ParseRows(RowsText(rows)) == Some(rows)
    decreases |rows|
  {
    if |rows| > 0 {
      var iv := rows[0];
      var a, b, rest := Show(iv.start), Show(iv.end), RowsText(rows[1..]);
      var s := RowsText(rows);
      NoSeparatorInNumber(iv.start);
      NoSeparatorInNumber(iv.end);
      assert s == a + ['\t'] + (b + ['\n'] + rest);
      SplitOnceOfJoined(a, '\t', b + ['\n'] + rest);
      SplitOnceOfJoined(b, '\n', rest);
      ValueOfShow(iv.start);
      ValueOfShow(iv.end);
      ParseRowsText(rows[1..]);
      assert [Interval(Value(a), Value(b))] + rows[1..] == rows;
    }
  }

  /** The file text determines the rows: reading it back gives them again. */
  lemma ParseRender(rows: seq<Interval>)
    ensures ParseTable(Render(rows)) == Some(rows)
  {
    assert Render(rows)[|Header|..] == RowsText(rows);
    ParseRowsText(rows);
  }

  /** `createFile`: when `result.txt` already exists nothing is written;
      otherwise the text written is the header and one line per row, from
      which the rows can be read back. */
  function CreateFile(targetExists: bool, rows: seq<Interval>): (written: Option<string>)
    ensures written.None? <==> targetExists
    ensures written.Some? ==> StartsWith(written.value, Header) && ParseTable(written.value) == Some(rows)
  {
    if targetExists then None
    else
      ParseRender(rows);
      Some(Render(rows))
  }
}

=== FILE: outcome.dfy ===
/** Failure-compatible result types shared by every part of the model.

    The original program signals its failures by raising Python exceptions
    (an empty slice passed to `min`, `statistics.stdev` on one value, an
    unbound local for an unknown channel layout, ...). The model returns one
    of the named conditions below instead.
 */
module Outcome {

  /** The conditions under which the original program stops with an exception. */
  datatype Error =
    | EmptyBlock         // `min`/`max`/`fft` applied to an empty slice of a channel
    | ShortBlock         // `pearsonr` applied to fewer than two samples
    | InsufficientData   // `statistics.median`/`statistics.stdev` without enough values
    | DegenerateRatio    // nonzero numerator divided by a zero denominator
    | UnsupportedLayout  // a channel count other than 0, 19 or 20
    | MissingField       // a line split into fewer tokens than the code indexes
    | NotANumber         // `int("")` on a header value without any digit, or a TXT reading numpy cannot convert
    | ZeroSamplingRate   // an integer division by a sampling rate of 0
    | NegativeLength     // `np.zeros` with a negative number of rows
    | ShortRow           // a TXT data row with too few tokens to pop or index
    | ZeroStep           // `np.arange` with a step of 0
    | RowOutOfRange      // a TXT data row written past the last row of the array
    | UnknownFormat      // a path ending neither in "asc" nor in "txt": no reader runs
    | MissingBegin       // the begin time of an event list that has none
    | BadTime            // `datetime.strptime` on a text that is not hours:minutes:seconds
    | IntegerOverflow    // a value of 2^63 or more stored into an `np.zeros(..., dtype=int)` array

  datatype Result<+T> = Ok(value: T) | Err(error: Error) {

    predicate IsFailure() {
      Err?
    }

    function PropagateFailure<U>(): Result<U>
      requires Err?
    {
      Err(error)
    }

    function Extract(): T
      requires Ok?
    {
      value
    }
  }

  datatype Option<+T> = None | Some(value: T)

  /** Evaluates results in order and stops at the first failure, as a Python
      loop stops at the first exception; otherwise all the values, in order. */
  function AllOk<T>(rs: seq<Result<T>>): (r: Result<seq<T>>)
    ensures r.Ok? <==> forall i :: 0 <= i < |rs| ==> rs[i].Ok?
    ensures r.Ok? ==> |r.value| == |rs| && forall i :: 0 <= i < |rs| ==> r.value[i] == rs[i].value
    ensures r.Err? ==> exists i :: 0 <= i < |rs| && rs[i] == Err(r.error) &&
                                   forall j :: 0 <= j < i ==> rs[j].Ok?
    decreases |rs|
  {
    if |rs| == 0 then Ok([])
    else if rs[0].Err? then Err(rs[0].error)
    else
      match AllOk(rs[1..])
      case Err(e) =>
        assert forall i :: 1 <= i < |rs| ==> rs[i] == rs[1..][i - 1];
        Err(e)
      case Ok(vs) =>
        assert forall i :: 1 <= i < |rs| ==> rs[i] == rs[1..][i - 1];
        Ok([rs[0].value] + vs)
  }
}

=== FILE: sorting.dfy ===
/** Sorting of real sequences, the first step of Python's `statistics.median`
    (which calls `sorted(data)`). Insertion sort stands in for Python's
    sort: any two sorts of the same data give the same sequence.
 */
module Sorting {

  predicate Sorted(s: seq<real>) {
    forall i, j :: 0 <= i < j < |s| ==> s[i] <= s[j]
  }

  /** Every element of `t` also occurs in `s` when they hold the same multiset. */
  lemma SameElements(s: seq<real>, t: seq<real>)
    requires multiset(s) == multiset(t)
    ensures forall i :: 0 <= i < |t| ==> t[i] in s
  {
    forall i | 0 <= i < |t|
      ensures t[i] in s
    {
      assert t[i] in multiset(t);
    }
  }

  function Insert(x: real, s: seq<real>): (r: seq<real>)
    requires Sorted(s)
    ensures Sorted(r)
    ensures multiset(r) == multiset(s) + multiset{x}
    decreases |s|
  {
    if |s| == 0 then [x]
    else if x <= s[0] then [x] + s
    else
      var rest := Insert(x, s[1..]);
      assert s == [s[0]] + s[1..];
      LowerBoundKept(s[0], s[1..] + [x], rest);
      SortedCons(s[0], rest);
      [s[0]] + rest
  }

  /** A bound below every element of `s` is below every element of a permutation of `s`. */
  lemma LowerBoundKept(b: real, s: seq<real>, t: seq<real>)
    requires forall i :: 0 <= i < |s| ==> b <= s[i]
    requires multiset(t) == multiset(s)
    ensures forall i :: 0 <= i < |t| ==> b <= t[i]
  {
    SameElements(s, t);
  }

  lemma SortedCons(h: real, t: seq<real>)
    requires Sorted(t)
    requires forall i :: 0 <= i < |t| ==> h <= t[i]
    ensures Sorted([h] + t)
  {
  }

  function Sort(s: seq<real>): (r: seq<real>)
    ensures Sorted(r)
    ensures multiset(r) == multiset(s)
    decreases |s|
  {
    if |s| == 0 then []
    else
      assert s == [s[0]] + s[1..];
      Insert(s[0], Sort(s[1..]))
  }

  /** Sorting an already sorted sequence leaves it unchanged. */
  lemma {:induction false} SortOfSorted(s: seq<real>)
    requires Sorted(s)
    ensures Sort(s) == s
    decreases |s|
  {
    if |s| > 0 {
      SortOfSorted(s[1..]);
      assert [s[0]] + s[1..] == s;
    }
  }

  /** Sorting keeps the length and keeps every element inside any bounds the input respects. */
  lemma SortBounded(s: seq<real>, lo: real, hi: real)
    requires forall i :: 0 <= i < |s| ==> lo <= s[i] <= hi
    ensures |Sort(s)| == |s|
    ensures forall i :: 0 <= i < |Sort(s)| ==> lo <= Sort(s)[i] <= hi
  {
    var t := Sort(s);
    assert |t| == |multiset(t)| == |multiset(s)| == |s|;
    SameElements(s, t);
  }
}

=== FILE: tags.dfy ===
/** The event tags of processing_func.py (`get_time_tags`).

    A description file is read line by line. Nothing is collected before
    the first line naming the recording ("d1"); that line gives the begin
    time. From then on every line naming the tag gives a start time, and the
    line right after such a line gives the matching stop time. A time is the
    second whitespace-separated word of its line.
 */
module Tags {
  import opened Outcome
  import opened Text

  /** The text marking the first line of the recording. */
  const RecordingMarker: string := "d1"

  /** The dictionary `tag_time` with its three lists. */
  datatype TagTimes = TagTimes(begin: seq<string>, start: seq<string>, stop: seq<string>)

  /** The loop state: the lists so far, `run_first` and `is_found`. */
  datatype Scan = Scan(tags: TagTimes, runFirst: bool, isFound: bool)

  const Initial := Scan(TagTimes([], [], []), true, false)

  /** `line.split(maxsplit=2)[1]` exists exactly when the line has two words. */
  predicate HasField(line: string) {
    |Words(line)| >= 2
  }

  /** The second word of a line that has one. */
  function Field(line: string): string {
    if HasField(line) then Words(line)[1] else ""
  }

  /** Lines 55-61: the first "d1" line appends its time to `begin` and ends
      the search; indexing a line of one word raises. */
  function BeginStep(s: Scan, line: string): Result<Scan> {
    if !s.runFirst then Ok(s)
    else if !HasField(line) then Err(MissingField)
    else Ok(s.(tags := s.tags.(begin := s.tags.begin + [Field(line)]), runFirst := false))
  }

  /** Lines 63-68: the line after a tag line gives a stop time. */
  function StopStep(s: Scan, line: string): Result<Scan> {
    if !s.isFound then Ok(s)
    else if !HasField(line) then Err(MissingField)
    else Ok(s.(tags := s.tags.(stop := s.tags.stop + [Field(line)]), isFound := false))
  }

  /** Lines 70-75: a line naming the tag gives a start time. */
  function StartStep(s: Scan, line: string, tag: string): Result<Scan> {
    if !Contains(line, tag) then Ok(s)
    else if !HasField(line) then Err(MissingField)
    else Ok(s.(tags := s.tags.(start := s.tags.start + [Field(line)]), isFound := true))
  }

  /** One pass of the loop body (lines 50-75). Before the recording starts a
      line is skipped (`continue`); the line that starts it goes on to the
      stop and start tests like any other. */
  function TagStep(s: Scan, line: string, tag: string): Result<Scan> {
    if s.runFirst && !Contains(line, RecordingMarker) then Ok(s)
    else
      var s1 :- BeginStep(s, line);
      var s2 :- StopStep(s1, line);
      StartStep(s2, line, tag)
  }

  /** The loop over the lines, in order, stopping at the first exception. */
  function ScanLines(s: Scan, lines: seq<string>, tag: string): (r: Result<Scan>)
    ensures r.Err? ==> r.error == MissingField
    decreases |lines|
  {
    if |lines| == 0 then Ok(s)
    else
      var prev :- ScanLines(s, lines[..|lines| - 1], tag);
      TagStep(prev, lines[|lines| - 1], tag)
  }

  /** `get_time_tags` on the lines of the description file. */
  function GetTimeTags(lines: seq<string>, tag: string): (r: Result<TagTimes>)
    ensures r.Err? ==> r.error == MissingField
  {
    var s :- ScanLines(Initial, lines, tag);
    Ok(s.tags)
  }

  /** The position of the first line naming the recording. */
  function FirstMarked(lines: seq<string>): (r: Option<nat>)
    ensures r.None? ==> forall k :: 0 <= k < |lines| ==> !Contains(lines[k], RecordingMarker)
    ensures r.Some? ==> r.value < |lines| && Contains(lines[r.value], RecordingMarker)
    ensures r.Some? ==> forall k :: 0 <= k < r.value ==> !Contains(lines[k], RecordingMarker)
    decreases |lines|
  {
    if |lines| == 0 then None
    else if Contains(lines[0], RecordingMarker) then Some(0)
    else
      var r := FirstMarked(lines[1..]);
      if r.None? then None else Some(r.value + 1)
  }

  /** The start times of a recording: the field of every line naming the tag. */
  function Starts(rec: seq<string>, tag: string): seq<string>
    decreases |rec|
  {
    if |rec| == 0 then []
    else
      var n := |rec| - 1;
      Starts(rec[..n], tag) + if Contains(rec[n], tag) then [Field(rec[n])] else []
  }

  /** The stop times of a recording: the field of every line that follows a
      line naming the tag. */
  function Stops(rec: seq<string>, tag: string): seq<string>
    decreases |rec|
  {
    if |rec| <= 1 then []
    else
      var n := |rec| - 1;
      Stops(rec[..n], tag) + if Contains(rec[n - 1], tag) then [Field(rec[n])] else []
  }

  /** The loop reads the field of line `k` of a recording when it is the
      first line, names the tag, or follows a line naming the tag. */
  predicate Needed(rec: seq<string>, k: nat, tag: string)
    requires k < |rec|
  {
    k == 0 || Contains(rec[k], tag) || Contains(rec[k - 1], tag)
  }

  /** Every line whose field is read has one. */
  predicate Readable(rec: seq<string>, tag: string) {
    forall k :: 0 <= k < |rec| && Needed(rec, k, tag) ==> HasField(rec[k])
  }

  /** The tagged state after scanning a recording, as the reference lists
      describe it. */
  function Expected(rec: seq<string>, tag: string): Scan
    requires |rec| > 0
  {
    Scan(TagTimes([Field(rec[0])], Starts(rec, tag), Stops(rec, tag)), false, Contains(rec[|rec| - 1], tag))
  }

  /** Scanning a recording from its first line succeeds exactly when every
      line read has a field, and then yields the reference lists; the stop
      capture is armed exactly when the last line names the tag. */
  lemma {:induction false} RecordingScan(rec: seq<string>, tag: string)
    requires |rec| > 0 && Contains(rec[0], RecordingMarker)
    ensures ScanLines(Initial, rec, tag).Ok? <==> Readable(rec, tag)
    ensures ScanLines(Initial, rec, tag).Ok? ==> ScanLines(Initial, rec, tag).value == Expected(rec, tag)
    decreases |rec|
  {
    var n := |rec| - 1;
    var pre := rec[..n];
    if n == 0 {
      assert ScanLines(Initial, pre, tag) == Ok(Initial);
      FirstLineStep(rec, tag);
    } else {
      assert pre[0] == rec[0];
      RecordingScan(pre, tag);
      ReadableStep(rec, tag);
      if ScanLines(Initial, pre, tag).Ok? {
        ExpectedStep(rec, tag);
      }
    }
  }

  /** The "d1" line itself: it gives the begin time and may name the tag. */
  lemma FirstLineStep(rec: seq<string>, tag: string)
    requires |rec| == 1 && Contains(rec[0], RecordingMarker)
    ensures Readable(rec, tag) <==> HasField(rec[0])
    ensures TagStep(Initial, rec[0], tag) ==
              if HasField(rec[0]) then Ok(Expected(rec, tag)) else Err(MissingField)
  {
    var line := rec[0];
    assert Needed(rec, 0, tag);
    assert rec[..0] == [];
    assert Starts(rec, tag) == if Contains(line, tag) then [Field(line)] else [];
    if HasField(line) {
      var s1 := Scan(TagTimes([Field(line)], [], []), false, false);
      assert BeginStep(Initial, line).value.tags == s1.tags;
      assert BeginStep(Initial, line) == Ok(s1);
      assert StopStep(s1, line) == Ok(s1);
      assert StartStep(s1, line, tag) == Ok(Expected(rec, tag));
    }
  }

  /** A later line of the recording: it closes a frame when the line before
      named the tag, and opens one when it names the tag itself. */
  lemma ExpectedStep(rec: seq<string>, tag: string)
    requires |rec| > 1
    ensures var n := |rec| - 1;
            TagStep(Expected(rec[..n], tag), rec[n], tag) ==
              if Needed(rec, n, tag) && !HasField(rec[n]) then Err(MissingField) else Ok(Expected(rec, tag))
  {
    var n := |rec| - 1;
    var pre := rec[..n];
    assert pre[0] == rec[0] && pre[n - 1] == rec[n - 1];
    assert Starts(rec, tag) == Starts(pre, tag) + if Contains(rec[n], tag) then [Field(rec[n])] else [];
    assert Stops(rec, tag) == Stops(pre, tag) + if Contains(rec[n - 1], tag) then [Field(rec[n])] else [];
    var line := rec[n];
    var e := Expected(pre, tag);
    assert BeginStep(e, line) == Ok(e);
    if !(Needed(rec, n, tag) && !HasField(line)) {
      var s2 := e.(tags := e.tags.(stop := Stops(rec, tag)), isFound := false);
      if e.isFound {
        assert StopStep(e, line).value.tags == s2.tags;
      } else {
        assert Stops(rec, tag) == Stops(pre, tag);
        assert e == s2;
      }
      assert StopStep(e, line) == Ok(s2);
      if Contains(line, tag) {
        assert StartStep(s2, line, tag).value.tags == Expected(rec, tag).tags;
      } else {
        assert Starts(rec, tag) == Starts(pre, tag);
      }
      assert StartStep(s2, line, tag) == Ok(Expected(rec, tag));
    }
  }

  /** A recording is readable when its shorter prefix is and its last line
      has a field whenever that field is read. */
  lemma ReadableStep(rec: seq<string>, tag: string)
    requires |rec| > 1
    ensures Readable(rec, tag) <==>
              Readable(rec[..|rec| - 1], tag) && (Needed(rec, |rec| - 1, tag) ==> HasField(rec[|rec| - 1]))
  {
    var n := |rec| - 1;
    var pre := rec[..n];
    assert forall k :: 0 <= k < n ==> pre[k] == rec[k] && (Needed(pre, k, tag) <==> Needed(rec, k, tag));
  }

  /** Scanning two pieces is scanning the first, then the second. */
  lemma {:induction false} ScanAppend(s: Scan, a: seq<string>, b: seq<string>, tag: string)
    ensures ScanLines(s, a + b, tag) ==
              (var t := ScanLines(s, a, tag); if t.Err? then t else ScanLines(t.value, b, tag))
    decreases |b|
  {
    if |b| == 0 {
      assert a + b == a;
    } else {
      var n := |b| - 1;
      assert (a + b)[..|a + b| - 1] == a + b[..n];
      assert (a + b)[|a + b| - 1] == b[n];
      ScanAppend(s, a, b[..n], tag);
    }
  }

  /** Lines 55-61: lines before the first "d1" line are skipped, whatever
      they contain. */
  lemma {:induction false} UnmarkedLinesSkipped(lines: seq<string>, tag: string)
    requires forall k :: 0 <= k < |lines| ==> !Contains(lines[k], RecordingMarker)
    ensures ScanLines(Initial, lines, tag) == Ok(Initial)
    decreases |lines|
  {
    if |lines| > 0 {
      UnmarkedLinesSkipped(lines[..|lines| - 1], tag);
    }
  }

  /** `get_time_tags` against the reference lists: a file without a "d1"
      line yields three empty lists; otherwise the recording part of the
      file (from the first "d1" line on) is read, it fails exactly when a
      line it reads has no second word, and the lists are one begin time,
      the starts and the stops of the recording. */
  lemma TimeTagsOfFile(lines: seq<string>, tag: string)
    ensures FirstMarked(lines).None? ==> GetTimeTags(lines, tag) == Ok(TagTimes([], [], []))
    ensures FirstMarked(lines).Some? ==>
              var rec := lines[FirstMarked(lines).value..];
              && (GetTimeTags(lines, tag).Ok? <==> Readable(rec, tag))
              && (GetTimeTags(lines, tag).Ok? ==>
                    GetTimeTags(lines, tag).value == TagTimes([Field(rec[0])], Starts(rec, tag), Stops(rec, tag)))
  {
    var first := FirstMarked(lines);
    if first.None? {
      UnmarkedLinesSkipped(lines, tag);
    } else {
      var i := first.value;
      var rec := lines[i..];
      UnmarkedLinesSkipped(lines[..i], tag);
      ScanAppend(Initial, lines[..i], rec, tag);
      assert lines[..i] + rec == lines;
      RecordingScan(rec, tag);
    }
  }

  /** Every line naming the tag opens a frame that the next line closes, so
      there is one more start than stop exactly when the last line names the
      tag. */
  lemma {:induction false} StartsMatchStops(rec: seq<string>, tag: string)
    ensures |Starts(rec, tag)| == |Stops(rec, tag)| + if |rec| > 0 && Contains(rec[|rec| - 1], tag) then 1 else 0
    decreases |rec|
  {
    if |rec| > 1 {
      var n := |rec| - 1;
      StartsMatchStops(rec[..n], tag);
      assert rec[..n][n - 1] == rec[n - 1];
    }
  }

  /** The lists returned have at most one begin time, and the start list is
      the stop list's length or one longer. */
  lemma TagCountsBalanced(lines: seq<string>, tag: string)
    requires GetTimeTags(lines, tag).Ok?
    ensures var t := GetTimeTags(lines, tag).value;
            |t.begin| <= 1 && |t.stop| <= |t.start| <= |t.stop| + 1
  {
    TimeTagsOfFile(lines, tag);
    var first := FirstMarked(lines);
    if first.Some? {
      StartsMatchStops(lines[first.value..], tag);
    }
  }
}

=== FILE: text.dfy ===
/** String helpers with the meaning of the Python `str` methods the program
    uses: `startswith`, `endswith`, the `in` operator, `lower`, `split(sep)`
    and `split()`. Case folding covers ASCII letters only; `split()` separates
    on every character Python counts as whitespace.
 */
module Text {
  import opened Outcome

  predicate StartsWith(s: string, prefix: string) {
    |prefix| <= |s| && s[..|prefix|] == prefix
  }

  predicate EndsWith(s: string, suffix: string) {
    |suffix| <= |s| && s[|s| - |suffix|..] == suffix
  }

  /** `p` occurs in `s` starting at position `i`. */
  ghost predicate OccursAt(s: string, p: string, i: int) {
    0 <= i && i + |p| <= |s| && s[i..i + |p|] == p
  }

  /** Position of the first occurrence of a nonempty `p` in `s` (`str.find`). */
  function IndexOf(s: string, p: string): (r: Option<nat>)
    requires |p| > 0
    ensures r.Some? ==> OccursAt(s, p, r.value)
    ensures r.Some? ==> forall i :: 0 <= i < r.value ==> !OccursAt(s, p, i)
    ensures r.None? ==> forall i :: !OccursAt(s, p, i)
    decreases |s|
  {
    if |s| < |p| then None
    else if s[..|p|] == p then Some(0)
    else
      var r := IndexOf(s[1..], p);
      OccursInTail(s, p);
      if r.None? then None else Some(r.value + 1)
  }

  /** Past the first position, `p` occurs in `s` where it occurs in `s[1..]`, one further on. */
  lemma OccursInTail(s: string, p: string)
    requires |s| > 0
    ensures forall i :: i > 0 ==> (OccursAt(s, p, i) <==> OccursAt(s[1..], p, i - 1))
  {
    forall i | i > 0
      ensures OccursAt(s, p, i) <==> OccursAt(s[1..], p, i - 1)
    {
      if 0 <= i - 1 && i - 1 + |p| <= |s[1..]| {
        assert s[1..][i - 1..i - 1 + |p|] == s[i..i + |p|];
      }
    }
  }

  /** Python's `p in s`. */
  predicate Contains(s: string, p: string) {
    |p| == 0 || IndexOf(s, p).Some?
  }

  /** `p in s` holds exactly when `p` occurs somewhere in `s`. */
  lemma ContainsIff(s: string, p: string)
    ensures Contains(s, p) <==> exists i :: OccursAt(s, p, i)
  {
    if |p| == 0 {
      assert OccursAt(s, p, 0);
    }
  }

  function LowerChar(c: char): char {
    if 'A' <= c <= 'Z' then (c as int - 'A' as int + 'a' as int) as char else c
  }

  /** `str.lower()` restricted to ASCII letters. */
  function ToLower(s: string): (r: string)
    ensures |r| == |s|
    ensures forall i :: 0 <= i < |s| ==> r[i] == LowerChar(s[i])
  {
    seq(|s|, i requires 0 <= i < |s| => LowerChar(s[i]))
  }

  /** Inverse of `SplitOn`: the pieces glued back together with the separator. */
  function Join(pieces: seq<string>, sep: string): string
    requires |pieces| > 0
  {
    if |pieces| == 1 then pieces[0] else pieces[0] + sep + Join(pieces[1..], sep)
  }

  lemma NoEarlierOccurrence(s: string, p: string, i: nat)
    requires |p| > 0 && i <= |s|
    requires forall j :: 0 <= j < i ==> !OccursAt(s, p, j)
    ensures forall j :: !OccursAt(s[..i], p, j)
  {
    forall j | OccursAt(s[..i], p, j)
      ensures false
    {
      assert s[..i][j..j + |p|] == s[j..j + |p|];
      assert OccursAt(s, p, j);
    }
  }

  /** Python's `s.split(sep)` for a nonempty separator: the pieces between the
      non-overlapping occurrences of `sep`, scanned from the left. */
  function SplitOn(s: string, sep: string): (r: seq<string>)
    requires |sep| > 0
    ensures |r| > 0
    ensures forall k :: 0 <= k < |r| ==> !Contains(r[k], sep)
    ensures Join(r, sep) == s
    ensures |r| == 1 <==> IndexOf(s, sep).None?
    ensures |r| > 1 ==> IndexOf(s, sep) == Some(|r[0]|)
    ensures forall k :: 0 <= k < |r| - 1 ==> !Contains(r[k] + sep[..|sep| - 1], sep)
    decreases |s|
  {
    match IndexOf(s, sep)
    case None => [s]
    case Some(i) =>
      var rest := SplitOn(s[i + |sep|..], sep);
      SplitStep(s, sep, i, rest);
      LeftmostCut(s, sep, i);
      assert forall k :: 1 <= k < |rest| + 1 ==> ([s[..i]] + rest)[k] == rest[k - 1];
      [s[..i]] + rest
  }

  /** Cutting at the first occurrence leaves a piece that, followed by all
      but the last character of the separator, still holds no separator: no
      occurrence starts inside the piece, so the cut is the leftmost one. */
  lemma LeftmostCut(s: string, sep: string, i: nat)
    requires |sep| > 0 && OccursAt(s, sep, i)
    requires forall j :: 0 <= j < i ==> !OccursAt(s, sep, j)
    ensures !Contains(s[..i] + sep[..|sep| - 1], sep)
  {
    var t := s[..i] + sep[..|sep| - 1];
    assert t == s[..i + |sep| - 1] by {
      assert s[i..i + |sep|] == sep;
    }
    ContainsIff(t, sep);
    forall j | OccursAt(t, sep, j)
      ensures false
    {
      assert t[j..j + |sep|] == s[j..j + |sep|];
      assert OccursAt(s, sep, j);
    }
  }

  /** One step of `SplitOn`: the text before the first separator, followed by
      the pieces of the text after it. */
  lemma SplitStep(s: string, sep: string, i: nat, rest: seq<string>)
    requires |sep| > 0 && OccursAt(s, sep, i)
    requires forall j :: 0 <= j < i ==> !OccursAt(s, sep, j)
    requires |rest| > 0 && Join(rest, sep) == s[i + |sep|..]
    requires forall k :: 0 <= k < |rest| ==> !Contains(rest[k], sep)
    ensures forall k :: 0 <= k < |[s[..i]] + rest| ==> !Contains(([s[..i]] + rest)[k], sep)
    ensures Join([s[..i]] + rest, sep) == s
  {
    NoEarlierOccurrence(s, sep, i);
    ContainsIff(s[..i], sep);
    assert s[..i] + sep + s[i + |sep|..] == s by {
      assert s[i..i + |sep|] == sep;
    }
    assert ([s[..i]] + rest)[1..] == rest;
  }

  /** The first occurrence of the character `c` cuts `s` into the text before and after it. */
  function SplitOnce(s: string, c: char): (r: Option<(string, string)>)
    ensures r.None? <==> c !in s
    ensures r.Some? ==> s == r.value.0 + [c] + r.value.1 && c !in r.value.0
    decreases |s|
  {
    if |s| == 0 then None
    else if s[0] == c then Some(([], s[1..]))
    else
      match SplitOnce(s[1..], c)
      case None => None
      case Some((a, b)) => Some(([s[0]] + a, b))
  }

  lemma {:induction false} SplitOnceOfJoined(a: string, c: char, b: string)
    requires c !in a
    ensures SplitOnce(a + [c] + b, c) == Some((a, b))
    decreases |a|
  {
    if |a| > 0 {
      assert (a + [c] + b)[1..] == a[1..] + [c] + b;
      SplitOnceOfJoined(a[1..], c, b);
      assert [a[0]] + a[1..] == a;
    } else {
      assert a + [c] + b == [c] + b;
    }
  }

  /** The whitespace characters `str.split()` separates on: those for which
      `str.isspace()` holds, the ASCII controls 9-13 and 28-31, the space, and
      the Unicode spaces and line separators. */
  predicate IsSpace(c: char) {
    || '\t' <= c <= '\r'
    || '\U{1C}' <= c <= ' '
    || c == '\U{85}' || c == '\U{A0}' || c == '\U{1680}'
    || '\U{2000}' <= c <= '\U{200A}'
    || c == '\U{2028}' || c == '\U{2029}' || c == '\U{202F}' || c == '\U{205F}' || c == '\U{3000}'
  }

  /** Length of the run of non-whitespace characters that starts `s`. */
  function WordLength(s: string): (n: nat)
    ensures n <= |s|
    ensures forall j :: 0 <= j < n ==> !IsSpace(s[j])
    ensures n < |s| ==> IsSpace(s[n])
  {
    if |s| == 0 || IsSpace(s[0]) then 0 else 1 + WordLength(s[1..])
  }

  /** Python's `s.split()`: the maximal runs of non-whitespace characters, in order. */
  function Words(s: string): (r: seq<string>)
    ensures forall k :: 0 <= k < |r| ==> |r[k]| > 0
    ensures forall k, j :: 0 <= k < |r| && 0 <= j < |r[k]| ==> !IsSpace(r[k][j])
    decreases |s|
  {
    if |s| == 0 then []
    else if IsSpace(s[0]) then Words(s[1..])
    else
      var n := WordLength(s);
      [s[..n]] + Words(s[n..])
  }

  /** A word followed by whitespace is the first token of `split()`. */
  lemma {:induction false} WordsOfSpaced(w: string, c: char, rest: string)
    requires |w| > 0 && forall j :: 0 <= j < |w| ==> !IsSpace(w[j])
    requires IsSpace(c)
    ensures Words(w + [c] + rest) == [w] + Words([c] + rest)
  {
    var s := w + [c] + rest;
    WordLengthOf(w, c, rest);
    assert s[..|w|] == w;
    assert s[|w|..] == [c] + rest;
  }

  lemma {:induction false} WordLengthOf(w: string, c: char, rest: string)
    requires forall j :: 0 <= j < |w| ==> !IsSpace(w[j])
    requires IsSpace(c)
    ensures WordLength(w + [c] + rest) == |w|
    decreases |w|
  {
    if |w| > 0 {
      assert (w + [c] + rest)[1..] == w[1..] + [c] + rest;
      WordLengthOf(w[1..], c, rest);
    }
  }

  /** Text made only of whitespace has no token. */
  lemma {:induction false} WordsOfSpaces(s: string)
    requires forall j :: 0 <= j < |s| ==> IsSpace(s[j])
    ensures Words(s) == []
    decreases |s|
  {
    if |s| > 0 {
      WordsOfSpaces(s[1..]);
    }
  }

  /** Nonempty text without whitespace is a single token. */
  lemma WordsOfWord(w: string)
    requires |w| > 0 && forall j :: 0 <= j < |w| ==> !IsSpace(w[j])
    ensures Words(w) == [w]
  {
    WordLengthAppend(w, "");
    assert w + "" == w;
    assert w[..|w|] == w && w[|w|..] == "";
  }

  /** Splitting at a whitespace character splits the tokens: with
      `WordsOfSpaces` and `WordsOfWord` this fixes `Words` on every text. */
  lemma {:induction false} WordsSplitAt(a: string, c: char, b: string)
    requires IsSpace(c)
    ensures Words(a + [c] + b) == Words(a) + Words(b)
    decreases |a|, 1
  {
    var s := a + [c] + b;
    if |a| == 0 {
      assert s == [c] + b && s[1..] == b;
    } else if IsSpace(a[0]) {
      assert s[1..] == a[1..] + [c] + b;
      WordsSplitAt(a[1..], c, b);
    } else {
      WordsSplitAtWord(a, c, b);
    }
  }

  /** `WordsSplitAt` when the text before the separator starts with a word. */
  lemma {:induction false} WordsSplitAtWord(a: string, c: char, b: string)
    requires IsSpace(c) && |a| > 0 && !IsSpace(a[0])
    ensures Words(a + [c] + b) == Words(a) + Words(b)
    decreases |a|, 0
  {
    var s := a + [c] + b;
    var m := WordLength(a);
    WordLengthAppend(a, [c] + b);
    assert s == a + ([c] + b);
    if m < |a| {
      assert s[..m] == a[..m];
      assert s[m..] == a[m..] + [c] + b;
      WordsSplitAt(a[m..], c, b);
    } else {
      assert s[..m] == a && s[m..] == [c] + b;
      assert ([c] + b)[1..] == b;
      assert Words([c] + b) == Words(b);
      assert a[..m] == a && a[m..] == [];
      assert Words(a) == [a];
    }
  }

  /** The first token of a concatenation lies in the first part unless that
      part is one unbroken word. */
  lemma {:induction false} WordLengthAppend(a: string, t: string)
    ensures WordLength(a + t) == if WordLength(a) < |a| then WordLength(a) else |a| + WordLength(t)
    decreases |a|
  {
    if |a| > 0 {
      assert (a + t)[0] == a[0];
      assert (a + t)[1..] == a[1..] + t;
      WordLengthAppend(a[1..], t);
    } else {
      assert a + t == t;
    }
  }
}

=== FILE: thresholds.dfy ===
/** The thresholds of thresholdCalculation.py.

    EEP: the block minima and maxima of a channel are put on a log scale
    (`log10|x|`, with 0 kept as 0) and each threshold is the median of its
    list plus six sample standard deviations. ECG: the constant 0.9. LFP:
    three quarters plus a quarter of the median of the block ratios.
 */
module Thresholds {
  import opened Outcome
  import opened Auxiliary

  /** Minimum and maximum sample of one block. */
  datatype Extrema = Extrema(min: real, max: real)

  function Abs(x: real): real {
    if x < 0.0 then -x else x
  }

  /** `math.log(abs(x), 10)` for a nonzero value, and 0 kept as 0. */
  function Normalise(x: real, log10: real -> real): real {
    if x != 0.0 then log10(Abs(x)) else 0.0
  }

  /** The list `minList` of lines 23-35: one normalised minimum per block. */
  function NormalisedMins(blocks: seq<Extrema>, log10: real -> real): (r: seq<real>)
    ensures |r| == |blocks|
    ensures forall k :: 0 <= k < |r| ==> r[k] == Normalise(blocks[k].min, log10)
  {
    seq(|blocks|, k requires 0 <= k < |blocks| => Normalise(blocks[k].min, log10))
  }

  /** The list `maxList` of lines 23-35: one normalised maximum per block. */
  function NormalisedMaxes(blocks: seq<Extrema>, log10: real -> real): (r: seq<real>)
    ensures |r| == |blocks|
    ensures forall k :: 0 <= k < |r| ==> r[k] == Normalise(blocks[k].max, log10)
  {
    seq(|blocks|, k requires 0 <= k < |blocks| => Normalise(blocks[k].max, log10))
  }

  /** `median + 6 * stdev` of one list; `statistics.median` raises on an empty
      list and `statistics.stdev` on fewer than two values. */
  function MedianPlusSixSigma(values: seq<real>, sqrt: real -> real): (r: Result<real>)
    ensures r.Err? <==> |values| < 2
    ensures r.Err? ==> r.error == InsufficientData
  {
    if |values| < 2 then Err(InsufficientData)
    else Ok(Median(values) + 6.0 * StandardDeviation(values, sqrt))
  }

  /** The standard deviation is never negative, so the threshold is never
      below the median, and equals it exactly for a constant list. */
  lemma SixSigmaAboveMedian(values: seq<real>, sqrt: real -> real)
    requires |values| >= 2 && IsSqrt(sqrt)
    ensures Median(values) <= MedianPlusSixSigma(values, sqrt).value
    ensures MedianPlusSixSigma(values, sqrt).value == Median(values) <==> Constant(values)
  {
    var d := StandardDeviation(values, sqrt);
    assert MedianPlusSixSigma(values, sqrt).value == Median(values) + 6.0 * d;
  }

  /** `calculateThresholdsEEP`: the pair (minimum threshold, maximum threshold). */
  function ThresholdsEep(blocks: seq<Extrema>, log10: real -> real, sqrt: real -> real): (r: Result<(real, real)>)
    ensures r.Err? <==> |blocks| < 2
    ensures r.Err? ==> r.error == InsufficientData
  {
    var lo := MedianPlusSixSigma(NormalisedMins(blocks, log10), sqrt);
    var hi := MedianPlusSixSigma(NormalisedMaxes(blocks, log10), sqrt);
    if lo.Err? then Err(lo.error) else Ok((lo.value, hi.value))
  }

  /** The two thresholds are computed independently: the minimum threshold
      depends only on the normalised minima and the maximum threshold only on
      the normalised maxima. */
  lemma ThresholdsIndependent(a: seq<Extrema>, b: seq<Extrema>, log10: real -> real, sqrt: real -> real)
    requires |a| >= 2 && |b| >= 2
    ensures NormalisedMins(a, log10) == NormalisedMins(b, log10) ==>
              ThresholdsEep(a, log10, sqrt).value.0 == ThresholdsEep(b, log10, sqrt).value.0
    ensures NormalisedMaxes(a, log10) == NormalisedMaxes(b, log10) ==>
              ThresholdsEep(a, log10, sqrt).value.1 == ThresholdsEep(b, log10, sqrt).value.1
  {
  }

  /** Each EEP threshold is at least the median of its normalised list. */
  lemma ThresholdsAboveMedians(blocks: seq<Extrema>, log10: real -> real, sqrt: real -> real)
    requires |blocks| >= 2 && IsSqrt(sqrt)
    ensures Median(NormalisedMins(blocks, log10)) <= ThresholdsEep(blocks, log10, sqrt).value.0
    ensures Median(NormalisedMaxes(blocks, log10)) <= ThresholdsEep(blocks, log10, sqrt).value.1
  {
    SixSigmaAboveMedian(NormalisedMins(blocks, log10), sqrt);
    SixSigmaAboveMedian(NormalisedMaxes(blocks, log10), sqrt);
  }

  /** With every block normalising to the same pair of values the thresholds
      are exactly that pair: the deviation term vanishes. In particular a
      list of all-zero extrema gives the thresholds (0, 0). */
  lemma ThresholdsOfConstant(blocks: seq<Extrema>, log10: real -> real, sqrt: real -> real, a: real, b: real)
    requires |blocks| >= 2 && IsSqrt(sqrt)
    requires forall k :: 0 <= k < |blocks| ==>
               Normalise(blocks[k].min, log10) == a && Normalise(blocks[k].max, log10) == b
    ensures ThresholdsEep(blocks, log10, sqrt) == Ok((a, b))
  {
    var mins, maxes := NormalisedMins(blocks, log10), NormalisedMaxes(blocks, log10);
    MedianBounded(mins, a, a);
    MedianBounded(maxes, b, b);
    assert Constant(mins) && Constant(maxes);
    SixSigmaAboveMedian(mins, sqrt);
    SixSigmaAboveMedian(maxes, sqrt);
  }

  lemma ThresholdsOfZeros(blocks: seq<Extrema>, log10: real -> real, sqrt: real -> real)
    requires |blocks| >= 2 && IsSqrt(sqrt)
    requires forall k :: 0 <= k < |blocks| ==> blocks[k] == Extrema(0.0, 0.0)
    ensures ThresholdsEep(blocks, log10, sqrt) == Ok((0.0, 0.0))
  {
    ThresholdsOfConstant(blocks, log10, sqrt, 0.0, 0.0);
  }

  /** `calculateThresholdECG`. */
  const EcgThreshold: real := 0.9

  /** `calculateThresholdLFP`: `0.75 + 0.25 * median`; the median raises on an
      empty list. */
  function ThresholdLfp(values: seq<real>): (r: Result<real>)
    ensures r.Err? <==> |values| == 0
    ensures r.Err? ==> r.error == InsufficientData
    ensures r.Ok? ==> r.value - 0.75 == 0.25 * Median(values)
  {
    if |values| == 0 then Err(InsufficientData) else Ok(0.75 + 0.25 * Median(values))
  }

  /** The LFP threshold grows with the median: of two lists, the one with the
      larger median has the larger threshold. */
  lemma ThresholdLfpMonotone(a: seq<real>, b: seq<real>)
    requires |a| > 0 && |b| > 0 && Median(a) <= Median(b)
    ensures ThresholdLfp(a).value <= ThresholdLfp(b).value
  {
  }

  /** For ratios between 0 and 1 (what the Fourier ratio yields when the bands
      are nested) the LFP threshold lies between 0.75 and 1, so no block with
      a ratio of at most 0.75 is ever flagged, and a constant list flags
      nothing. */
  lemma ThresholdLfpOfFractions(values: seq<real>)
    requires |values| > 0
    requires forall k :: 0 <= k < |values| ==> 0.0 <= values[k] <= 1.0
    ensures 0.75 <= ThresholdLfp(values).value <= 1.0
    ensures forall k :: 0 <= k < |values| && values[k] > ThresholdLfp(values).value ==> values[k] > 0.75
    ensures Constant(values) ==> forall k :: 0 <= k < |values| ==> values[k] <= ThresholdLfp(values).value
  {
    MedianBounded(values, 0.0, 1.0);
    if Constant(values) {
      MedianBounded(values, values[0], values[0]);
    }
  }
}
